=== FILE: README.md ===
# Recruitment backend — a Dafny model

This project models the request-handling core of a small Express/Mongo
recruitment backend. Users sign up as Admins or Applicants. Admins post jobs
and browse applicants. Applicants apply for jobs and upload a résumé, which a
third-party parser turns into profile fields.

The database is a functional `Store`: one finite map per collection (users,
jobs, applications, profiles), the set of files on disk, and the next free
ObjectId. Each handler is a pure function from a store and a request to a new
store and a `Response`: a status and a `Success`/`Failure` body. Everything
outside the program is a parameter. That covers JWT verification, password
hashing, ObjectId casting, `$regex` matching, `isEmail`/`normalizeEmail`, the
résumé parser, `Date.now()`, `Math.random()`, the outcome of `fs.unlinkSync`,
and database faults.

Modules, in dependency order:

- `Wrappers`: `Option` and `Result`.
- `Text`, `Numerals`: trimming, lower-casing, `split`, `path.extname`, and decimal numerals.
- `Models`: the Job, Application and Profile schemas, with their setters, defaults, enums and bounds.
- `Store`: the store, `findOne` in id order, and the unique (job, applicant) index.
- `Pagination`, `Filters`: the listing arithmetic, and the Mongo filters as data.
- `Http`: responses and the JSON views, one per response shape, with `populate` resolved against the store; a populated profile is the whole stored document. No view carries a password.
- `Guard`: `authenticateToken` and the three role checks.
- `Accounts`: `generateToken`, `signup`, `login`.
- `Validation`: the express-validator chains and `handleValidationErrors`.
- `Upload`: the multer configuration and `handleUploadError`.
- `Errors`: the 404 fallback and the global error handler.
- `Resume`: `uploadResume`.
- `Jobs`: `createJob`, `getAllJobs`, `getJobDetails`, `applyForJob`.
- `Ledger`: the per-job invariant that counter = applications = distinct applicants.
- `Admin`: the three admin handlers.
- `Routes`: each handler behind the guards its router puts in front of it.

Where a description of the system and its code part ways, the model follows the code:

- The duplicate-application check is a read before the write. The unique index is only a backstop, so a concurrent duplicate ends in the catch-all 500.
- The résumé handler's cleanup also runs when linking the user fails. By then the profile is already saved, so that profile keeps pointing at the deleted file.
- An inactive job is refused with 400, the same status as the other request errors.
- `getAllApplicants` lists every user, admins included, unless `userType` narrows it.
- `getApplicantDetails` answers for any existing user, whatever their role.
- Validation and the Job schema measure length differently, so a body can pass validation and still be refused by the schema. A title of 200 letters followed by U+FE0F is one such body, and it ends in the catch-all 500 instead of a 400.
- A signup whose profile writes fail leaves the user saved. The reply is a 500, and signing up again is refused because the email is taken.

## Model

| member | source | states |
|---|---|---|
| Models.ParseJobType | models/Job.js:61-65 | a string is accepted by the enum only as the name of the value it yields |
| Models.ParseJobTypeName | models/Job.js:61-65 | every one of the five job types is accepted under its own name, so the enum check is exact |
| Models.SetTrimmed | models/Job.js:4-21 | the `trim` setter keeps presence and yields the trimmed text, which is a fixed point of trimming |
| Models.RequiredTextError | models/Job.js:4-21 | a required bounded path reports no error exactly when it is present, non-empty and at most its maximum in UTF-16 code units, and at most one error otherwise |
| Models.OptionalTextError | models/Job.js:39-48 | an optional bounded path reports no error exactly when it is absent or at most its maximum in UTF-16 code units |
| Models.RequiredJobPathErrors | models/Job.js:4-21 | title, description and company name pass exactly when each is present and within 200/2000/100 UTF-16 code units |
| Models.OptionalJobPathErrors | models/Job.js:39-65 | requirements and location pass exactly when within 1000/100 UTF-16 code units, and jobType when absent or one of the five values |
| Models.JobErrors | models/Job.js:3-65 | the schema reports no error exactly when every path satisfies its rule |
| Models.TrimmedWithin | models/Job.js:4-21 | after the setter, a `maxlength` (in UTF-16 code units) or `required` holds exactly when it holds of the trimmed input |
| Models.AcceptableJobIff | models/Job.js:3-65 | the schema's acceptance, stated on the raw input in terms of the trimmed texts' UTF-16 lengths and the enum |
| Models.NewJob | models/Job.js:3-78 | a job saves exactly when the input is acceptable; a saved job is owned by its poster, active, has no applications, defaults to Full-time, keeps the client's currency or defaults it to USD, stores trimmed text, and its `postedOn` is its creation time; a refused job carries at least one error |
| Models.NewApplication | models/Application.js:3-27 | a new application names its job and applicant, has status Applied, was applied at creation time, and satisfies the schema |
| Models.WithNotes | models/Application.js:23-27 | notes are accepted exactly when at most 500 UTF-16 code units after trimming, and are stored trimmed |
| Models.SetEmail | models/Profile.js:29-33 | the email setter keeps presence and yields text that is trimmed and already lower-case |
| Models.SetTrimmedFixes | models/Profile.js:9-37 | re-assigning already trimmed text changes nothing |
| Models.SetEmailFixes | models/Profile.js:29-33 | re-assigning an already normalised email changes nothing |
| Models.SettersFixNormal | models/Profile.js:9-37 | a profile whose fields went through the setters is a fixed point of them |
| Models.NewProfile | models/Profile.js:3-45 | a new profile belongs to its applicant, copies the trimmed name and normalised email, leaves the other fields unset, has `{}` as extracted data, and is normalised |
| Store.UserByEmail | controllers/authController.js:16 | a found user has the email; in a well-formed store no user has it when none is found |
| Store.ProfileOf | controllers/resumeController.js:20 | the found profile belongs to the applicant and is the oldest such; none is found only when the applicant has no profile |
| Store.ApplicationFor | controllers/jobController.js:210-213 | a found application is for the pair; none is found only when no application for the pair exists |
| Store.InsertApplication | models/Application.js:33 | the unique index refuses an insert exactly when an application for the same pair exists; otherwise the application is stored under a fresh id |
| Store.InsertProfile | models/Profile.js:47 | a profile is always stored under a fresh id; nothing is checked |
| Store.ProfilesNotUnique | models/Profile.js:47 | a second profile for an applicant is stored, and lookup still finds the first |
| Store.ApplicationsUnique | models/Application.js:33 | after one application for a pair, a second insert for the same pair is refused |
| Pagination.PageCount | controllers/jobController.js:111 | the page count is the least number of pages of the given size that hold all the results |
| Pagination.Paginate | controllers/jobController.js:109-115 | the pagination object: the page, the total, the least sufficient page count, `hasNext` exactly when `page*limit < total`, `hasPrev` exactly when `page > 1` |
| Pagination.HasNextIffNotLast | controllers/jobController.js:109-115 | there is a next page exactly when the current page is before the last one |
| Pagination.SkipWithinResults | controllers/jobController.js:64-65 | a page starts inside the results exactly when it is at most the page count |
| Pagination.PagesTile | controllers/jobController.js:65 | each page starts where the previous one ends |
| Filters.AllJobsFilter | controllers/jobController.js:67-83 | the filter always requires `isActive: true`, has a jobType condition exactly when jobType is truthy (an exact match), a location condition exactly when location is truthy, and a disjunction exactly when search is truthy |
| Filters.AllJobsFilterSelects | controllers/jobController.js:67-83 | a job matches exactly when it is active, its title, description or company matches a truthy search, its location matches a truthy location, and its type equals a truthy jobType |
| Filters.ApplicantsFilter | controllers/adminController.js:10-20 | the filter is empty unless search or userType is truthy, and constrains only userType besides the search disjunction |
| Filters.ApplicantsFilterSelects | controllers/adminController.js:10-20 | a user matches exactly when a truthy search matches name, email or headline, and a truthy userType equals theirs |
| Filters.AdminJobsFilter | controllers/adminController.js:120-126 | the filter always restricts postedBy to the admin; status 'active' or 'inactive' adds the flag, and any other status adds nothing |
| Filters.AdminJobsFilterSelects | controllers/adminController.js:120-126 | a job matches exactly when the admin posted it and its flag agrees with an 'active' or 'inactive' status |
| Http.ViewJob | controllers/jobController.js:132-160 | the details job is the created-job view plus `postedBy` populated: the owner's summary while that user exists, null after |
| Http.ViewCreatedJob | controllers/jobController.js:36-48 | the reply to creating a job has no `postedBy`, shows the creation time as `postedOn` and the stored counter |
| Http.PopulateOwner | controllers/jobController.js:133 | the populated owner exists exactly when the user does, and then carries that user's id and email |
| Http.PopulateApplicant | controllers/jobController.js:144 | the populated applicant exists exactly when the user does, and then carries that user's id, email and role |
| Http.PopulateJob | controllers/adminController.js:80 | the populated job exists exactly when the job does, and then carries that job's id and title |
| Guard.IdentityOf | middlewares/auth.js:16-23 | `req.user` carries the user's id, role and profile reference |
| Guard.BearerToken | middlewares/auth.js:7-8 | the token is the non-empty second space-separated field of the header |
| Guard.BearerTokenOfHeader | middlewares/auth.js:7-8 | any first word, a space and a token yield that token: the scheme is not checked |
| Guard.NoSpaceNoToken | middlewares/auth.js:7-14 | a header without a space carries no token |
| Guard.VerifyFailure | middlewares/auth.js:25-42 | JsonWebTokenError gives 401 "Invalid token", TokenExpiredError gives 401 "Token has expired", and anything else gives 500 |
| Guard.Authenticate | middlewares/auth.js:5-44 | a missing token gives 401; a refused token gives its classified response; the request passes exactly when the token decodes to an existing user, whose identity it carries |
| Guard.UserGoneRefused | middlewares/auth.js:16-22 | a valid token for a deleted user gives 401 "Invalid token - user not found" |
| Guard.RequireAdmin | middlewares/auth.js:47-55 | passes exactly the role 'Admin', and answers 403 otherwise |
| Guard.RequireApplicant | middlewares/auth.js:58-66 | passes exactly the role 'Applicant', and answers 403 otherwise |
| Guard.RequireUser | middlewares/auth.js:69-77 | passes exactly the roles 'Admin' and 'Applicant', and answers 403 otherwise |
| Guard.GuardsAgree | middlewares/auth.js:47-77 | `requireUser` admits exactly those whom one of the other two admits, and no one passes both |
| Accounts.GenerateToken | controllers/authController.js:6-10 | the token carries only the user id, is issued in the current second, and expires 604800 seconds later |
| Accounts.TokenLivesSevenDays | controllers/authController.js:6-10 | `Live` holds of an issued token for seven days less a second and fails from seven days on, whatever the milliseconds |
| Accounts.GuardHonoursExpiry | controllers/authController.js:6-10 | when `jwt.verify` applies that expiry, `authenticateToken` lets an issued token's existing user through for seven days less a second and answers the expiry 401 from seven days on |
| Accounts.PopulateProfile | controllers/authController.js:79 | populating yields the referenced profile exactly when the reference is set and the profile exists, under the referenced id |
| Accounts.PopulatedProfileIsWholeDocument | models/Profile.js:3-46 | the populated profile is the whole stored document: two stores give the same one exactly when their documents agree, it carries `applicant` and `extractedData`, and the upload reply is a projection of it |
| Accounts.RoleOf | controllers/authController.js:28 | a truthy userType is kept, and anything else becomes 'Applicant' |
| Accounts.NewUser | controllers/authController.js:24-31 | the new user stores the hashed secret, the defaulted role, no profile reference, and the body's other fields |
| Accounts.SaveUser | controllers/authController.js:33 | the user gets the next id and nothing else changes |
| Accounts.AttachProfile | controllers/authController.js:35-44 | an applicant gets a new profile copied from their name and email, and their user record points to it; jobs, applications and files are untouched |
| Accounts.AttachProfileWf | controllers/authController.js:35-44 | attaching a profile keeps the store well formed |
| Accounts.Enrol | controllers/authController.js:35-62 | a non-applicant gets the 201 at once; for an applicant, a failed profile save is a 500 with the profile unsaved, a failed link a 500 with the profile saved but unlinked, and otherwise the profile is attached and the 201 sent |
| Accounts.CreateAccount | controllers/authController.js:24-44 | an applicant's account comes with an attached profile, and any other role's does not |
| Accounts.Signup | controllers/authController.js:13-71 | a known email gives 400 and changes nothing; a failed first save gives 500 and changes nothing; otherwise the user is saved and enrolled; 201 exactly when the email is free and no write the role needs fails, and every other answer is 400 or 500 |
| Accounts.SignupPreserves | controllers/authController.js:16-44 | signup keeps the store well formed and emails unique whatever write fails; after a 201 the new user is linked to exactly one new profile of its own if an applicant, and to none otherwise |
| Accounts.EnrolPreserves | controllers/authController.js:35-44 | enrolling keeps the store well formed, adds no user and changes no email or other user; after a 201 the user is linked to a new profile exactly when an applicant |
| Accounts.FaultFreeSignupCreates | controllers/authController.js:24-62 | without faults, a signup with a free email creates the account and answers 201 with it |
| Accounts.ProfileFaultStrandsUser | controllers/authController.js:33-37 | a failed `profile.save()` leaves the applicant stored without a profile and answers 500, and signing up again is then refused as a known email |
| Accounts.LinkFaultLeavesUnlinkedProfile | controllers/authController.js:35-43 | a failed linking `user.save()` leaves a stored profile of the applicant that the user does not point to, and answers 500 |
| Accounts.Login | controllers/authController.js:74-119 | every failure is the same 401; success is 200 for the email's user, whose secret matched, with their view, populated profile and token |
| Accounts.LoginFailuresAlike | controllers/authController.js:79-92 | an unknown email and a wrong secret get identical responses |
| Accounts.SignupThenLogin | controllers/authController.js:13-119 | once the user is saved, logging in with the same email and secret succeeds, even if a later profile write failed |
| Validation.Rule | middlewares/validation.js:4-14 | one rule reports an error exactly when its check fails, and the error names the field, the sanitized value it checked, the message and the body as its location |
| Validation.Optional | middlewares/validation.js:34-37 | an `optional()` chain reports nothing for an absent field and its rules' errors otherwise |
| Validation.HandleValidationErrors | middlewares/validation.js:4-14 | the request proceeds exactly when there are no errors; otherwise 400 "Validation failed" with every error entry, each echoing the value it checked |
| Validation.RequiredChain | middlewares/validation.js:17-22 | a required chain passes exactly when the value is present, non-empty and within its maximum as `isLength` counts it (code points, variation selectors not counted) |
| Validation.OptionalMaxChain | middlewares/validation.js:39-43 | an optional bounded chain passes exactly when the value is absent or within its maximum as `isLength` counts it |
| Validation.EmailChain | middlewares/validation.js:24-28 | the email chain passes exactly when the email oracle accepts |
| Validation.CredentialErrors | middlewares/validation.js:17-32 | name, email and password pass exactly when the name is non-empty and at most 100 by `isLength`, the email is accepted, and the password is at least 6 by `isLength` |
| Validation.ProfileFieldErrors | middlewares/validation.js:34-49 | userType, headline and address pass exactly when the role is absent or one of the two, and the headline and address are within 200/500 by `isLength` |
| Validation.SignupErrorsNone | middlewares/validation.js:16-52 | signup validation reports nothing exactly when the raw body satisfies every rule after trimming |
| Validation.BlankNameReported | middlewares/validation.js:17-20 | a name that is blank after trimming is the first error, "Name is required" |
| Validation.CheckSignup | middlewares/validation.js:16-52 | a body passes exactly when valid; a refused body gets the 400 with its errors; a passed body reaches signup trimmed, with the email normalised and the password untouched |
| Validation.ShortPasswordEchoed | middlewares/validation.js:29-31 | a password shorter than 6 is refused with a 400 whose errors include it verbatim, so two such passwords get different replies |
| Validation.ValidatedRole | middlewares/validation.js:34-37 | after validation the account's role is always 'Admin' or 'Applicant' |
| Validation.LoginErrors | middlewares/validation.js:55-67 | login passes exactly when the trimmed email is accepted and the password is non-empty; a one-space password passes |
| Validation.CheckLogin | middlewares/validation.js:55-67 | a body passes exactly when login validation reports nothing, and reaches the handler with the normalised email |
| Validation.IntegerAccepted | middlewares/validation.js:109-117 | a sign (or none) followed by digits is numeric |
| Validation.FractionAccepted | middlewares/validation.js:109-117 | a sign (or none), digits, a point and at least one digit is numeric |
| Validation.NumericShape | middlewares/validation.js:109-117 | anything numeric ends in a digit and has only digits and points after its first character |
| Validation.RequiredJobErrors | middlewares/validation.js:71-90 | title, description and company pass exactly when present, non-empty and within 200/2000/100 by `isLength` |
| Validation.OptionalJobErrors | middlewares/validation.js:92-117 | requirements, location, jobType and the salary bounds pass exactly when within 1000/100 by `isLength`, one of the five types, and numeric |
| Validation.JobCreationErrorsNone | middlewares/validation.js:70-120 | job validation reports nothing exactly when the body satisfies every rule |
| Validation.CheckJob | middlewares/validation.js:70-120 | a body passes exactly when valid, is refused with the 400 otherwise, and reaches the handler trimmed |
| Validation.ValidatedJobSaves | middlewares/validation.js:70-107 | a body validation passes is saved by the Job schema exactly when its texts also fit the schema's bounds in UTF-16 code units; a saved job keeps the sanitized text |
| Validation.TrimmedJobSaves | middlewares/validation.js:70-107 | a trimmed body with its required texts present and a known job type saves exactly when its texts fit the schema's UTF-16 bounds |
| Validation.SanitizedAcceptable | middlewares/validation.js:70-107 | on a trimmed body with the required texts and a known type, the schema's acceptance is exactly the UTF-16 bounds |
| Validation.SanitizedFits | models/Job.js:4-48 | the `trim` setter does nothing more to sanitized text, so `maxlength` judges the text the validator passed on |
| Validation.PlainMeasuresAgree | middlewares/validation.js:70-107 | without astral characters or variation selectors, `isLength` and `maxlength` measure the same length |
| Validation.PlainValidatedJobSaves | middlewares/validation.js:70-107 | a validated body whose texts are plain always saves |
| Validation.SelectorTitlePassesValidation | middlewares/validation.js:71-75 | a title of 200 letters and U+FE0F passes validation and is refused by the schema, which ends in the catch-all 500 |
| Upload.FileFilter | middlewares/upload.js:22-37 | a refusal always carries the filter's message |
| Upload.MimeAloneSuffices | middlewares/upload.js:32 | a listed MIME type is accepted whatever the file is called |
| Upload.UpperCaseExtensionAccepted | middlewares/upload.js:30-32 | a name ending in ".PDF" is accepted whatever the MIME type, since the extension is lower-cased |
| Upload.NoExtensionNeedsMime | middlewares/upload.js:30-32 | a name without a dot is accepted exactly when the MIME type is listed |
| Upload.StoredName | middlewares/upload.js:15-19 | every stored name starts with "resume-" |
| Upload.ParseStoredName | middlewares/upload.js:15-19 | only names starting with "resume-" are read back |
| Upload.StoredNameRoundTrip | middlewares/upload.js:15-19 | the stored name determines the timestamp, the random draw and the original extension |
| Upload.StoredNameKeepsExtension | middlewares/upload.js:17-18 | the stored file has the client's extension, case preserved |
| Upload.Receive | middlewares/upload.js:40-50 | a stored file is the single part, in field "resume", passing the filter and under 5 MiB, saved under the generated name; no parts means no file; the first part's field, filter and size are judged before the count, and a refusal happens exactly when the first part is unacceptable or there is more than one part | |
| Upload.HandleUploadError | middlewares/upload.js:52-74 | the size and count codes and the filter's message get their own 400; exactly the other errors are passed on |
| Upload.ReceiveRefusals | middlewares/upload.js:52-74 | a filtered file gets the filter reply, an oversized one the size reply, and a wrong field is passed on |
| Upload.TwoFilesRefused | middlewares/upload.js:43-65 | a second file after an acceptable first one gets the count reply |
| Upload.FirstPartDecides | middlewares/upload.js:40-65 | an unacceptable first part decides the outcome whatever follows it, so a filtered first file gets the filter reply even with a second file |
| Upload.SizeLimitReached | middlewares/upload.js:44 | a file one byte short of 5 MiB is stored, and a file of exactly 5 MiB gets the size reply |
| Errors.Classify | app.js:50-77 | ValidationError first, then CastError, then code 11000, then the rest |
| Errors.RouteNotFound | app.js:39-44 | an unmatched route gives 404 "API endpoint not found" |
| Errors.StatusOf | app.js:73 | the error's own status, or 500 when it is missing or zero |
| Errors.MessageOf | app.js:75 | the error's own non-empty message, or the default; never empty |
| Errors.HandleError | app.js:46-78 | the three classified kinds give 400 with their messages, field list or first duplicate key; the rest gets its status and message, with the stack exactly in development |
| Errors.FirstMatchWins | app.js:50-71 | a duplicate-key error named ValidationError or CastError is reported under that name |
| Errors.OnlyStackDiffers | app.js:73-77 | development mode changes nothing but the stack of an unclassified error |
| Errors.SchemaError | app.js:54 | a schema error carries one message per failed path, in order |
| Errors.SchemaErrorListed | app.js:50-56 | the handler lists a schema error's messages in order |
| Errors.FromUpload | middlewares/upload.js:73 | a passed-on upload error carries no status and keeps its message |
| Errors.PassedUploadErrorIs500 | app.js:73-77 | an upload error passed on ends as a 500 with its own message |
| Resume.Or | controllers/resumeController.js:36-38 | `a \|\| b`: the first value when truthy, else the second |
| Resume.SkillsText | controllers/resumeController.js:40 | skills render unless they are not a list; absent skills become "" |
| Resume.EducationText | controllers/resumeController.js:41-42 | education renders unless it is not a list; absent education becomes "" |
| Resume.ExperienceText | controllers/resumeController.js:43-44 | experience renders unless it or an entry's dates are not a list; absent experience becomes "" |
| Resume.ExperienceLineShapes | controllers/resumeController.js:44 | an entry renders as "name (N/A)" without dates, "name (d1 - d2)" with two, and "undefined (N/A)" without a name |
| Resume.MergeStages | controllers/resumeController.js:35-46 | name, email and phone take a truthy parser value else keep theirs; skills, education and experience are overwritten in order until one fails to render; the raw result is kept only after all three |
| Resume.MergeKeepsNormal | controllers/resumeController.js:35-46 | the merge assigns through the setters, so a normalised profile stays normalised |
| Resume.TruthyOverwrite | controllers/resumeController.js:36-38 | an empty or absent parser value never overwrites name, email or phone |
| Resume.CompleteMerge | controllers/resumeController.js:35-47 | a result whose lists are lists is merged completely and stored verbatim as extracted data |
| Resume.MissingListClears | controllers/resumeController.js:40-42 | a list the parser left out still overwrites the field with "" |
| Resume.MalformedSkillsStopMerge | controllers/resumeController.js:40 | skills that are not a list stop the merge after name, email and phone |
| Resume.ApplyParse | controllers/resumeController.js:32-51 | a thrown or empty parser result changes nothing; only a returned result is merged |
| Resume.Staged | controllers/resumeController.js:20-29 | the applicant's oldest profile or a new one copied from the user, recording the file path either way |
| Resume.SaveProfile | controllers/resumeController.js:53 | an existing profile is updated in place, and a new one gets the next id; no other collection changes |
| Resume.SaveProfileWf | controllers/resumeController.js:53 | saving the profile keeps the store well formed |
| Resume.LinkUser | controllers/resumeController.js:56 | the user points to the profile; a missing user changes nothing |
| Resume.Cleanup | controllers/resumeController.js:79-85 | a successful deletion removes the file, and a failed one changes nothing |
| Resume.Persist | controllers/resumeController.js:53-92 | 200 exactly when the save succeeds and, for an unlinked user, the link does; a failure gives 500 and deletes the file; success stores the merged profile and returns its view |
| Resume.PersistUnlinkInvisible | controllers/resumeController.js:79-91 | the deletion's outcome never changes the response |
| Resume.PersistKeepsWf | controllers/resumeController.js:53-57 | saving and linking keep the store well formed |
| Resume.UploadResume | controllers/resumeController.js:8-93 | no file gives 400 and changes nothing; a failed lookup gives 500 and cleanup; otherwise the staged, merged profile is persisted |
| Resume.FailuresClean | controllers/resumeController.js:76-92 | every response is 200 or the catch-all 500; a 500 attempts to delete the file, and success leaves the files alone |
| Resume.UnlinkInvisible | controllers/resumeController.js:79-91 | whether the deletion succeeds never changes the response |
| Resume.ParserCannotFailUpload | controllers/resumeController.js:32-53 | without database faults the upload answers 200 whatever the parser did, records the file, and keeps every parsed field when the parser failed |
| Resume.CreatesMissingProfile | controllers/resumeController.js:20-28 | an applicant without a profile gets one under the next id, belonging to them |
| Resume.LinksOnlyUnlinked | controllers/resumeController.js:55-57 | the user is linked only when they had no profile reference |
| Resume.LinkFailureKeepsProfile | controllers/resumeController.js:53-57 | when the link fails, the saved profile stays, the file is deleted, and the answer is 500 |
| Resume.UploadKeepsWf | controllers/resumeController.js:8-93 | the handler keeps the store well formed |
| Jobs.CreateJob | controllers/jobController.js:7-59 | 201 exactly when the schema accepts and the save succeeds, storing the job under the next id; any failure is a 500 and changes nothing |
| Jobs.CreatedJobOwned | controllers/jobController.js:19-50 | a created job belongs to its creator, is active, has no applications, and its reply shows the creation time and no owner |
| Jobs.CreateJobWf | controllers/jobController.js:30 | creating a job keeps the store well formed |
| Jobs.GetAllJobs | controllers/jobController.js:62-126 | 200 with the pagination of the number of jobs the filter selects |
| Jobs.ListingOnlyActive | controllers/jobController.js:67 | an inactive job is never counted |
| Jobs.UnfilteredListingCountsActive | controllers/jobController.js:67-91 | with no parameters, exactly the active jobs are counted |
| Jobs.ApplicationsOfJob | controllers/jobController.js:143-145 | exactly the applications of the job, each with its applicant populated |
| Jobs.GetJobDetails | controllers/jobController.js:128-181 | a malformed id gives 500, an unknown job 404, and otherwise 200 with the job, its owner populated, and all its applications |
| Jobs.DetailsShowOwnApplications | controllers/jobController.js:143-170 | an application is shown exactly when it belongs to the job shown, and its entry carries the applicant's id while that user exists |
| Jobs.DetailsPopulateOwner | controllers/jobController.js:132-160 | the details show the job's owner while that user exists, and null after |
| Jobs.AddToSet | controllers/jobController.js:228 | `$addToSet`: the element is present afterwards, nothing else is added, and a present element changes nothing |
| Jobs.RecordApplicant | controllers/jobController.js:227-230 | the counter grows by one, the applicant is added as a set element, and nothing else changes |
| Jobs.ApplyCheck | controllers/jobController.js:189-220 | the checks in order: id given, well-formed, job exists, job active, no application for the pair |
| Jobs.ApplyForJob | controllers/jobController.js:184-253 | a refusal changes nothing; 201 exactly when the checks pass and no write fails; an accepted apply stores one Applied application under a fresh id, then records the applicant on the job unless that update fails |
| Jobs.ReplyEchoesQueryId | controllers/jobController.js:233-243 | the 201 reply names the job as the query spelled its id, and that spelling casts to the job applied for |
| Jobs.RefusalsChangeNothing | controllers/jobController.js:189-220 | missing id 400, unknown job 404, inactive job 400, repeat application 400, each with the store unchanged |
| Jobs.ApplyTouchesOneJob | controllers/jobController.js:227-230 | a successful apply changes no other job |
| Jobs.ApplyWf | controllers/jobController.js:221-230 | applying keeps the store well formed |
| Ledger.AddJobBalanced | models/Job.js:27-34 | a job with no applications joins a balanced ledger without unbalancing it |
| Ledger.CreateJobBalanced | controllers/jobController.js:19-30 | creating a job keeps every job's ledger balanced |
| Ledger.InsertGrows | controllers/jobController.js:221-226 | a new application adds its id and applicant to its job's sets and leaves other jobs' sets alone |
| Ledger.RecordedJobBalanced | controllers/jobController.js:227-230 | the job applied for balances again after counter, applications and applicants each grew by one |
| Ledger.RecordBalanced | controllers/jobController.js:221-230 | recording a first application of an applicant keeps the whole ledger balanced |
| Ledger.ApplyBalanced | controllers/jobController.js:210-230 | a fault-free apply keeps counter = applications = distinct applicants for every job |
| Ledger.UpdateFaultUnbalances | controllers/jobController.js:226-230 | when the job update fails after the save, the job's counter falls one behind its applications |
| Admin.UsersMatching | controllers/adminController.js:21-28 | exactly the users the filter selects |
| Admin.GetAllApplicants | controllers/adminController.js:6-60 | 200 with the pagination of the number of users the filter selects |
| Admin.UnfilteredListingCountsEveryone | controllers/adminController.js:10-28 | with no parameters every user is counted, admins included |
| Admin.ApplicantTypeCountsApplicants | controllers/adminController.js:18-20 | `userType=Applicant` counts exactly the applicants |
| Admin.ApplicationsBy | controllers/adminController.js:79-81 | exactly the applications the user made, each with its job populated |
| Admin.GetApplicantDetails | controllers/adminController.js:63-113 | a malformed id gives 500, an unknown user 404, and otherwise 200 with the user's view, populated profile, creation time and applications |
| Admin.DetailsShowExactlyTheirApplications | controllers/adminController.js:79-102 | an application is shown exactly when the user shown made it, and its entry carries the job's id while the job exists |
| Admin.AdminsHaveDetailsToo | controllers/adminController.js:67-76 | an admin's id gets a 200 as well: only existence is checked |
| Admin.GetAdminJobs | controllers/adminController.js:116-169 | 200 with the pagination of the number of the admin's jobs the status selects |
| Admin.PostedBy | controllers/adminController.js:120 | exactly the jobs the admin posted |
| Admin.AdminJobsSelected | controllers/adminController.js:120-133 | the count covers the admin's own jobs, of the given activity for 'active'/'inactive' and all of them otherwise |
| Admin.OthersJobsNotCounted | controllers/adminController.js:120 | another admin's job is never counted |
| Admin.StatusSplit | controllers/adminController.js:122-126 | a job is counted under 'active' or 'inactive' exactly when counted without status, according to its flag |
| Admin.StatusesPartition | controllers/adminController.js:122-133 | the 'active' and 'inactive' counts add up to the unfiltered count |
| Routes.Admit | routes/jobs.js:13-21 | a request passes exactly when its token decodes to an existing user whose role the route permits; a wrong role gets 403 |
| Routes.CreateIfValid | routes/jobs.js:15 | a body the validator refused is answered with its response and changes nothing |
| Routes.PostJob | routes/jobs.js:15 | a refused caller changes nothing; an admitted admin's body goes through validation to `createJob` |
| Routes.CreateKeepsOwnership | controllers/jobController.js:19-30 | a job created for an admin keeps every job owned by an admin |
| Routes.PostJobKeepsOwnership | routes/jobs.js:15 | through its route, job creation keeps every job owned by an admin |
| Routes.ValidBodyPosts | routes/jobs.js:15 | without a database fault, an admin's validated body is saved exactly when its texts fit the schema's UTF-16 bounds, and otherwise ends in 500 |
| Routes.Apply | routes/jobs.js:21 | a refused caller changes nothing; an admitted applicant reaches `applyForJob` |
| Routes.ApplyKeepsApplicants | routes/jobs.js:21 | through its route, every application is by an applicant |
| Routes.AdminsCannotApply | routes/jobs.js:21 | an admin calling the apply route gets 403 and changes nothing |
| Routes.ApplicantDetails | routes/admin.js:11-15 | only an admitted admin reaches `getApplicantDetails` |
| Routes.DetailsOnlyForAdmins | routes/admin.js:11-15 | a user's details are shown only to an authenticated admin |
| Routes.AdminJobs | routes/admin.js:11-17 | only an admitted admin reaches `getAdminJobs`, with their own identity |
| Routes.AdminJobsAreTheirs | routes/admin.js:11-17 | the unfiltered count an admin sees is that of the jobs posted under their token's user |
| Routes.JobDetails | routes/jobs.js:17 | only an admitted admin reaches `getJobDetails` |
| Routes.ApplicantsCannotSeeApplications | routes/jobs.js:17 | an applicant asking for job details gets 403 |
| Routes.JobListing | routes/jobs.js:19 | any admitted user reaches `getAllJobs` |
| Routes.ListingForEveryRole | routes/jobs.js:19 | every authenticated admin or applicant gets the listing |
| Routes.UploadRoute | routes/resume.js:10 | a refused caller changes nothing; an upload error changes nothing and is answered by `handleUploadError` or the global handler; a stored file is on disk when `uploadResume` runs |
| Routes.NoOrphanFile | routes/resume.js:10 | the stored file outlives the request only when the upload answered 200 or its deletion failed |

## Left out

- `server.js`, the `/health` endpoint, CORS, body parsing and static file serving: connection handling and I/O only.
- The User model (`models/User.js`) and `routes/auth.js` are not part of this model. A user is a record with a hashed `password`, and `comparePassword` is the oracle `compare`.
- JWT signing and verification: the oracle `verify` yields a decoded user id or one of the three failures. The signature and the secret are not modelled.
- Password hashing: the oracle `hash`.
- ObjectId casting: the oracle `castId`. A malformed id is the catch-all 500 that carries Mongoose's CastError message.
- `$regex` matching, `isEmail` and `normalizeEmail`: oracles.
- The content of listing pages: `sort`, `skip`, `limit` and `populate`. The listings are modelled by their filter, the count of matching documents, and the pagination object.
- Jobs.GetAllJobs, Admin.GetAllApplicants, Admin.GetAdminJobs: the contracts state the count and pagination but not which documents fill the page.
- Pagination.Paginate: page and limit are integers of at least one. JavaScript's string-to-number coercion of query parameters, and `limit=0` (which yields an infinite page count), are not modelled.
- Concurrency: the model is sequential. A concurrent duplicate apply would reach the unique index and end as a 500, and the counter update is not atomic with the insert; neither race is modelled.
- The HTTP call of `processResumeWithAPI`, and reading the file: the parser is the oracle outcome `Returned`, `ReturnedNothing` or `Threw`.
- The parser's response, and so a profile's `extractedData`, is reduced to the fields the merge reads, with education entries reduced to their `name`. Any other members of the response are not modelled, so they do not appear in a populated profile either.
- Upload.SizeLimitReached: the size limit follows busboy 1.x, the parser of multer 1.4.5-lts and 2.x, under which a file of exactly 5 MiB is refused. Under multer up to 1.4.3 (busboy 0.x) such a file is stored; no dependency version is pinned in the sources.
- Upload.Receive: multer's streaming is reduced to the order of its checks. The first part's field name, type filter and size come first; the file count is checked only when a second part arrives. Only the first error is reported, and a refused file leaves nothing on disk.
- Text.ToLower: lower-cases ASCII letters only; the full Unicode case mapping is not modelled.
- Text lengths: `isLength` counts code points, minus the variation selectors U+FE0E and U+FE0F; `maxlength` counts UTF-16 code units. Both are modelled, as `Text.ValidatorLength` and `Text.Utf16Length`. A Dafny `char` is a Unicode scalar value, so strings holding lone surrogates are not modelled.
- Salary bounds are kept as the text the client sent. Mongoose's conversion to `Number` is not modelled. The currency is the client's text, or 'USD' when it is absent.
- Request fields of non-string JSON types (numbers, arrays, objects) are not modelled: every field is optional text.
- Errors.HandleError: a duplicate-key error without `keyValue` makes `Object.keys` throw inside the handler; the model reports no field instead.
- Database failures are explicit fault parameters where a handler's store changes depend on them: `signup`'s three writes, `createJob`, `applyForJob` and `uploadResume`. The read-only handlers' catch-all 500 on a failed query is not modelled.
- Jobs.GetJobDetails, Admin.GetApplicantDetails: the applications are returned as a set, so their order (newest `appliedAt` first) is not modelled.
- Accounts.PopulateProfile: the `createdAt`, `updatedAt` and `__v` fields that Mongoose adds to every profile document are not modelled, so the populated profile lacks them.
- Validation.HandleValidationErrors: each error entry has the express-validator 7 shape (`type`, `value`, `msg`, `path`, `location`). Version 6's `param` key is not modelled. The value of an absent field is modelled as absent, although `trim()` may turn it into ''.
- Console logging.

=== FILE: accounts.dfy ===
/** Registration, login and token issue. Password hashing and comparison are
    oracles (`hash(secret)`, `compare(secret, stored)`); the clock is a
    parameter in milliseconds. */
module Accounts {
  import opened Wrappers
  import opened Models
  import opened Store
  import opened Http
  import Guard
  import Filters

  /** `expiresIn: '7d'`, in seconds. */
  const TOKEN_LIFETIME: nat := 7 * 24 * 60 * 60

  /** `generateToken(userId)` at `now`: the only claim is the user id, issued at
      the current second and expiring seven days later. */
  function GenerateToken(userId: Id, now: Time): (t: Token)
    ensures t.userId == userId
    ensures t.issuedAt * 1000 <= now < (t.issuedAt + 1) * 1000
    ensures t.expiresAt == t.issuedAt + 604800
  {
    Token(userId, now / 1000, now / 1000 + TOKEN_LIFETIME)
  }

  /** The verifier accepts a token while the current second is before its expiry. */
  predicate Live(t: Token, now: Time) {
    now / 1000 < t.expiresAt
  }

  /** A token issued at `issued` is live for the next 604799 whole seconds and
      expired from 604800 seconds on, whatever the milliseconds. */
  lemma TokenLivesSevenDays(userId: Id, issued: Time, later: Time)
    ensures later <= issued + 604799000 ==> Live(GenerateToken(userId, issued), later)
    ensures later >= issued + 604800000 ==> !Live(GenerateToken(userId, issued), later)
  {
    var t := GenerateToken(userId, issued);
    var q := issued / 1000;
    if later <= issued + 604799000 {
      var m := later / 1000;
      assert m * 1000 <= later;
      assert later < (q + 1) * 1000 + 604799000;
      assert m * 1000 < (q + 604800) * 1000;
    }
    if later >= issued + 604800000 {
      var m := later / 1000;
      assert later < (m + 1) * 1000;
      assert q * 1000 + 604800000 <= later;
      assert (q + 604800) * 1000 < (m + 1) * 1000;
    }
  }

  /** What `jwt.verify` answers for `token` when it encodes the claims `t`: the
      user while the claims are live, `TokenExpiredError` after. The signature
      is not modelled, so this is the one link between a token string and its
      claims. */
  predicate VerifiesIssued(verify: string -> Guard.VerifyOutcome, token: string, t: Token, now: Time) {
    verify(token) == if Live(t, now) then Guard.Decoded(t.userId) else Guard.TokenExpiredError
  }

  /** Behind `authenticateToken`, an issued token sent as "Bearer <token>" lets
      its existing user through for seven days less a second, and is refused
      with the expiry 401 from seven days on. */
  lemma GuardHonoursExpiry(s: Store, verify: string -> Guard.VerifyOutcome, token: string,
                           userId: Id, issued: Time, later: Time)
    requires ' ' !in token && token != ""
    requires VerifiesIssued(verify, token, GenerateToken(userId, issued), later)
    ensures later >= issued + 604800000 ==>
      Guard.Authenticate(s, Some("Bearer " + token), verify) == Err(Fail(401, Guard.EXPIRED_TOKEN))
    ensures later <= issued + 604799000 && userId in s.users ==>
      var r := Guard.Authenticate(s, Some("Bearer " + token), verify);
      r.Ok? && r.value.id == userId
  {
    Guard.BearerTokenOfHeader("Bearer", token, "");
    assert "Bearer" + " " + token + "" == "Bearer " + token;
    TokenLivesSevenDays(userId, issued, later);
  }

  /** No two users share an email. */
  predicate UniqueEmails(s: Store) {
    forall a, b :: a in s.users && b in s.users && a != b ==> s.users[a].email != s.users[b].email
  }

  predicate EmailTaken(s: Store, email: string) {
    exists k :: k in s.users && s.users[k].email == email
  }

  /** `populate('profile')`: the whole referenced profile document, or nothing
      when the reference is unset or dangling. */
  function PopulateProfile(s: Store, ref: Option<Id>): (v: Option<ProfileDocument>)
    ensures v.Some? <==> ref.Some? && ref.value in s.profiles
    ensures v.Some? ==> v.value.id == ref.value
  {
    if ref.Some? && ref.value in s.profiles then Some(ProfileDocument(ref.value, s.profiles[ref.value])) else None
  }

  /** Populating hides nothing of the stored document: two stores give the same
      populated profile exactly when they hold the same document, so the
      applicant reference and `extractedData` reach the reply; the reply to an
      upload is a projection of it. */
  lemma PopulatedProfileIsWholeDocument(s: Store, t: Store, ref: Id)
    requires ref in s.profiles && ref in t.profiles
    ensures PopulateProfile(s, Some(ref)) == PopulateProfile(t, Some(ref)) <==> s.profiles[ref] == t.profiles[ref]
    ensures var d := PopulateProfile(s, Some(ref)).value.document;
      && d.applicant == s.profiles[ref].applicant && d.extractedData == s.profiles[ref].extractedData
      && ViewProfile(ref, d) == ViewProfile(ref, s.profiles[ref])
  {
  }

  datatype SignupBody = SignupBody(
    name: string, email: string, password: string,
    userType: Option<string>, profileHeadline: Option<string>, address: Option<string>)

  /** `userType || 'Applicant'`. */
  function RoleOf(userType: Option<string>): (role: string)
    ensures Filters.Truthy(userType) ==> role == userType.value
    ensures !Filters.Truthy(userType) ==> role == APPLICANT
  {
    if Filters.Truthy(userType) then userType.value else APPLICANT
  }

  const EMAIL_IN_USE := "User with this email already exists"

  /** `new User({...})` from a signup body: the secret is stored hashed and the
      role defaults to applicant. */
  function NewUser(body: SignupBody, hash: string -> string, now: Time): (u: User)
    ensures u.name == body.name && u.email == body.email && u.password == hash(body.password)
    ensures u.userType == RoleOf(body.userType) && u.profile.None? && u.createdAt == now
    ensures u.profileHeadline == body.profileHeadline && u.address == body.address
  {
    User(body.name, body.email, hash(body.password), RoleOf(body.userType),
         body.profileHeadline, body.address, None, now)
  }

  /** `user.save()` for a new user: it gets the next id and nothing else changes. */
  function SaveUser(s: Store, u: User): (r: (Store, Id))
    requires Wf(s)
    ensures r.1 == s.nextId && r.1 !in s.users
    ensures r.0 == s.(users := s.users[r.1 := u], nextId := r.1 + 1)
    ensures Wf(r.0)
  {
    (s.(users := s.users[s.nextId := u], nextId := s.nextId + 1), s.nextId)
  }

  /** The applicant branch of signup: a profile copied from the user's name and
      email is saved, and the user is linked to it. */
  function AttachProfile(s: Store, uid: Id): (r: (Store, Id))
    requires Wf(s) && uid in s.users
    ensures r.1 == s.nextId && r.1 !in s.profiles
    ensures r.0.profiles == s.profiles[r.1 := NewProfile(uid, s.users[uid].name, s.users[uid].email)]
    ensures r.0.users == s.users[uid := s.users[uid].(profile := Some(r.1))]
    ensures r.0.jobs == s.jobs && r.0.applications == s.applications && r.0.files == s.files
    ensures r.0.nextId == r.1 + 1
  {
    var u := s.users[uid];
    var (s1, pid) := InsertProfile(s, NewProfile(uid, u.name, u.email));
    (s1.(users := s1.users[uid := u.(profile := Some(pid))]), pid)
  }

  lemma AttachProfileWf(s: Store, uid: Id)
    requires Wf(s) && uid in s.users
    ensures Wf(AttachProfile(s, uid).0)
  {
    var r := AttachProfile(s, uid);
    var s' := r.0;
    forall k | k in s'.users ensures k < s'.nextId {
      assert k in s.users;
    }
    forall k | k in s'.profiles ensures k < s'.nextId {
      assert k in s.profiles || k == r.1;
    }
  }

  /** Saving a new user and, for an applicant, the attached profile. */
  function CreateAccount(s: Store, u: User): (r: (Store, Id))
    requires Wf(s)
    ensures r.1 == s.nextId && r.1 !in s.users && Wf(r.0)
    ensures u.userType == APPLICANT ==> r == (AttachProfile(SaveUser(s, u).0, r.1).0, r.1)
    ensures u.userType != APPLICANT ==> r == SaveUser(s, u)
  {
    var (s1, uid) := SaveUser(s, u);
    if u.userType == APPLICANT then
      AttachProfileWf(s1, uid);
      (AttachProfile(s1, uid).0, uid)
    else (s1, uid)
  }

  /** Database failures during signup, each with its error message: the first
      `user.save()`, `profile.save()`, and the second `user.save()` that links
      the profile. The three writes are separate, so a later failure keeps the
      earlier writes. */
  datatype SignupFaults = SignupFaults(saveUser: Option<string>, saveProfile: Option<string>, linkUser: Option<string>)

  const NO_FAULTS := SignupFaults(None, None, None)

  /** The 201 reply for a new account. */
  function Registered(s: Store, uid: Id, now: Time): Response
    requires uid in s.users
  {
    Response(201, Success(Some("User registered successfully"),
                          SignedUp(ViewUser(uid, s.users[uid]), GenerateToken(uid, now))))
  }

  /** Signup after the user record is saved: an applicant's profile is saved and
      then linked, and the caller gets the 201. A failed write ends in the
      catch-all 500 and keeps the writes before it. */
  function Enrol(s: Store, uid: Id, now: Time, faults: SignupFaults): (r: (Store, Response))
    requires Wf(s) && uid in s.users
    ensures s.users[uid].userType != APPLICANT ==> r == (s, Registered(s, uid, now))
    ensures s.users[uid].userType == APPLICANT && faults.saveProfile.Some? ==>
      r == (s, InternalError(faults.saveProfile.value))
    ensures s.users[uid].userType == APPLICANT && faults.saveProfile.None? && faults.linkUser.Some? ==>
      r == (InsertProfile(s, NewProfile(uid, s.users[uid].name, s.users[uid].email)).0, InternalError(faults.linkUser.value))
    ensures s.users[uid].userType == APPLICANT && faults.saveProfile.None? && faults.linkUser.None? ==>
      var s' := AttachProfile(s, uid).0;
      r == (s', Registered(s', uid, now))
  {
    var u := s.users[uid];
    if u.userType != APPLICANT then (s, Registered(s, uid, now))
    else if faults.saveProfile.Some? then (s, InternalError(faults.saveProfile.value))
    else if faults.linkUser.Some? then
      (InsertProfile(s, NewProfile(uid, u.name, u.email)).0, InternalError(faults.linkUser.value))
    else
      var s' := AttachProfile(s, uid).0;
      (s', Registered(s', uid, now))
  }

  /** `signup`: refuses a known email; otherwise saves the user and enrols it. A
      failed first save ends in the catch-all 500 with nothing written. */
  function Signup(s: Store, body: SignupBody, hash: string -> string, now: Time, faults: SignupFaults): (r: (Store, Response))
    requires Wf(s)
    ensures EmailTaken(s, body.email) ==> r == (s, Fail(400, EMAIL_IN_USE))
    ensures !EmailTaken(s, body.email) && faults.saveUser.Some? ==> r == (s, InternalError(faults.saveUser.value))
    ensures !EmailTaken(s, body.email) && faults.saveUser.None? ==>
      r == Enrol(SaveUser(s, NewUser(body, hash, now)).0, s.nextId, now, faults)
    ensures r.1.status == 201 <==>
      && !EmailTaken(s, body.email) && faults.saveUser.None?
      && (RoleOf(body.userType) == APPLICANT ==> faults.saveProfile.None? && faults.linkUser.None?)
    ensures r.1.status != 201 ==> r.1.status == 400 || r.1.status == 500
  {
    if UserByEmail(s, body.email).Some? then (s, Fail(400, EMAIL_IN_USE))
    else if faults.saveUser.Some? then (s, InternalError(faults.saveUser.value))
    else
      var (s1, uid) := SaveUser(s, NewUser(body, hash, now));
      Enrol(s1, uid, now, faults)
  }

  /** Without faults, signup is account creation followed by the 201. */
  lemma FaultFreeSignupCreates(s: Store, body: SignupBody, hash: string -> string, now: Time)
    requires Wf(s) && !EmailTaken(s, body.email)
    ensures var (s', uid) := CreateAccount(s, NewUser(body, hash, now));
      Signup(s, body, hash, now, NO_FAULTS) == (s', Registered(s', uid, now))
  {
  }

  /** Enrolling keeps the store well formed, adds no user and changes no email;
      after a 201 the user is linked to a new profile of its own exactly when it
      is an applicant. */
  lemma EnrolPreserves(s: Store, uid: Id, now: Time, faults: SignupFaults)
    requires Wf(s) && uid in s.users && s.users[uid].profile.None?
    ensures var r := Enrol(s, uid, now, faults);
      && Wf(r.0) && r.0.users.Keys == s.users.Keys
      && (forall k :: k in s.users ==> r.0.users[k].email == s.users[k].email)
      && (forall k :: k in s.users && k != uid ==> r.0.users[k] == s.users[k])
    ensures var r := Enrol(s, uid, now, faults);
      r.1.status == 201 ==>
        && (r.0.users[uid].profile.Some? <==> s.users[uid].userType == APPLICANT)
        && (r.0.users[uid].profile.Some? ==>
              var pid := r.0.users[uid].profile.value;
              pid !in s.profiles && r.0.profiles == s.profiles[pid := NewProfile(uid, s.users[uid].name, s.users[uid].email)])
        && (r.0.users[uid].profile.None? ==> r.0.profiles == s.profiles)
  {
    var u := s.users[uid];
    var r := Enrol(s, uid, now, faults);
    if u.userType != APPLICANT || faults.saveProfile.Some? {
      assert r.0 == s;
    } else if faults.linkUser.Some? {
      var s2 := InsertProfile(s, NewProfile(uid, u.name, u.email)).0;
      assert r.0 == s2 && r.1.status == 500;
      assert s2.users == s.users;
      forall k | k in s2.profiles ensures k < s2.nextId {
        assert k in s.profiles || k == s.nextId;
      }
    } else {
      var (s', pid) := AttachProfile(s, uid);
      assert r.0 == s';
      AttachProfileWf(s, uid);
      RelinkKeepsUsers(s.users, s'.users, uid, Some(pid));
    }
  }

  /** Pointing one user at a profile changes no key, no email and no other user. */
  lemma RelinkKeepsUsers(users: map<Id, User>, users': map<Id, User>, uid: Id, ref: Option<Id>)
    requires uid in users && users' == users[uid := users[uid].(profile := ref)]
    ensures users'.Keys == users.Keys && users'[uid].profile == ref
    ensures forall k :: k in users ==> users'[k].email == users[k].email
    ensures forall k :: k in users && k != uid ==> users'[k] == users[k]
  {
  }

  /** Signup keeps the store well formed and the emails unique, whatever fails;
      an account that got its 201 is linked to a profile exactly when it is an
      applicant's, and that profile belongs to it and copies its name and email. */
  lemma SignupPreserves(s: Store, body: SignupBody, hash: string -> string, now: Time, faults: SignupFaults)
    requires Wf(s) && UniqueEmails(s)
    ensures Wf(Signup(s, body, hash, now, faults).0)
    ensures UniqueEmails(Signup(s, body, hash, now, faults).0)
    ensures Signup(s, body, hash, now, faults).1.status == 201 ==>
      var s' := Signup(s, body, hash, now, faults).0;
      var uid := s.nextId;
      && s'.users.Keys == s.users.Keys + {uid} && uid !in s.users
      && (s'.users[uid].profile.Some? <==> RoleOf(body.userType) == APPLICANT)
      && (s'.users[uid].profile.Some? ==>
            var pid := s'.users[uid].profile.value;
            pid !in s.profiles && s'.profiles == s.profiles[pid := NewProfile(uid, body.name, body.email)])
      && (s'.users[uid].profile.None? ==> s'.profiles == s.profiles)
  {
    if !EmailTaken(s, body.email) && faults.saveUser.None? {
      var u := NewUser(body, hash, now);
      var (s1, uid) := SaveUser(s, u);
      EnrolPreserves(s1, uid, now, faults);
      var s' := Signup(s, body, hash, now, faults).0;
      assert s' == Enrol(s1, uid, now, faults).0;
      assert s1.profiles == s.profiles;
      assert s'.users[uid].email == body.email;
      AddedUserKeepsEmailsUnique(s, s', uid);
    }
  }

  /** A store that gained one user whose email nobody had, and changed no other
      email, still has unique emails. */
  lemma AddedUserKeepsEmailsUnique(s: Store, s': Store, uid: Id)
    requires UniqueEmails(s) && uid !in s.users && s'.users.Keys == s.users.Keys + {uid}
    requires forall k :: k in s.users ==> s'.users[k].email == s.users[k].email
    requires !EmailTaken(s, s'.users[uid].email)
    ensures UniqueEmails(s')
  {
    forall a, b | a in s'.users && b in s'.users && a != b
      ensures s'.users[a].email != s'.users[b].email
    {
      if a == uid {
        assert b in s.users;
      } else if b == uid {
        assert a in s.users;
      } else {
        assert a in s.users && b in s.users;
      }
    }
  }

  /** When `profile.save()` fails, the applicant's user is stored with no profile
      at all and the caller gets a 500; signing up again is then refused because
      the email is taken. */
  lemma ProfileFaultStrandsUser(s: Store, body: SignupBody, hash: string -> string, now: Time, message: string)
    requires Wf(s) && !EmailTaken(s, body.email) && RoleOf(body.userType) == APPLICANT
    ensures var r := Signup(s, body, hash, now, SignupFaults(None, Some(message), None));
      var uid := s.nextId;
      && r.1 == InternalError(message)
      && uid in r.0.users && r.0.users[uid].email == body.email && r.0.users[uid].profile.None?
      && r.0.profiles == s.profiles
      && Signup(r.0, body, hash, now, NO_FAULTS) == (r.0, Fail(400, EMAIL_IN_USE))
  {
    var r := Signup(s, body, hash, now, SignupFaults(None, Some(message), None));
    var uid := s.nextId;
    assert EmailTaken(r.0, body.email) by {
      assert r.0.users[uid].email == body.email;
    }
  }

  /** When the linking `user.save()` fails, the profile is stored and belongs to
      the applicant, but the user does not point to it. */
  lemma LinkFaultLeavesUnlinkedProfile(s: Store, body: SignupBody, hash: string -> string, now: Time, message: string)
    requires Wf(s) && !EmailTaken(s, body.email) && RoleOf(body.userType) == APPLICANT
    ensures var r := Signup(s, body, hash, now, SignupFaults(None, None, Some(message)));
      var uid := s.nextId;
      && r.1 == InternalError(message)
      && uid in r.0.users && r.0.users[uid].profile.None?
      && uid + 1 !in s.profiles
      && r.0.profiles == s.profiles[uid + 1 := NewProfile(uid, body.name, body.email)]
  {
    var faults := SignupFaults(None, None, Some(message));
    var u := NewUser(body, hash, now);
    assert u.name == body.name && u.email == body.email && u.userType == APPLICANT && u.profile.None?;
    var s1 := SaveUser(s, u).0;
    assert s1.users[s.nextId] == u && s1.nextId == s.nextId + 1 && s1.profiles == s.profiles;
    var p := NewProfile(s.nextId, u.name, u.email);
    var s2 := InsertProfile(s1, p).0;
    assert s2.users == s1.users && s2.profiles == s.profiles[s.nextId + 1 := p];
    var r := Signup(s, body, hash, now, faults);
    assert r == Enrol(s1, s.nextId, now, faults);
    assert r == (s2, InternalError(message));
  }

  const BAD_CREDENTIALS := "Invalid email or password"

  /** `login`: one and the same 401 for an unknown email and a wrong secret;
      otherwise 200 with the user, the populated profile and a fresh token. */
  function Login(s: Store, email: string, password: string, compare: (string, string) -> bool, now: Time): (r: Response)
    requires Wf(s)
    ensures UniqueEmails(s) ==>
      (r.status == 200 <==> exists k :: k in s.users && s.users[k].email == email && compare(password, s.users[k].password))
    ensures r.status != 200 ==> r == Fail(401, BAD_CREDENTIALS)
    ensures UniqueEmails(s) && r.status == 200 ==>
      exists k :: k in s.users && s.users[k].email == email &&
        r.body == Success(Some("Login successful"),
                          LoggedIn(ViewUser(k, s.users[k]), PopulateProfile(s, s.users[k].profile), GenerateToken(k, now)))
  {
    match UserByEmail(s, email)
    case None => Fail(401, BAD_CREDENTIALS)
    case Some(k) =>
      if !compare(password, s.users[k].password) then Fail(401, BAD_CREDENTIALS)
      else Response(200, Success(Some("Login successful"),
                                 LoggedIn(ViewUser(k, s.users[k]), PopulateProfile(s, s.users[k].profile), GenerateToken(k, now))))
  }

  /** An unknown email and a wrong secret are indistinguishable to the caller. */
  lemma LoginFailuresAlike(s: Store, unknown: string, known: Id, password: string, wrong: string,
                           compare: (string, string) -> bool, now: Time)
    requires Wf(s) && UniqueEmails(s)
    requires !EmailTaken(s, unknown)
    requires known in s.users && !compare(wrong, s.users[known].password)
    ensures Login(s, unknown, password, compare, now) == Login(s, s.users[known].email, wrong, compare, now)
  {
    var k := UserByEmail(s, s.users[known].email);
    assert k == Some(known);
  }

  /** Once the user record is saved, the account can log in with the same
      secret, even when the profile writes after it failed and the signup
      answered 500; this needs only that the comparison oracle accepts the
      secret against its own hash. */
  lemma SignupThenLogin(s: Store, body: SignupBody, hash: string -> string, compare: (string, string) -> bool,
                        now: Time, faults: SignupFaults, later: Time)
    requires Wf(s) && UniqueEmails(s) && !EmailTaken(s, body.email) && faults.saveUser.None?
    requires compare(body.password, hash(body.password))
    ensures var s' := Signup(s, body, hash, now, faults).0;
      Wf(s') && Login(s', body.email, body.password, compare, later).status == 200
  {
    SignupPreserves(s, body, hash, now, faults);
    var s' := Signup(s, body, hash, now, faults).0;
    assert s'.users[s.nextId].email == body.email;
  }
}

=== FILE: admin.dfy ===
/** The admin handlers: the user listing, the details of one user with their
    applications, and the listing of the admin's own jobs. All three sit behind
    `authenticate` and `requireAdmin`. */
module Admin {
  import opened Wrappers
  import opened Models
  import opened Store
  import opened Http
  import Guard
  import Filters
  import Pagination
  import Accounts
  import Jobs

  // ------------------------------------------------------- getAllApplicants

  /** The users a filter selects. */
  function UsersMatching(s: Store, f: Filters.Filter, rx: Filters.Matcher): (ks: set<Id>)
    ensures ks <= s.users.Keys
    ensures forall k :: k in ks <==> k in s.users && Filters.Matches(f, Filters.UserDoc(s.users[k]), rx)
  {
    set k | k in s.users && Filters.Matches(f, Filters.UserDoc(s.users[k]), rx)
  }

  /** `getAllApplicants`: 200 with the pagination of the users the query selects. */
  function GetAllApplicants(s: Store, page: Pagination.Positive, limit: Pagination.Positive,
                            search: Option<string>, userType: Option<string>,
                            rx: Filters.Matcher): (r: Response)
    ensures r.status == 200 && r.body.Success? && r.body.notice.None? && r.body.data.UserListing?
    ensures r.body.data.pagination ==
      Pagination.Paginate(page, limit, |UsersMatching(s, Filters.ApplicantsFilter(search, userType), rx)|)
  {
    var total := |UsersMatching(s, Filters.ApplicantsFilter(search, userType), rx)|;
    Response(200, Success(None, UserListing(Pagination.Paginate(page, limit, total))))
  }

  /** Despite its name, the listing without parameters counts every user,
      admins included. */
  lemma UnfilteredListingCountsEveryone(s: Store, page: Pagination.Positive, limit: Pagination.Positive,
                                         rx: Filters.Matcher)
    ensures GetAllApplicants(s, page, limit, None, None, rx).body.data.pagination.total == |s.users|
  {
    var ks := UsersMatching(s, Filters.ApplicantsFilter(None, None), rx);
    forall k | k in s.users ensures k in ks {
      Filters.ApplicantsFilterSelects(None, None, s.users[k], rx);
    }
    assert ks == s.users.Keys;
  }

  /** With `userType=Applicant` and no search, it counts exactly the applicants. */
  lemma ApplicantTypeCountsApplicants(s: Store, rx: Filters.Matcher)
    ensures UsersMatching(s, Filters.ApplicantsFilter(None, Some(APPLICANT)), rx) ==
      set k | k in s.users && s.users[k].userType == APPLICANT
  {
    forall k | k in s.users {
      Filters.ApplicantsFilterSelects(None, Some(APPLICANT), s.users[k], rx);
    }
  }

  // ---------------------------------------------------- getApplicantDetails

  const APPLICANT_NOT_FOUND := "Applicant not found"

  /** The applications a user made, as the details response shows them. */
  function ApplicationsBy(s: Store, user: Id): (vs: set<JobEntry>)
    ensures forall v :: v in vs <==> exists a :: a in s.applications && s.applications[a].applicant == user
                                                && v == EntryForApplicant(s, a, s.applications[a])
  {
    set a | a in s.applications && s.applications[a].applicant == user :: EntryForApplicant(s, a, s.applications[a])
  }

  /** `getApplicantDetails`: a value that is no ObjectId ends in the catch-all
      500, an unknown id is 404, and otherwise the user comes with the populated
      profile and every application they made. The user type is not checked. */
  function GetApplicantDetails(s: Store, applicantId: string, castId: string -> Option<Id>): (r: Response)
    ensures castId(applicantId).None? ==> r == InternalError(CastMessage(applicantId, "User"))
    ensures castId(applicantId).Some? && castId(applicantId).value !in s.users ==> r == Fail(404, APPLICANT_NOT_FOUND)
    ensures r.status == 200 <==> castId(applicantId).Some? && castId(applicantId).value in s.users
    ensures r.status == 200 ==>
      var k := castId(applicantId).value;
      && r.body.Success? && r.body.notice.None? && r.body.data.ApplicantDetails?
      && r.body.data.user == ViewUser(k, s.users[k])
      && r.body.data.profile == Accounts.PopulateProfile(s, s.users[k].profile)
      && r.body.data.createdAt == s.users[k].createdAt
      && r.body.data.applied == ApplicationsBy(s, k)
  {
    match castId(applicantId)
    case None => InternalError(CastMessage(applicantId, "User"))
    case Some(k) =>
      if k !in s.users then Fail(404, APPLICANT_NOT_FOUND)
      else
        var u := s.users[k];
        Response(200, Success(None, ApplicantDetails(ViewUser(k, u), Accounts.PopulateProfile(s, u.profile),
                                                     u.createdAt, ApplicationsBy(s, k))))
  }

  /** Every application shown was made by the user shown, and every application
      that user made is shown, its job populated while the job exists. */
  lemma DetailsShowExactlyTheirApplications(s: Store, applicantId: string, castId: string -> Option<Id>, a: Id)
    requires GetApplicantDetails(s, applicantId, castId).status == 200
    requires a in s.applications
    ensures var r := GetApplicantDetails(s, applicantId, castId);
      (EntryForApplicant(s, a, s.applications[a]) in r.body.data.applied
       <==> s.applications[a].applicant == r.body.data.user.id)
    ensures s.applications[a].job in s.jobs ==>
      EntryForApplicant(s, a, s.applications[a]).job.value.id == s.applications[a].job
  {
    var k := castId(applicantId).value;
    if EntryForApplicant(s, a, s.applications[a]) in ApplicationsBy(s, k) {
      var b :| b in s.applications && s.applications[b].applicant == k
               && EntryForApplicant(s, a, s.applications[a]) == EntryForApplicant(s, b, s.applications[b]);
      assert a == b;
    }
  }

  /** An admin's id gets the same 200 as an applicant's: only existence is checked. */
  lemma AdminsHaveDetailsToo(s: Store, applicantId: string, castId: string -> Option<Id>)
    requires castId(applicantId).Some? && castId(applicantId).value in s.users
    requires s.users[castId(applicantId).value].userType == ADMIN
    ensures GetApplicantDetails(s, applicantId, castId).status == 200
    ensures GetApplicantDetails(s, applicantId, castId).body.data.user.userType == ADMIN
  {
  }

  // ----------------------------------------------------------- getAdminJobs

  /** `getAdminJobs`: 200 with the pagination of the admin's own jobs, narrowed
      by `status`. */
  function GetAdminJobs(s: Store, me: Guard.Identity, page: Pagination.Positive, limit: Pagination.Positive,
                        status: Option<string>, rx: Filters.Matcher): (r: Response)
    ensures r.status == 200 && r.body.Success? && r.body.notice.None? && r.body.data.JobListing?
    ensures r.body.data.pagination ==
      Pagination.Paginate(page, limit, |Jobs.JobsMatching(s, Filters.AdminJobsFilter(me.id, status), rx)|)
  {
    var total := |Jobs.JobsMatching(s, Filters.AdminJobsFilter(me.id, status), rx)|;
    Response(200, Success(None, JobListing(Pagination.Paginate(page, limit, total))))
  }

  /** The jobs an admin posted. */
  function PostedBy(s: Store, admin: Id): (ks: set<Id>)
    ensures forall k :: k in ks <==> k in s.jobs && s.jobs[k].postedBy == admin
  {
    set k | k in s.jobs && s.jobs[k].postedBy == admin
  }

  /** What the admin listing counts: their own jobs, of the given activity when
      `status` is 'active' or 'inactive', and all of them for any other status. */
  lemma AdminJobsSelected(s: Store, admin: Id, status: Option<string>, rx: Filters.Matcher)
    ensures Jobs.JobsMatching(s, Filters.AdminJobsFilter(admin, status), rx) ==
      set k | k in PostedBy(s, admin)
              && (status == Some("active") ==> s.jobs[k].isActive)
              && (status == Some("inactive") ==> !s.jobs[k].isActive)
  {
    forall k | k in s.jobs {
      Filters.AdminJobsFilterSelects(admin, status, s.jobs[k], rx);
    }
  }

  /** Another admin's jobs never appear in the count. */
  lemma OthersJobsNotCounted(s: Store, admin: Id, status: Option<string>, rx: Filters.Matcher, k: Id)
    requires k in s.jobs && s.jobs[k].postedBy != admin
    ensures k !in Jobs.JobsMatching(s, Filters.AdminJobsFilter(admin, status), rx)
  {
    Filters.AdminJobsFilterSelects(admin, status, s.jobs[k], rx);
  }

  /** Two subsets that split a set between them add up to its size. */
  lemma PartitionSize(all: set<Id>, yes: set<Id>, no: set<Id>)
    requires yes <= all && no <= all
    requires forall k :: k in all ==> (k in yes <==> k !in no)
    ensures |yes| + |no| == |all|
  {
    assert yes * no == {};
    assert yes + no == all;
  }

  /** One job is counted under 'active' or under 'inactive' exactly when it is
      counted without a status, according to its flag. */
  lemma StatusSplit(admin: Id, j: Job, rx: Filters.Matcher)
    ensures Filters.Matches(Filters.AdminJobsFilter(admin, Some("active")), Filters.JobDoc(j), rx) <==>
      Filters.Matches(Filters.AdminJobsFilter(admin, None), Filters.JobDoc(j), rx) && j.isActive
    ensures Filters.Matches(Filters.AdminJobsFilter(admin, Some("inactive")), Filters.JobDoc(j), rx) <==>
      Filters.Matches(Filters.AdminJobsFilter(admin, None), Filters.JobDoc(j), rx) && !j.isActive
  {
    Filters.AdminJobsFilterSelects(admin, Some("active"), j, rx);
    Filters.AdminJobsFilterSelects(admin, Some("inactive"), j, rx);
    Filters.AdminJobsFilterSelects(admin, None, j, rx);
  }

  /** The 'active' and 'inactive' listings split the unfiltered one. */
  lemma StatusesPartition(s: Store, admin: Id, rx: Filters.Matcher)
    ensures |Jobs.JobsMatching(s, Filters.AdminJobsFilter(admin, Some("active")), rx)|
          + |Jobs.JobsMatching(s, Filters.AdminJobsFilter(admin, Some("inactive")), rx)|
         == |Jobs.JobsMatching(s, Filters.AdminJobsFilter(admin, None), rx)|
  {
    var act := Jobs.JobsMatching(s, Filters.AdminJobsFilter(admin, Some("active")), rx);
    var ina := Jobs.JobsMatching(s, Filters.AdminJobsFilter(admin, Some("inactive")), rx);
    var all := Jobs.JobsMatching(s, Filters.AdminJobsFilter(admin, None), rx);
    forall k | k in act ensures k in all {
      StatusSplit(admin, s.jobs[k], rx);
    }
    forall k | k in ina ensures k in all {
      StatusSplit(admin, s.jobs[k], rx);
    }
    forall k | k in all ensures k in act <==> k !in ina {
      StatusSplit(admin, s.jobs[k], rx);
    }
    PartitionSize(all, act, ina);
  }
}

=== FILE: errors.dfy ===
/** The application's last two handlers: the 404 for any request no route
    answered, and the global error handler for errors passed on with
    `next(error)`. */
module Errors {
  import opened Wrappers
  import opened Models
  import opened Http
  import Upload

  /** The parts of a thrown error the handler reads. `fieldMessages` are the
      messages of `error.errors` in key order; `keyValueKeys` the keys of
      `error.keyValue` in order. */
  datatype AppError = AppError(
    name: string,
    code: Option<int>,
    fieldMessages: seq<string>,
    keyValueKeys: seq<string>,
    status: Option<nat>,
    message: string,
    stack: string)

  /** The four branches of the handler, tried in this order. */
  datatype Kind = ValidationKind | CastKind | DuplicateKind | OtherKind

  function Classify(e: AppError): (k: Kind)
    ensures k == ValidationKind <==> e.name == "ValidationError"
    ensures k == CastKind <==> e.name != "ValidationError" && e.name == "CastError"
    ensures k == DuplicateKind <==> e.name != "ValidationError" && e.name != "CastError" && e.code == Some(11000)
  {
    if e.name == "ValidationError" then ValidationKind
    else if e.name == "CastError" then CastKind
    else if e.code == Some(11000) then DuplicateKind
    else OtherKind
  }

  const NOT_FOUND := "API endpoint not found"

  /** The catch-all route. */
  function RouteNotFound(): (r: Response)
    ensures r.status == 404 && r.body.Failure? && r.body.message == NOT_FOUND && r.body.detail == Plain
  {
    Fail(404, NOT_FOUND)
  }

  /** `error.status || 500`: a missing or zero status falls back to 500. */
  function StatusOf(e: AppError): (n: nat)
    ensures e.status.Some? && e.status.value != 0 ==> n == e.status.value
    ensures e.status.None? || e.status.value == 0 ==> n == 500
  {
    if e.status.Some? && e.status.value != 0 then e.status.value else 500
  }

  /** `error.message || 'Internal server error'`. */
  function MessageOf(e: AppError): (m: string)
    ensures m != ""
    ensures e.message != "" ==> m == e.message
  {
    if e.message != "" then e.message else "Internal server error"
  }

  /** The global error handler. The stack is shown only in development. */
  function HandleError(e: AppError, development: bool): (r: Response)
    ensures Classify(e) != OtherKind ==> r.status == 400
    ensures Classify(e) == ValidationKind ==> r.body == Failure("Validation error", Messages(e.fieldMessages))
    ensures Classify(e) == CastKind ==> r == Fail(400, "Invalid ID format")
    ensures Classify(e) == DuplicateKind ==>
      r.body == Failure("Duplicate field value",
                        DuplicateField(if |e.keyValueKeys| > 0 then Some(e.keyValueKeys[0]) else None))
    ensures Classify(e) == OtherKind ==>
      && r.status == StatusOf(e) && r.body.Failure? && r.body.message == MessageOf(e)
      && (r.body.detail == StackTrace(e.stack) <==> development)
      && (!development ==> r.body.detail == Plain)
  {
    match Classify(e)
    case ValidationKind => Response(400, Failure("Validation error", Messages(e.fieldMessages)))
    case CastKind => Fail(400, "Invalid ID format")
    case DuplicateKind =>
      Response(400, Failure("Duplicate field value",
                            DuplicateField(if |e.keyValueKeys| > 0 then Some(e.keyValueKeys[0]) else None)))
    case OtherKind =>
      Response(StatusOf(e), Failure(MessageOf(e), if development then StackTrace(e.stack) else Plain))
  }

  /** The order matters: a validation error that also carries code 11000 is
      reported as a validation error, and a duplicate-key error named
      CastError as a cast error. */
  lemma FirstMatchWins(e: AppError, development: bool)
    requires e.code == Some(11000)
    ensures e.name == "ValidationError" ==> HandleError(e, development).body.message == "Validation error"
    ensures e.name == "CastError" ==> HandleError(e, development) == Fail(400, "Invalid ID format")
    ensures e.name != "ValidationError" && e.name != "CastError" ==>
      HandleError(e, development).body.message == "Duplicate field value"
  {
  }

  /** Development mode changes nothing but the stack of an unclassified error. */
  lemma OnlyStackDiffers(e: AppError)
    ensures HandleError(e, true).status == HandleError(e, false).status
    ensures HandleError(e, true).body.message == HandleError(e, false).body.message
    ensures Classify(e) != OtherKind ==> HandleError(e, true) == HandleError(e, false)
  {
  }

  /** A schema `ValidationError` built from field errors: one message per path. */
  function SchemaError(errors: seq<FieldError>, stack: string): (e: AppError)
    ensures e.name == "ValidationError" && |e.fieldMessages| == |errors|
    ensures forall i :: 0 <= i < |errors| ==> e.fieldMessages[i] == errors[i].msg
  {
    AppError("ValidationError", None, seq(|errors|, i requires 0 <= i < |errors| => errors[i].msg), [],
             None, "Validation failed", stack)
  }

  /** The handler lists a schema's messages in the schema's order. */
  lemma SchemaErrorListed(errors: seq<FieldError>, stack: string, development: bool)
    ensures var r := HandleError(SchemaError(errors, stack), development);
      && r.status == 400 && r.body.Failure? && r.body.detail.Messages?
      && |r.body.detail.messages| == |errors|
      && forall i :: 0 <= i < |errors| ==> r.body.detail.messages[i] == errors[i].msg
  {
  }

  /** A multer error as it arrives here: it carries no status. */
  function FromUpload(u: Upload.UploadError, stack: string): (e: AppError)
    ensures e.status.None? && e.code.None? && e.message == u.message
  {
    AppError(if u.MulterError? then "MulterError" else "Error", None, [], [], None, u.message, stack)
  }

  /** An upload error `handleUploadError` passes on (an unexpected field, say)
      ends as a 500 carrying its own message. */
  lemma PassedUploadErrorIs500(u: Upload.UploadError, stack: string, development: bool)
    requires Upload.HandleUploadError(u).None?
    requires u.message != ""
    ensures HandleError(FromUpload(u, stack), development).status == 500
    ensures HandleError(FromUpload(u, stack), development).body.message == u.message
  {
  }
}

=== FILE: filters.dfy ===
/** The Mongo filters the listings build, as data, together with what it means
    for a document to match one. Case-insensitive `$regex` matching is an oracle
    `rx(pattern, text)`; everything else is exact. */
module Filters {
  import opened Wrappers
  import opened Models

  datatype Field =
    | Title | Description | CompanyName | Location | JobTypeField | IsActive | PostedBy
    | Name | Email | ProfileHeadline | UserType

  /** A document's value at a field; `Absent` when the field is not set. */
  datatype Value = Text(text: string) | Flag(flag: bool) | Ref(ref: Id) | Absent

  /** `{ field: value }` or `{ field: { $regex: pattern, $options: 'i' } }`. */
  datatype Cond = Equals(value: Value) | MatchesI(pattern: string)

  /** Field conditions that must all hold, and a `$or` list of which one must hold
      (an empty list stands for no `$or` at all). */
  datatype Filter = Filter(fields: map<Field, Cond>, anyOf: seq<(Field, Cond)>)

  /** `rx(pattern, text)`: does `text` match `pattern` ignoring case. */
  type Matcher = (string, string) -> bool

  /** A query-string parameter is used only when truthy: present and non-empty. */
  predicate Truthy(v: Option<string>) {
    v.Some? && v.value != ""
  }

  predicate Holds(c: Cond, v: Value, rx: Matcher) {
    match c
    case Equals(w) => v == w
    case MatchesI(pattern) => v.Text? && rx(pattern, v.text)
  }

  predicate Matches(f: Filter, doc: Field -> Value, rx: Matcher) {
    && (forall k :: k in f.fields ==> Holds(f.fields[k], doc(k), rx))
    && (|f.anyOf| == 0 || exists i :: 0 <= i < |f.anyOf| && Holds(f.anyOf[i].1, doc(f.anyOf[i].0), rx))
  }

  function OptText(v: Option<string>): Value {
    if v.Some? then Text(v.value) else Absent
  }

  /** A Job as the query engine sees it. */
  function JobDoc(j: Job): Field -> Value {
    (k: Field) =>
      match k
      case Title => Text(j.title)
      case Description => Text(j.description)
      case CompanyName => Text(j.companyName)
      case Location => OptText(j.location)
      case JobTypeField => Text(j.jobType.Name())
      case IsActive => Flag(j.isActive)
      case PostedBy => Ref(j.postedBy)
      case _ => Absent
  }

  /** A User as the query engine sees it. */
  function UserDoc(u: User): Field -> Value {
    (k: Field) =>
      match k
      case Name => Text(u.name)
      case Email => Text(u.email)
      case ProfileHeadline => OptText(u.profileHeadline)
      case UserType => Text(u.userType)
      case _ => Absent
  }

  /** The search disjunction over three fields. */
  function SearchAny(search: string, a: Field, b: Field, c: Field): seq<(Field, Cond)> {
    [(a, MatchesI(search)), (b, MatchesI(search)), (c, MatchesI(search))]
  }

  /** `getAllJobs`: active jobs only; a truthy `search` must match the title, the
      description or the company; a truthy `location` must match the location;
      a truthy `jobType` must equal the type exactly. */
  function AllJobsFilter(search: Option<string>, location: Option<string>, jobType: Option<string>): (f: Filter)
    ensures IsActive in f.fields && f.fields[IsActive] == Equals(Flag(true))
    ensures JobTypeField in f.fields <==> Truthy(jobType)
    ensures Truthy(jobType) ==> f.fields[JobTypeField] == Equals(Text(jobType.value))
    ensures Location in f.fields <==> Truthy(location)
    ensures |f.anyOf| > 0 <==> Truthy(search)
    ensures f.fields.Keys <= {IsActive, Location, JobTypeField}
  {
    var base := map[IsActive := Equals(Flag(true))];
    var withLocation := if Truthy(location) then base[Location := MatchesI(location.value)] else base;
    var fields := if Truthy(jobType) then withLocation[JobTypeField := Equals(Text(jobType.value))] else withLocation;
    Filter(fields, if Truthy(search) then SearchAny(search.value, Title, Description, CompanyName) else [])
  }

  /** What `AllJobsFilter` selects, stated on the job itself. */
  lemma AllJobsFilterSelects(search: Option<string>, location: Option<string>, jobType: Option<string>, j: Job, rx: Matcher)
    ensures Matches(AllJobsFilter(search, location, jobType), JobDoc(j), rx) <==>
      && j.isActive
      && (!Truthy(search) || rx(search.value, j.title) || rx(search.value, j.description) || rx(search.value, j.companyName))
      && (!Truthy(location) || (j.location.Some? && rx(location.value, j.location.value)))
      && (!Truthy(jobType) || j.jobType.Name() == jobType.value)
  {
    var f := AllJobsFilter(search, location, jobType);
    var doc := JobDoc(j);
    assert Holds(f.fields[IsActive], doc(IsActive), rx) <==> j.isActive;
    if Truthy(search) {
      var any := f.anyOf;
      assert Holds(any[0].1, doc(any[0].0), rx) <==> rx(search.value, j.title);
      assert Holds(any[1].1, doc(any[1].0), rx) <==> rx(search.value, j.description);
      assert Holds(any[2].1, doc(any[2].0), rx) <==> rx(search.value, j.companyName);
    }
    if Truthy(location) {
      assert Holds(f.fields[Location], doc(Location), rx) <==> j.location.Some? && rx(location.value, j.location.value);
    }
    if Truthy(jobType) {
      assert Holds(f.fields[JobTypeField], doc(JobTypeField), rx) <==> j.jobType.Name() == jobType.value;
    }
  }

  /** `getAllApplicants`: with neither parameter the filter is empty; a truthy
      `search` must match the name, the email or the headline; a truthy
      `userType` must equal the user type exactly. */
  function ApplicantsFilter(search: Option<string>, userType: Option<string>): (f: Filter)
    ensures !Truthy(search) && !Truthy(userType) ==> f == Filter(map[], [])
    ensures f.fields.Keys <= {UserType}
    ensures UserType in f.fields <==> Truthy(userType)
    ensures |f.anyOf| > 0 <==> Truthy(search)
  {
    var fields := if Truthy(userType) then map[UserType := Equals(Text(userType.value))] else map[];
    Filter(fields, if Truthy(search) then SearchAny(search.value, Name, Email, ProfileHeadline) else [])
  }

  /** What `ApplicantsFilter` selects, stated on the user itself; in particular
      it is not restricted to applicants unless `userType` says so. */
  lemma ApplicantsFilterSelects(search: Option<string>, userType: Option<string>, u: User, rx: Matcher)
    ensures Matches(ApplicantsFilter(search, userType), UserDoc(u), rx) <==>
      && (!Truthy(search) || rx(search.value, u.name) || rx(search.value, u.email)
          || (u.profileHeadline.Some? && rx(search.value, u.profileHeadline.value)))
      && (!Truthy(userType) || u.userType == userType.value)
  {
    var f := ApplicantsFilter(search, userType);
    var doc := UserDoc(u);
    if Truthy(search) {
      var any := f.anyOf;
      assert Holds(any[0].1, doc(any[0].0), rx) <==> rx(search.value, u.name);
      assert Holds(any[1].1, doc(any[1].0), rx) <==> rx(search.value, u.email);
      assert Holds(any[2].1, doc(any[2].0), rx) <==> u.profileHeadline.Some? && rx(search.value, u.profileHeadline.value);
    }
    if Truthy(userType) {
      assert Holds(f.fields[UserType], doc(UserType), rx) <==> u.userType == userType.value;
    }
  }

  /** `getAdminJobs`: the admin's own jobs; status 'active' or 'inactive' adds the
      flag, any other status adds nothing. */
  function AdminJobsFilter(admin: Id, status: Option<string>): (f: Filter)
    ensures PostedBy in f.fields && f.fields[PostedBy] == Equals(Ref(admin))
    ensures status == Some("active") ==> IsActive in f.fields && f.fields[IsActive] == Equals(Flag(true))
    ensures status == Some("inactive") ==> IsActive in f.fields && f.fields[IsActive] == Equals(Flag(false))
    ensures status != Some("active") && status != Some("inactive") ==> IsActive !in f.fields
    ensures f.fields.Keys <= {PostedBy, IsActive} && f.anyOf == []
  {
    var base := map[PostedBy := Equals(Ref(admin))];
    if status == Some("active") then Filter(base[IsActive := Equals(Flag(true))], [])
    else if status == Some("inactive") then Filter(base[IsActive := Equals(Flag(false))], [])
    else Filter(base, [])
  }

  /** What `AdminJobsFilter` selects, stated on the job itself. */
  lemma AdminJobsFilterSelects(admin: Id, status: Option<string>, j: Job, rx: Matcher)
    ensures Matches(AdminJobsFilter(admin, status), JobDoc(j), rx) <==>
      && j.postedBy == admin
      && (status == Some("active") ==> j.isActive)
      && (status == Some("inactive") ==> !j.isActive)
  {
    var f := AdminJobsFilter(admin, status);
    var doc := JobDoc(j);
    assert Holds(f.fields[PostedBy], doc(PostedBy), rx) <==> j.postedBy == admin;
    if IsActive in f.fields {
      assert Holds(f.fields[IsActive], doc(IsActive), rx) <==> Flag(j.isActive) == f.fields[IsActive].value;
    }
  }
}

=== FILE: guard.dfy ===
/** The access guard: bearer-token extraction, the classification of the
    verification outcome, and the three role checks. Signature verification is
    an oracle `verify(token)`. */
module Guard {
  import opened Wrappers
  import opened Models
  import opened Store
  import opened Http
  import Text

  /** What `jwt.verify` does with a token: decodes it, or throws one of its errors. */
  datatype VerifyOutcome =
    | Decoded(userId: Id)
    | JsonWebTokenError
    | TokenExpiredError
    | OtherFailure(message: string)

  /** `req.user`: the user record without its password. */
  datatype Identity = Identity(
    id: Id, name: string, email: string, userType: string,
    profileHeadline: Option<string>, address: Option<string>, profile: Option<Id>, createdAt: Time)

  function IdentityOf(id: Id, u: User): (me: Identity)
    ensures me.id == id && me.userType == u.userType && me.profile == u.profile
  {
    Identity(id, u.name, u.email, u.userType, u.profileHeadline, u.address, u.profile, u.createdAt)
  }

  /** `authHeader && authHeader.split(' ')[1]`, kept only when truthy: the second
      space-separated field of the header, whatever the first field says. */
  function BearerToken(header: Option<string>): (t: Option<string>)
    ensures t.Some? ==> t.value != "" && ' ' !in t.value
    ensures t.Some? ==> header.Some? && |Text.Split(header.value, ' ')| >= 2 && t.value == Text.Split(header.value, ' ')[1]
  {
    if header.None? then None
    else
      var fields := Text.Split(header.value, ' ');
      if |fields| >= 2 && fields[1] != "" then Some(fields[1]) else None
  }

  /** Any first word followed by one space and the token yields the token; the
      scheme name is never looked at. */
  lemma BearerTokenOfHeader(scheme: string, token: string, rest: string)
    requires ' ' !in scheme && ' ' !in token && token != ""
    requires rest == "" || rest[0] == ' '
    ensures BearerToken(Some(scheme + " " + token + rest)) == Some(token)
  {
    Text.SplitAfterField(scheme, token + rest, ' ');
    assert scheme + " " + token + rest == scheme + [' '] + (token + rest);
    if rest == "" {
      assert token + rest == token;
      Text.SplitWithoutSeparator(token, ' ');
    } else {
      assert token + rest == token + [' '] + rest[1..];
      Text.SplitAfterField(token, rest[1..], ' ');
    }
  }

  /** A header without a space carries no token. */
  lemma NoSpaceNoToken(header: string)
    requires ' ' !in header
    ensures BearerToken(Some(header)) == None
  {
    Text.SplitWithoutSeparator(header, ' ');
  }

  const MISSING_TOKEN := "Access token is required"
  const USER_GONE := "Invalid token - user not found"
  const INVALID_TOKEN := "Invalid token"
  const EXPIRED_TOKEN := "Token has expired"
  const VERIFY_FAILED := "Token verification failed"

  /** The response for a token `jwt.verify` refused, by the name of its error. */
  function VerifyFailure(o: VerifyOutcome): (r: Response)
    requires !o.Decoded?
    ensures o.JsonWebTokenError? ==> r == Fail(401, INVALID_TOKEN)
    ensures o.TokenExpiredError? ==> r == Fail(401, EXPIRED_TOKEN)
    ensures o.OtherFailure? ==> r.status == 500 && r.body.Failure? && r.body.message == VERIFY_FAILED
  {
    match o
    case JsonWebTokenError => Fail(401, INVALID_TOKEN)
    case TokenExpiredError => Fail(401, EXPIRED_TOKEN)
    case OtherFailure(m) => Response(500, Failure(VERIFY_FAILED, ErrorText(m)))
  }

  /** `authenticateToken`: the identity of the token's user, or the response
      that stops the request. */
  function Authenticate(s: Store, header: Option<string>, verify: string -> VerifyOutcome): (r: Result<Identity, Response>)
    ensures BearerToken(header).None? ==> r == Err(Fail(401, MISSING_TOKEN))
    ensures BearerToken(header).Some? && !verify(BearerToken(header).value).Decoded? ==>
      r == Err(VerifyFailure(verify(BearerToken(header).value)))
    ensures r.Ok? <==>
      && BearerToken(header).Some?
      && verify(BearerToken(header).value).Decoded?
      && verify(BearerToken(header).value).userId in s.users
    ensures r.Ok? ==>
      && r.value.id in s.users
      && r.value == IdentityOf(r.value.id, s.users[r.value.id])
      && verify(BearerToken(header).value) == Decoded(r.value.id)
    ensures r.Err? ==> r.error.status == 401 || r.error.status == 500
  {
    match BearerToken(header)
    case None => Err(Fail(401, MISSING_TOKEN))
    case Some(token) =>
      match verify(token)
      case Decoded(uid) =>
        if uid in s.users then Ok(IdentityOf(uid, s.users[uid])) else Err(Fail(401, USER_GONE))
      case o => Err(VerifyFailure(o))
  }

  /** A token whose user no longer exists is refused with its own message. */
  lemma UserGoneRefused(s: Store, header: Option<string>, verify: string -> VerifyOutcome)
    requires BearerToken(header).Some?
    requires verify(BearerToken(header).value).Decoded?
    requires verify(BearerToken(header).value).userId !in s.users
    ensures Authenticate(s, header, verify) == Err(Fail(401, USER_GONE))
  {
  }

  /** `requireAdmin`. */
  function RequireAdmin(me: Identity): (r: Option<Response>)
    ensures r.None? <==> me.userType == ADMIN
    ensures r.Some? ==> r.value == Fail(403, "Access denied. Admin privileges required.")
  {
    if me.userType != ADMIN then Some(Fail(403, "Access denied. Admin privileges required.")) else None
  }

  /** `requireApplicant`. */
  function RequireApplicant(me: Identity): (r: Option<Response>)
    ensures r.None? <==> me.userType == APPLICANT
    ensures r.Some? ==> r.value == Fail(403, "Access denied. Applicant privileges required.")
  {
    if me.userType != APPLICANT then Some(Fail(403, "Access denied. Applicant privileges required.")) else None
  }

  /** `requireUser`. */
  function RequireUser(me: Identity): (r: Option<Response>)
    ensures r.None? <==> me.userType == ADMIN || me.userType == APPLICANT
    ensures r.Some? ==> r.value == Fail(403, "Access denied. Valid user privileges required.")
  {
    if me.userType != ADMIN && me.userType != APPLICANT then Some(Fail(403, "Access denied. Valid user privileges required.")) else None
  }

  /** The roles are exclusive, and "any user" is exactly "admin or applicant". */
  lemma GuardsAgree(me: Identity)
    ensures RequireUser(me).None? <==> RequireAdmin(me).None? || RequireApplicant(me).None?
    ensures !(RequireAdmin(me).None? && RequireApplicant(me).None?)
  {
  }
}

=== FILE: http.dfy ===
/** The JSON responses of the API: `{ success, message, data }` on success and
    `{ success: false, message, ... }` on failure, with the record views the
    handlers expose. */
module Http {
  import opened Wrappers
  import opened Models
  import opened Store
  import Pagination

  /** The claims of an issued JWT: the user id, and issue and expiry times in
      seconds. The signature is not modelled. */
  datatype Token = Token(userId: Id, issuedAt: nat, expiresAt: nat)

  /** A user as responses show it: there is no password field to leak. */
  datatype UserView = UserView(
    id: Id, name: string, email: string, userType: string,
    profileHeadline: Option<string>, address: Option<string>)

  function ViewUser(id: Id, u: User): (v: UserView)
    ensures v.id == id && v.name == u.name && v.email == u.email && v.userType == u.userType
    ensures v.profileHeadline == u.profileHeadline && v.address == u.address
  {
    UserView(id, u.name, u.email, u.userType, u.profileHeadline, u.address)
  }

  /** `populate('postedBy', 'name email')`: the owner's id, name and email. */
  datatype OwnerSummary = OwnerSummary(id: Id, name: string, email: string)

  /** The owner member of a job view: left out of the reply, or populated,
      which is null when the owner no longer exists. */
  datatype OwnerField = Omitted | Populated(owner: Option<OwnerSummary>)

  /** A job as responses show it. */
  datatype JobView = JobView(
    id: Id, title: string, description: string, companyName: string,
    requirements: Option<string>, location: Option<string>, jobType: string,
    salaryRange: SalaryRange, postedOn: Time, totalApplications: int,
    postedBy: OwnerField, isActive: bool)

  function PopulateOwner(s: Store, u: Id): (r: Option<OwnerSummary>)
    ensures r.Some? <==> u in s.users
    ensures r.Some? ==> r.value.id == u && r.value.email == s.users[u].email
  {
    if u in s.users then Some(OwnerSummary(u, s.users[u].name, s.users[u].email)) else None
  }

  /** The job in the reply to its creation, which leaves the owner out. */
  function ViewCreatedJob(id: Id, j: Job): (v: JobView)
    ensures v.id == id && v.postedBy.Omitted? && v.isActive == j.isActive
    ensures v.postedOn == j.createdAt && v.totalApplications == j.totalApplications
  {
    JobView(id, j.title, j.description, j.companyName, j.requirements, j.location,
            j.jobType.Name(), j.salaryRange, PostedOn(j), j.totalApplications, Omitted, j.isActive)
  }

  /** The job in the details response: the created job's view with the owner
      populated. */
  function ViewJob(s: Store, id: Id, j: Job): (v: JobView)
    ensures v.postedBy.Populated? && (v.postedBy.owner.Some? <==> j.postedBy in s.users)
    ensures v.postedBy.owner.Some? ==> v.postedBy.owner.value.id == j.postedBy
    ensures v.(postedBy := Omitted) == ViewCreatedJob(id, j)
  {
    ViewCreatedJob(id, j).(postedBy := Populated(PopulateOwner(s, j.postedBy)))
  }

  /** `populate('applicant', 'name email userType')`: the selected fields, or
      null when the user is gone. */
  datatype ApplicantSummary = ApplicantSummary(id: Id, name: string, email: string, userType: string)

  /** `populate('job', 'title companyName location jobType')`: the selected
      fields, or null when the job is gone. */
  datatype JobSummary = JobSummary(id: Id, title: string, companyName: string, location: Option<string>, jobType: string)

  /** An entry of the job details: the application with its applicant
      populated, and no job field. */
  datatype ApplicantEntry = ApplicantEntry(
    id: Id, applicant: Option<ApplicantSummary>, status: string, appliedAt: Time, notes: Option<string>)

  /** An entry of the applicant details: the application with its job
      populated, and no applicant field. */
  datatype JobEntry = JobEntry(
    id: Id, job: Option<JobSummary>, status: string, appliedAt: Time, notes: Option<string>)

  /** The application in the reply to applying: the job as the client spelled
      its id in the query, the applicant's id, and no notes. */
  datatype SubmittedApplication = SubmittedApplication(
    id: Id, job: string, applicant: Id, status: string, appliedAt: Time)

  function PopulateApplicant(s: Store, u: Id): (r: Option<ApplicantSummary>)
    ensures r.Some? <==> u in s.users
    ensures r.Some? ==> r.value.id == u && r.value.email == s.users[u].email && r.value.userType == s.users[u].userType
  {
    if u in s.users then Some(ApplicantSummary(u, s.users[u].name, s.users[u].email, s.users[u].userType)) else None
  }

  function PopulateJob(s: Store, j: Id): (r: Option<JobSummary>)
    ensures r.Some? <==> j in s.jobs
    ensures r.Some? ==> r.value.id == j && r.value.title == s.jobs[j].title
  {
    if j in s.jobs then
      var job := s.jobs[j];
      Some(JobSummary(j, job.title, job.companyName, job.location, job.jobType.Name()))
    else None
  }

  function EntryForJob(s: Store, id: Id, a: Application): ApplicantEntry {
    ApplicantEntry(id, PopulateApplicant(s, a.applicant), a.status.Name(), a.appliedAt, a.notes)
  }

  function EntryForApplicant(s: Store, id: Id, a: Application): JobEntry {
    JobEntry(id, PopulateJob(s, a.job), a.status.Name(), a.appliedAt, a.notes)
  }

  function ViewSubmitted(id: Id, jobId: string, a: Application): SubmittedApplication {
    SubmittedApplication(id, jobId, a.applicant, a.status.Name(), a.appliedAt)
  }

  datatype ProfileView = ProfileView(
    id: Id, resumeFileAddress: Option<string>, name: Option<string>, email: Option<string>,
    phone: Option<string>, skills: Option<string>, education: Option<string>, experience: Option<string>)

  /** `populate('profile')` selects no fields, so the reply carries the whole
      stored document under its id: the applicant reference and the parser's
      `extractedData` included. */
  datatype ProfileDocument = ProfileDocument(id: Id, document: Profile)

  function ViewProfile(id: Id, p: Profile): ProfileView {
    ProfileView(id, p.resumeFileAddress, p.name, p.email, p.phone, p.skills, p.education, p.experience)
  }

  /** The `data` member of a successful response. Listings carry their pagination
      only: which documents fill a page is the database's sort, skip and limit.
      Both detail responses send their entries under the key `applications`;
      the two fields are named apart here because their entries differ. */
  datatype Data =
    | SignedUp(user: UserView, token: Token)
    | LoggedIn(user: UserView, profile: Option<ProfileDocument>, token: Token)
    | JobCreated(job: JobView)
    | JobListing(pagination: Pagination.Page)
    | JobDetails(job: JobView, applicants: set<ApplicantEntry>)
    | ApplicationSubmitted(application: SubmittedApplication)
    | ResumeStored(stored: ProfileView)
    | UserListing(pagination: Pagination.Page)
    | ApplicantDetails(user: UserView, profile: Option<ProfileDocument>, createdAt: Time, applied: set<JobEntry>)

  /** What a failure carries besides its message. */
  /** One entry of express-validator's `errors.array()`: `type` is always
      'field' and `location` always 'body' here; `value` is the field as the
      rule saw it, after the chain's sanitizers, and is left out of the JSON
      when the field was absent. */
  datatype ValidationError = ValidationError(kind: string, value: Option<string>, msg: string, path: string, location: string)

  datatype Detail =
    | Plain
    | ErrorText(error: string)
    | Errors(errors: seq<ValidationError>)
    | Messages(messages: seq<string>)
    | DuplicateField(field: Option<string>)
    | StackTrace(stack: string)

  /** `{ success: true, message?, data }` or `{ success: false, message, ... }`. */
  datatype Body = Success(notice: Option<string>, data: Data) | Failure(message: string, detail: Detail)

  datatype Response = Response(status: nat, body: Body)

  /** A failure with a status and a message and nothing else. */
  function Fail(status: nat, message: string): Response {
    Response(status, Failure(message, Plain))
  }

  /** The catch-all of every controller: 500 with the exception's message. */
  function InternalError(error: string): Response {
    Response(500, Failure("Internal server error", ErrorText(error)))
  }

  /** The message Mongoose gives a value that is not an ObjectId. */
  function CastMessage(value: string, model: string): string {
    "Cast to ObjectId failed for value \"" + value + "\" (type string) at path \"_id\" for model \"" + model + "\""
  }
}

=== FILE: jobs.dfy ===
/** The job handlers: creating a job (admin), listing active jobs, showing one
    job with its applications (admin), and applying for a job (applicant).
    Casting a path or query value to an ObjectId is an oracle `castId`; database
    faults are parameters. */
module Jobs {
  import opened Wrappers
  import opened Models
  import opened Store
  import opened Http
  import Guard
  import Filters
  import Pagination
  import Text

  // -------------------------------------------------------------- createJob

  const JOB_CREATED := "Job created successfully"

  /** `path: message` for one failed path. */
  function PathMessage(e: FieldError): string {
    e.path + ": " + e.msg
  }

  /** The message of the ValidationError `save()` throws for a Job. */
  function ValidationMessage(errors: seq<FieldError>): string {
    "Job validation failed: " + Text.Join(seq(|errors|, i requires 0 <= i < |errors| => PathMessage(errors[i])), ", ")
  }

  /** `createJob`: a Job owned by the requesting admin is saved under the next id;
      a schema failure or a database fault ends in the catch-all 500. */
  function CreateJob(s: Store, me: Guard.Identity, input: JobInput, now: Time, fault: Option<string>): (r: (Store, Response))
    requires Wf(s)
    ensures r.1.status == 201 <==> NewJob(input, me.id, now).Ok? && fault.None?
    ensures r.1.status != 201 ==> r.0 == s && r.1.status == 500
    ensures NewJob(input, me.id, now).Err? ==> r.1 == InternalError(ValidationMessage(NewJob(input, me.id, now).error))
    ensures r.1.status == 201 ==>
      var j := NewJob(input, me.id, now).value;
      && s.nextId !in s.jobs
      && r.0 == s.(jobs := s.jobs[s.nextId := j], nextId := s.nextId + 1)
      && r.1.body == Success(Some(JOB_CREATED), JobCreated(ViewCreatedJob(s.nextId, j)))
  {
    match NewJob(input, me.id, now)
    case Err(errors) => (s, InternalError(ValidationMessage(errors)))
    case Ok(j) =>
      if fault.Some? then (s, InternalError(fault.value))
      else (s.(jobs := s.jobs[s.nextId := j], nextId := s.nextId + 1),
            Response(201, Success(Some(JOB_CREATED), JobCreated(ViewCreatedJob(s.nextId, j)))))
  }

  /** A created job belongs to its creator, is active, has no applications yet,
      and shows its creation time as `postedOn`. */
  lemma CreatedJobOwned(s: Store, me: Guard.Identity, input: JobInput, now: Time)
    requires Wf(s) && NewJob(input, me.id, now).Ok?
    ensures var (s', resp) := CreateJob(s, me, input, now, None);
      && s.nextId in s'.jobs && s'.jobs[s.nextId].postedBy == me.id && s'.jobs[s.nextId].isActive
      && s'.jobs[s.nextId].totalApplications == 0 && s'.jobs[s.nextId].applicants == []
      && resp.body.Success? && resp.body.data.JobCreated? && resp.body.data.job.postedOn == now
      && resp.body.data.job.postedBy.Omitted?
  {
  }

  lemma CreateJobWf(s: Store, me: Guard.Identity, input: JobInput, now: Time, fault: Option<string>)
    requires Wf(s)
    ensures Wf(CreateJob(s, me, input, now, fault).0)
  {
    var s' := CreateJob(s, me, input, now, fault).0;
    if s' != s {
      forall k | k in s'.jobs ensures k < s'.nextId {
        assert k in s.jobs || k == s.nextId;
      }
    }
  }

  // ------------------------------------------------------------- getAllJobs

  /** The jobs a filter selects. */
  function JobsMatching(s: Store, f: Filters.Filter, rx: Filters.Matcher): (ks: set<Id>)
    ensures ks <= s.jobs.Keys
    ensures forall k :: k in ks <==> k in s.jobs && Filters.Matches(f, Filters.JobDoc(s.jobs[k]), rx)
  {
    set k | k in s.jobs && Filters.Matches(f, Filters.JobDoc(s.jobs[k]), rx)
  }

  /** `getAllJobs`: 200 with the pagination of the active jobs the query selects. */
  function GetAllJobs(s: Store, page: Pagination.Positive, limit: Pagination.Positive,
                      search: Option<string>, location: Option<string>, jobType: Option<string>,
                      rx: Filters.Matcher): (r: Response)
    ensures r.status == 200 && r.body.Success? && r.body.notice.None? && r.body.data.JobListing?
    ensures r.body.data.pagination ==
      Pagination.Paginate(page, limit, |JobsMatching(s, Filters.AllJobsFilter(search, location, jobType), rx)|)
  {
    var total := |JobsMatching(s, Filters.AllJobsFilter(search, location, jobType), rx)|;
    Response(200, Success(None, JobListing(Pagination.Paginate(page, limit, total))))
  }

  /** The listing counts only active jobs: an inactive job is never among them. */
  lemma ListingOnlyActive(s: Store, search: Option<string>, location: Option<string>, jobType: Option<string>,
                          rx: Filters.Matcher, k: Id)
    requires k in s.jobs && !s.jobs[k].isActive
    ensures k !in JobsMatching(s, Filters.AllJobsFilter(search, location, jobType), rx)
  {
    Filters.AllJobsFilterSelects(search, location, jobType, s.jobs[k], rx);
  }

  /** With no search, location or type, the listing counts exactly the active jobs. */
  lemma UnfilteredListingCountsActive(s: Store, rx: Filters.Matcher)
    ensures JobsMatching(s, Filters.AllJobsFilter(None, None, None), rx) == set k | k in s.jobs && s.jobs[k].isActive
  {
    forall k | k in s.jobs {
      Filters.AllJobsFilterSelects(None, None, None, s.jobs[k], rx);
    }
  }

  // ----------------------------------------------------------- getJobDetails

  const JOB_NOT_FOUND := "Job not found"

  /** The applications of one job, as the details response shows them. */
  function ApplicationsOfJob(s: Store, job: Id): (vs: set<ApplicantEntry>)
    ensures forall v :: v in vs <==> exists a :: a in s.applications && s.applications[a].job == job
                                                && v == EntryForJob(s, a, s.applications[a])
  {
    set a | a in s.applications && s.applications[a].job == job :: EntryForJob(s, a, s.applications[a])
  }

  /** `getJobDetails`: a value that is no ObjectId ends in the catch-all 500, an
      unknown job is 404, and otherwise the job comes with all its applications. */
  function GetJobDetails(s: Store, jobId: string, castId: string -> Option<Id>): (r: Response)
    ensures castId(jobId).None? ==> r == InternalError(CastMessage(jobId, "Job"))
    ensures castId(jobId).Some? && castId(jobId).value !in s.jobs ==> r == Fail(404, JOB_NOT_FOUND)
    ensures r.status == 200 <==> castId(jobId).Some? && castId(jobId).value in s.jobs
    ensures r.status == 200 ==>
      var k := castId(jobId).value;
      r.body == Success(None, JobDetails(ViewJob(s, k, s.jobs[k]), ApplicationsOfJob(s, k)))
  {
    match castId(jobId)
    case None => InternalError(CastMessage(jobId, "Job"))
    case Some(k) =>
      if k !in s.jobs then Fail(404, JOB_NOT_FOUND)
      else Response(200, Success(None, JobDetails(ViewJob(s, k, s.jobs[k]), ApplicationsOfJob(s, k))))
  }

  /** The details name the job's owner while that user exists, and null after. */
  lemma DetailsPopulateOwner(s: Store, jobId: string, castId: string -> Option<Id>)
    requires GetJobDetails(s, jobId, castId).status == 200
    ensures var k := castId(jobId).value;
      var owner := GetJobDetails(s, jobId, castId).body.data.job.postedBy.owner;
      && (owner.Some? <==> s.jobs[k].postedBy in s.users)
      && (owner.Some? ==> owner.value.id == s.jobs[k].postedBy)
  {
  }

  /** An application is shown exactly when it belongs to the job shown, and
      its entry names the applicant when that user still exists. */
  lemma DetailsShowOwnApplications(s: Store, jobId: string, castId: string -> Option<Id>, a: Id)
    requires GetJobDetails(s, jobId, castId).status == 200
    requires a in s.applications
    ensures var apps := GetJobDetails(s, jobId, castId).body.data.applicants;
      (EntryForJob(s, a, s.applications[a]) in apps <==> s.applications[a].job == castId(jobId).value)
    ensures s.applications[a].applicant in s.users ==>
      EntryForJob(s, a, s.applications[a]).applicant.value.id == s.applications[a].applicant
  {
    var k := castId(jobId).value;
    if EntryForJob(s, a, s.applications[a]) in ApplicationsOfJob(s, k) {
      var b :| b in s.applications && s.applications[b].job == k
               && EntryForJob(s, a, s.applications[a]) == EntryForJob(s, b, s.applications[b]);
      assert a == b;
    }
  }

  // ------------------------------------------------------------- applyForJob

  const ID_REQUIRED := "Job ID is required"
  const NOT_ACTIVE := "This job is no longer active"
  const ALREADY_APPLIED := "You have already applied for this job"
  const SUBMITTED := "Application submitted successfully"

  /** The two writes of a successful apply that can fail: saving the
      Application, and the job update after it. */
  datatype ApplyFaults = ApplyFaults(save: Option<string>, update: Option<string>)

  /** `$addToSet`: append unless already present. */
  function AddToSet(xs: seq<Id>, x: Id): (ys: seq<Id>)
    ensures x in ys && (forall y :: y in xs ==> y in ys)
    ensures forall y :: y in ys ==> y in xs || y == x
    ensures x in xs ==> ys == xs
    ensures x !in xs ==> ys == xs + [x]
  {
    if x in xs then xs else xs + [x]
  }

  /** `findByIdAndUpdate(job, { $addToSet: { applicants }, $inc: { totalApplications: 1 } })`. */
  function RecordApplicant(j: Job, applicant: Id): (j': Job)
    ensures j'.totalApplications == j.totalApplications + 1
    ensures j'.applicants == AddToSet(j.applicants, applicant)
    ensures j' == j.(totalApplications := j'.totalApplications, applicants := j'.applicants)
  {
    j.(applicants := AddToSet(j.applicants, applicant), totalApplications := j.totalApplications + 1)
  }

  /** The checks of `applyForJob`, in order: the id is given, it is an ObjectId,
      the job exists, it is active, and no application for the pair exists. */
  function ApplyCheck(s: Store, me: Guard.Identity, jobId: Option<string>, castId: string -> Option<Id>): (r: Result<Id, Response>)
    ensures !Filters.Truthy(jobId) ==> r == Err(Fail(400, ID_REQUIRED))
    ensures Filters.Truthy(jobId) && castId(jobId.value).None? ==>
      r == Err(InternalError(CastMessage(jobId.value, "Job")))
    ensures Filters.Truthy(jobId) && castId(jobId.value).Some? ==>
      var k := castId(jobId.value).value;
      && (k !in s.jobs ==> r == Err(Fail(404, JOB_NOT_FOUND)))
      && (k in s.jobs && !s.jobs[k].isActive ==> r == Err(Fail(400, NOT_ACTIVE)))
      && (k in s.jobs && s.jobs[k].isActive && ApplicationFor(s, k, me.id).Some? ==> r == Err(Fail(400, ALREADY_APPLIED)))
      && (r.Ok? <==> k in s.jobs && s.jobs[k].isActive && ApplicationFor(s, k, me.id).None?)
    ensures r.Ok? ==> Filters.Truthy(jobId) && castId(jobId.value) == Some(r.value)
  {
    if !Filters.Truthy(jobId) then Err(Fail(400, ID_REQUIRED))
    else match castId(jobId.value)
      case None => Err(InternalError(CastMessage(jobId.value, "Job")))
      case Some(k) =>
        if k !in s.jobs then Err(Fail(404, JOB_NOT_FOUND))
        else if !s.jobs[k].isActive then Err(Fail(400, NOT_ACTIVE))
        else if ApplicationFor(s, k, me.id).Some? then Err(Fail(400, ALREADY_APPLIED))
        else Ok(k)
  }

  /** `applyForJob`: a refused request changes nothing; an accepted one saves an
      Application with status Applied and then records the applicant on the job.
      A fault in the save changes nothing; a fault in the job update leaves the
      saved Application in place. */
  function ApplyForJob(s: Store, me: Guard.Identity, jobId: Option<string>, castId: string -> Option<Id>,
                       now: Time, faults: ApplyFaults): (r: (Store, Response))
    requires Wf(s)
    ensures ApplyCheck(s, me, jobId, castId).Err? ==> r == (s, ApplyCheck(s, me, jobId, castId).error)
    ensures ApplyCheck(s, me, jobId, castId).Ok? && faults.save.Some? ==> r == (s, InternalError(faults.save.value))
    ensures r.1.status == 201 <==> ApplyCheck(s, me, jobId, castId).Ok? && faults == ApplyFaults(None, None)
    ensures ApplyCheck(s, me, jobId, castId).Ok? && faults.save.None? ==>
      var k := ApplyCheck(s, me, jobId, castId).value;
      var a := NewApplication(k, me.id, now);
      && s.nextId !in s.applications
      && r.0.applications == s.applications[s.nextId := a]
      && r.0.nextId == s.nextId + 1
      && r.0.users == s.users && r.0.profiles == s.profiles && r.0.files == s.files
      && (faults.update.Some? ==> r.0.jobs == s.jobs && r.1 == InternalError(faults.update.value))
      && (faults.update.None? ==>
            && r.0.jobs == s.jobs[k := RecordApplicant(s.jobs[k], me.id)]
            && r.1 == Response(201, Success(Some(SUBMITTED), ApplicationSubmitted(ViewSubmitted(s.nextId, jobId.value, a)))))
  {
    match ApplyCheck(s, me, jobId, castId)
    case Err(resp) => (s, resp)
    case Ok(k) =>
      var a := NewApplication(k, me.id, now);
      if faults.save.Some? then (s, InternalError(faults.save.value))
      else match InsertApplication(s, a)
        case Err(_) => (s, InternalError("E11000 duplicate key error"))
        case Ok((s1, id)) =>
          if faults.update.Some? then (s1, InternalError(faults.update.value))
          else (s1.(jobs := s1.jobs[k := RecordApplicant(s1.jobs[k], me.id)]),
                Response(201, Success(Some(SUBMITTED), ApplicationSubmitted(ViewSubmitted(id, jobId.value, a)))))
  }

  /** The 201 reply names the job as the query spelled it, not as it was cast:
      two spellings of one id are answered with their own spelling. */
  lemma ReplyEchoesQueryId(s: Store, me: Guard.Identity, jobId: Option<string>, castId: string -> Option<Id>, now: Time)
    requires Wf(s) && ApplyCheck(s, me, jobId, castId).Ok?
    ensures var r := ApplyForJob(s, me, jobId, castId, now, ApplyFaults(None, None)).1;
      && r.status == 201 && r.body.Success? && r.body.data.ApplicationSubmitted?
      && r.body.data.application.job == jobId.value
      && r.body.data.application.applicant == me.id
      && castId(r.body.data.application.job) == Some(ApplyCheck(s, me, jobId, castId).value)
  {
  }

  /** A missing id, an unknown job, an inactive job and a repeated application
      are each refused with their own response and no change to the store. */
  lemma RefusalsChangeNothing(s: Store, me: Guard.Identity, jobId: Option<string>, castId: string -> Option<Id>,
                              now: Time, faults: ApplyFaults)
    requires Wf(s)
    ensures !Filters.Truthy(jobId) ==> ApplyForJob(s, me, jobId, castId, now, faults) == (s, Fail(400, ID_REQUIRED))
    ensures Filters.Truthy(jobId) && castId(jobId.value).Some? ==>
      var k := castId(jobId.value).value;
      && (k !in s.jobs ==> ApplyForJob(s, me, jobId, castId, now, faults) == (s, Fail(404, JOB_NOT_FOUND)))
      && (k in s.jobs && !s.jobs[k].isActive ==> ApplyForJob(s, me, jobId, castId, now, faults) == (s, Fail(400, NOT_ACTIVE)))
      && (k in s.jobs && s.jobs[k].isActive &&
          (exists a :: a in s.applications && s.applications[a].job == k && s.applications[a].applicant == me.id) ==>
          ApplyForJob(s, me, jobId, castId, now, faults) == (s, Fail(400, ALREADY_APPLIED)))
  {
    if Filters.Truthy(jobId) && castId(jobId.value).Some? {
      var k := castId(jobId.value).value;
      if k in s.jobs && s.jobs[k].isActive &&
         (exists a :: a in s.applications && s.applications[a].job == k && s.applications[a].applicant == me.id) {
        assert ApplicationFor(s, k, me.id).Some?;
      }
    }
  }

  /** A successful apply touches no job but the one applied for. */
  lemma ApplyTouchesOneJob(s: Store, me: Guard.Identity, jobId: Option<string>, castId: string -> Option<Id>,
                           now: Time, other: Id)
    requires Wf(s)
    requires ApplyForJob(s, me, jobId, castId, now, ApplyFaults(None, None)).1.status == 201
    requires other in s.jobs && Some(other) != castId(jobId.value)
    ensures var s' := ApplyForJob(s, me, jobId, castId, now, ApplyFaults(None, None)).0;
      other in s'.jobs && s'.jobs[other] == s.jobs[other]
  {
  }

  lemma ApplyWf(s: Store, me: Guard.Identity, jobId: Option<string>, castId: string -> Option<Id>,
                now: Time, faults: ApplyFaults)
    requires Wf(s)
    ensures Wf(ApplyForJob(s, me, jobId, castId, now, faults).0)
  {
    var r := ApplyForJob(s, me, jobId, castId, now, faults);
    var c := ApplyCheck(s, me, jobId, castId);
    if c.Ok? && faults.save.None? {
      var s' := r.0;
      forall k | k in s'.applications ensures k < s'.nextId && s'.applications[k].job in s'.jobs {
        assert k in s.applications || k == s.nextId;
      }
      forall k | k in s'.jobs ensures k < s'.nextId {
        assert k in s.jobs;
      }
    }
  }
}

=== FILE: ledger.dfy ===
/** The application ledger: for every job, the stored counter, the number of
    applications that name the job, and the number of distinct applicants on the
    job agree. Creating a job and applying without faults keep this; a fault in
    the job update after the Application was saved does not. */
module Ledger {
  import opened Wrappers
  import opened Models
  import opened Store
  import opened Http
  import Guard
  import Jobs

  /** The applications that name job `j`. */
  function AppsFor(s: Store, j: Id): (ks: set<Id>)
    ensures forall a :: a in ks <==> a in s.applications && s.applications[a].job == j
  {
    set a | a in s.applications && s.applications[a].job == j
  }

  /** The users who applied for job `j`. */
  function ApplicantsFor(s: Store, j: Id): (us: set<Id>)
    ensures forall u :: u in us <==> exists a :: a in s.applications && s.applications[a].job == j && s.applications[a].applicant == u
  {
    set a | a in s.applications && s.applications[a].job == j :: s.applications[a].applicant
  }

  /** The applicant list of a job as a set. */
  function Members(xs: seq<Id>): (m: set<Id>)
    ensures forall x :: x in m <==> x in xs
  {
    set x | x in xs
  }

  /** The ledger of one job balances. */
  predicate JobBalanced(s: Store, j: Id)
    requires j in s.jobs
  {
    && s.jobs[j].totalApplications == |AppsFor(s, j)|
    && |ApplicantsFor(s, j)| == |AppsFor(s, j)|
    && Members(s.jobs[j].applicants) == ApplicantsFor(s, j)
  }

  predicate Balanced(s: Store) {
    Wf(s) && forall j :: j in s.jobs ==> JobBalanced(s, j)
  }

  /** What a balanced ledger promises for each job: counter = number of
      applications = size of the applicant set. */
  lemma BalancedCounts(s: Store, j: Id)
    requires Balanced(s) && j in s.jobs
    ensures s.jobs[j].totalApplications == |AppsFor(s, j)| == |Members(s.jobs[j].applicants)|
  {
  }

  /** The empty store balances. */
  lemma EmptyBalanced()
    ensures Balanced(Store(map[], map[], map[], map[], {}, 0))
  {
  }

  /** Adding a job with no applications to a balanced store keeps it balanced. */
  lemma AddJobBalanced(s: Store, s': Store, id: Id, job: Job)
    requires Balanced(s) && id !in s.jobs && Wf(s')
    requires s'.jobs == s.jobs[id := job] && s'.applications == s.applications
    requires job.totalApplications == 0 && job.applicants == []
    ensures Balanced(s')
  {
    forall j | j in s'.jobs ensures JobBalanced(s', j) {
      assert AppsFor(s', j) == AppsFor(s, j);
      assert ApplicantsFor(s', j) == ApplicantsFor(s, j);
      if j == id {
        assert AppsFor(s, j) == {};
        assert ApplicantsFor(s, j) == {};
        assert Members([]) == {};
      } else {
        assert JobBalanced(s, j);
      }
    }
  }

  /** Creating a job keeps the ledger balanced: the new job has no applications. */
  lemma CreateJobBalanced(s: Store, me: Guard.Identity, input: JobInput, now: Time, fault: Option<string>)
    requires Balanced(s)
    ensures Balanced(Jobs.CreateJob(s, me, input, now, fault).0)
  {
    var s' := Jobs.CreateJob(s, me, input, now, fault).0;
    Jobs.CreateJobWf(s, me, input, now, fault);
    if s' != s {
      var job := NewJob(input, me.id, now).value;
      AddJobBalanced(s, s', s.nextId, job);
    }
  }

  /** Adding an application for job `k` by user `u` grows that job's
      applications by the new id and its applicants by `u`; other jobs keep
      theirs. */
  lemma InsertGrows(s: Store, s': Store, id: Id, a: Application, j: Id)
    requires id !in s.applications && s'.applications == s.applications[id := a]
    ensures j == a.job ==> AppsFor(s', j) == AppsFor(s, j) + {id}
    ensures j == a.job ==> ApplicantsFor(s', j) == ApplicantsFor(s, j) + {a.applicant}
    ensures j != a.job ==> AppsFor(s', j) == AppsFor(s, j) && ApplicantsFor(s', j) == ApplicantsFor(s, j)
  {
    if j == a.job {
      forall u | u in ApplicantsFor(s', j) ensures u in ApplicantsFor(s, j) + {a.applicant} {
        var b :| b in s'.applications && s'.applications[b].job == j && s'.applications[b].applicant == u;
        if b != id { assert b in s.applications; }
      }
      forall u | u in ApplicantsFor(s, j) ensures u in ApplicantsFor(s', j) {
        var b :| b in s.applications && s.applications[b].job == j && s.applications[b].applicant == u;
        assert b in s'.applications && s'.applications[b] == s.applications[b];
      }
      assert a.applicant in ApplicantsFor(s', j) by {
        assert id in s'.applications && s'.applications[id] == a;
      }
    } else {
      forall u | u in ApplicantsFor(s', j) ensures u in ApplicantsFor(s, j) {
        var b :| b in s'.applications && s'.applications[b].job == j && s'.applications[b].applicant == u;
        assert b != id && b in s.applications;
      }
      forall u | u in ApplicantsFor(s, j) ensures u in ApplicantsFor(s', j) {
        var b :| b in s.applications && s.applications[b].job == j && s.applications[b].applicant == u;
        assert b in s'.applications && s'.applications[b] == s.applications[b];
      }
    }
  }

  /** The job applied for balances again after its counter, applications and
      applicants each grew by one. */
  lemma RecordedJobBalanced(s: Store, s': Store, id: Id, a: Application)
    requires a.job in s.jobs && JobBalanced(s, a.job)
    requires id !in AppsFor(s, a.job) && a.applicant !in ApplicantsFor(s, a.job)
    requires AppsFor(s', a.job) == AppsFor(s, a.job) + {id}
    requires ApplicantsFor(s', a.job) == ApplicantsFor(s, a.job) + {a.applicant}
    requires s'.jobs == s.jobs[a.job := Jobs.RecordApplicant(s.jobs[a.job], a.applicant)]
    ensures JobBalanced(s', a.job)
  {
    var k := a.job;
    var xs := s.jobs[k].applicants;
    assert a.applicant !in xs;
    assert s'.jobs[k].applicants == xs + [a.applicant];
    GrowByOne(AppsFor(s, k), id);
    GrowByOne(ApplicantsFor(s, k), a.applicant);
    AppendMember(xs, a.applicant);
  }

  lemma GrowByOne(xs: set<Id>, x: Id)
    requires x !in xs
    ensures |xs + {x}| == |xs| + 1
  {
  }

  lemma AppendMember(xs: seq<Id>, x: Id)
    ensures Members(xs + [x]) == Members(xs) + {x}
  {
  }

  /** Recording a new application of a first-time applicant on its job keeps a
      balanced store balanced. */
  lemma RecordBalanced(s: Store, s': Store, id: Id, a: Application)
    requires Balanced(s) && Wf(s') && id !in s.applications && a.job in s.jobs
    requires a.applicant !in ApplicantsFor(s, a.job)
    requires s'.applications == s.applications[id := a]
    requires s'.jobs == s.jobs[a.job := Jobs.RecordApplicant(s.jobs[a.job], a.applicant)]
    ensures Balanced(s')
  {
    forall j | j in s'.jobs ensures JobBalanced(s', j) {
      InsertGrows(s, s', id, a, j);
      assert JobBalanced(s, j);
      if j == a.job {
        RecordedJobBalanced(s, s', id, a);
      }
    }
  }

  /** A fault-free apply keeps the ledger balanced: the counter, the number of
      applications and the applicant set of the job all grow by one, and no
      other job changes. */
  lemma ApplyBalanced(s: Store, me: Guard.Identity, jobId: Option<string>, castId: string -> Option<Id>, now: Time)
    requires Balanced(s)
    ensures Balanced(Jobs.ApplyForJob(s, me, jobId, castId, now, Jobs.ApplyFaults(None, None)).0)
  {
    var faults := Jobs.ApplyFaults(None, None);
    var s' := Jobs.ApplyForJob(s, me, jobId, castId, now, faults).0;
    Jobs.ApplyWf(s, me, jobId, castId, now, faults);
    var c := Jobs.ApplyCheck(s, me, jobId, castId);
    if c.Ok? {
      var k := c.value;
      assert ApplicationFor(s, k, me.id).None?;
      RecordBalanced(s, s', s.nextId, NewApplication(k, me.id, now));
    }
  }

  /** When the job update fails after the Application was saved, the job's
      counter falls one behind its applications. */
  lemma UpdateFaultUnbalances(s: Store, me: Guard.Identity, jobId: Option<string>,
                              castId: string -> Option<Id>, now: Time, message: string)
    requires Balanced(s)
    requires Jobs.ApplyCheck(s, me, jobId, castId).Ok?
    ensures var s' := Jobs.ApplyForJob(s, me, jobId, castId, now, Jobs.ApplyFaults(None, Some(message))).0;
      var k := Jobs.ApplyCheck(s, me, jobId, castId).value;
      && k in s'.jobs && s'.jobs[k].totalApplications + 1 == |AppsFor(s', k)|
  {
    var k := Jobs.ApplyCheck(s, me, jobId, castId).value;
    var s' := Jobs.ApplyForJob(s, me, jobId, castId, now, Jobs.ApplyFaults(None, Some(message))).0;
    InsertGrows(s, s', s.nextId, NewApplication(k, me.id, now), k);
    assert s.nextId !in AppsFor(s, k);
  }
}

=== FILE: models.dfy ===
/** The Mongoose schemas of the recruitment backend as records: Job,
    Application, Profile, the parser's résumé data, and the User record that
    the controllers read (models/User.js itself is not part of this model). */
module Models {
  import opened Wrappers
  import Text

  /** Document identity (an ObjectId). */
  type Id = nat

  /** Milliseconds since the epoch, the unit of `Date.now()`. */
  type Time = nat

  /** One schema-validation failure: the offending path and its message. */
  datatype FieldError = FieldError(path: string, msg: string)

  // ---------------------------------------------------------------- Job

  const TITLE_MAX := 200
  const DESCRIPTION_MAX := 2000
  const COMPANY_MAX := 100
  const REQUIREMENTS_MAX := 1000
  const LOCATION_MAX := 100
  const DEFAULT_JOB_TYPE := FullTime
  const DEFAULT_CURRENCY := "USD"

  /** The five values of the `jobType` enum. */
  datatype JobType = FullTime | PartTime | Contract | Internship | Remote {
    function Name(): string {
      match this
      case FullTime => "Full-time"
      case PartTime => "Part-time"
      case Contract => "Contract"
      case Internship => "Internship"
      case Remote => "Remote"
    }
  }

  /** The enum check: which of the five values, if any, a string names. */
  function ParseJobType(s: string): (r: Option<JobType>)
    ensures r.Some? ==> r.value.Name() == s
  {
    if s == "Full-time" then Some(FullTime)
    else if s == "Part-time" then Some(PartTime)
    else if s == "Contract" then Some(Contract)
    else if s == "Internship" then Some(Internship)
    else if s == "Remote" then Some(Remote)
    else None
  }

  /** Every enum value is accepted under its own name, so the check is exact. */
  lemma ParseJobTypeName(t: JobType)
    ensures ParseJobType(t.Name()) == Some(t)
  {
  }

  /** Salary bounds are kept as the text the client sent; the currency is the
      client's, or 'USD' when the client sent none. */
  datatype SalaryRange = SalaryRange(min: Option<string>, max: Option<string>, currency: string)

  datatype Job = Job(
    title: string,
    description: string,
    companyName: string,
    postedBy: Id,
    totalApplications: int,
    applicants: seq<Id>,
    isActive: bool,
    requirements: Option<string>,
    location: Option<string>,
    salaryRange: SalaryRange,
    jobType: JobType,
    createdAt: Time)

  /** The `postedOn` virtual: the creation timestamp under another name. */
  function PostedOn(j: Job): Time {
    j.createdAt
  }

  /** The fields `createJob` copies from the request body; absent ones are None. */
  datatype JobInput = JobInput(
    title: Option<string>,
    description: Option<string>,
    companyName: Option<string>,
    requirements: Option<string>,
    location: Option<string>,
    jobType: Option<string>,
    salaryMin: Option<string>,
    salaryMax: Option<string>,
    currency: Option<string>)

  /** The `trim: true` setter: applied to every assigned string value. */
  function SetTrimmed(v: Option<string>): (r: Option<string>)
    ensures r.Some? <==> v.Some?
    ensures r.Some? ==> Text.IsTrimmed(r.value) && r.value == Text.Trim(v.value)
  {
    match v
    case None => None
    case Some(s) => Some(Text.Trim(s))
  }

  /** `required` for a string path: present and non-empty. */
  predicate Present(v: Option<string>) {
    v.Some? && |v.value| > 0
  }

  /** `maxlength`, which measures JavaScript `length` (UTF-16 code units): an
      absent value passes. */
  predicate WithinMax(v: Option<string>, max: nat) {
    v.None? || Text.Utf16Length(v.value) <= max
  }

  /** The error of a required, length-bounded text path, if any. */
  function RequiredTextError(path: string, v: Option<string>, max: nat, required: string, tooLong: string): (e: seq<FieldError>)
    ensures e == [] <==> Present(v) && WithinMax(v, max)
    ensures |e| <= 1
  {
    if !Present(v) then [FieldError(path, required)]
    else if !WithinMax(v, max) then [FieldError(path, tooLong)]
    else []
  }

  function OptionalTextError(path: string, v: Option<string>, max: nat, tooLong: string): (e: seq<FieldError>)
    ensures e == [] <==> WithinMax(v, max)
  {
    if !WithinMax(v, max) then [FieldError(path, tooLong)] else []
  }

  function EnumMessage(value: string, path: string): string {
    "`" + value + "` is not a valid enum value for path `" + path + "`."
  }

  /** The errors of the three required text paths, in schema order. */
  function RequiredJobPathErrors(title: Option<string>, description: Option<string>, companyName: Option<string>): (e: seq<FieldError>)
    ensures e == [] <==>
      && Present(title) && WithinMax(title, TITLE_MAX)
      && Present(description) && WithinMax(description, DESCRIPTION_MAX)
      && Present(companyName) && WithinMax(companyName, COMPANY_MAX)
  {
    RequiredTextError("title", title, TITLE_MAX, "Job title is required", "Job title cannot exceed 200 characters")
    + RequiredTextError("description", description, DESCRIPTION_MAX, "Job description is required", "Job description cannot exceed 2000 characters")
    + RequiredTextError("companyName", companyName, COMPANY_MAX, "Company name is required", "Company name cannot exceed 100 characters")
  }

  /** The errors of the optional paths and the enum, in schema order. */
  function OptionalJobPathErrors(requirements: Option<string>, location: Option<string>, jobType: Option<string>): (e: seq<FieldError>)
    ensures e == [] <==>
      && WithinMax(requirements, REQUIREMENTS_MAX) && WithinMax(location, LOCATION_MAX)
      && (jobType.None? || ParseJobType(jobType.value).Some?)
  {
    OptionalTextError("requirements", requirements, REQUIREMENTS_MAX, "Requirements cannot exceed 1000 characters")
    + OptionalTextError("location", location, LOCATION_MAX, "Location cannot exceed 100 characters")
    + (if jobType.None? || ParseJobType(jobType.value).Some? then []
       else [FieldError("jobType", EnumMessage(jobType.value, "jobType"))])
  }

  /** The validation errors of a Job whose text fields went through the setters, in
      schema order (one per path at most). */
  function JobErrors(title: Option<string>, description: Option<string>, companyName: Option<string>,
                     requirements: Option<string>, location: Option<string>, jobType: Option<string>): (e: seq<FieldError>)
    ensures e == [] <==>
      && Present(title) && WithinMax(title, TITLE_MAX)
      && Present(description) && WithinMax(description, DESCRIPTION_MAX)
      && Present(companyName) && WithinMax(companyName, COMPANY_MAX)
      && WithinMax(requirements, REQUIREMENTS_MAX) && WithinMax(location, LOCATION_MAX)
      && (jobType.None? || ParseJobType(jobType.value).Some?)
  {
    RequiredJobPathErrors(title, description, companyName) + OptionalJobPathErrors(requirements, location, jobType)
  }

  /** What the Job schema accepts, stated on the raw input: the three required
      texts are non-empty once trimmed, every text is within its bound in UTF-16
      code units once trimmed, and a given job type is one of the five. */
  predicate AcceptableJob(input: JobInput) {
    && input.title.Some? && 0 < |Text.Trim(input.title.value)|
    && Text.Utf16Length(Text.Trim(input.title.value)) <= TITLE_MAX
    && input.description.Some? && 0 < |Text.Trim(input.description.value)|
    && Text.Utf16Length(Text.Trim(input.description.value)) <= DESCRIPTION_MAX
    && input.companyName.Some? && 0 < |Text.Trim(input.companyName.value)|
    && Text.Utf16Length(Text.Trim(input.companyName.value)) <= COMPANY_MAX
    && (input.requirements.None? || Text.Utf16Length(Text.Trim(input.requirements.value)) <= REQUIREMENTS_MAX)
    && (input.location.None? || Text.Utf16Length(Text.Trim(input.location.value)) <= LOCATION_MAX)
    && (input.jobType.None? || ParseJobType(input.jobType.value).Some?)
  }

  lemma TrimmedWithin(v: Option<string>, max: nat)
    ensures WithinMax(SetTrimmed(v), max) <==> (v.None? || Text.Utf16Length(Text.Trim(v.value)) <= max)
    ensures Present(SetTrimmed(v)) <==> (v.Some? && 0 < |Text.Trim(v.value)|)
  {
  }

  lemma AcceptableJobIff(input: JobInput)
    ensures AcceptableJob(input) <==>
      && Present(SetTrimmed(input.title)) && WithinMax(SetTrimmed(input.title), TITLE_MAX)
      && Present(SetTrimmed(input.description)) && WithinMax(SetTrimmed(input.description), DESCRIPTION_MAX)
      && Present(SetTrimmed(input.companyName)) && WithinMax(SetTrimmed(input.companyName), COMPANY_MAX)
      && WithinMax(SetTrimmed(input.requirements), REQUIREMENTS_MAX)
      && WithinMax(SetTrimmed(input.location), LOCATION_MAX)
      && (input.jobType.None? || ParseJobType(input.jobType.value).Some?)
  {
    TrimmedWithin(input.title, TITLE_MAX);
    TrimmedWithin(input.description, DESCRIPTION_MAX);
    TrimmedWithin(input.companyName, COMPANY_MAX);
    TrimmedWithin(input.requirements, REQUIREMENTS_MAX);
    TrimmedWithin(input.location, LOCATION_MAX);
  }

  /** `new Job({...})` followed by `save()`'s validation: the setters trim the text,
      the defaults fill in the counters, flag, type and currency, and any failed
      rule rejects the whole document. */
  function NewJob(input: JobInput, postedBy: Id, now: Time): (r: Result<Job, seq<FieldError>>)
    ensures r.Ok? <==> AcceptableJob(input)
    ensures r.Err? ==> |r.error| > 0
    ensures r.Ok? ==>
      && Some(r.value.title) == SetTrimmed(input.title)
      && Some(r.value.description) == SetTrimmed(input.description)
      && Some(r.value.companyName) == SetTrimmed(input.companyName)
      && r.value.requirements == SetTrimmed(input.requirements)
      && r.value.location == SetTrimmed(input.location)
    ensures r.Ok? ==>
      && r.value.postedBy == postedBy
      && r.value.totalApplications == 0 && r.value.applicants == [] && r.value.isActive
      && (input.jobType.None? ==> r.value.jobType == DEFAULT_JOB_TYPE)
      && (input.jobType.Some? ==> r.value.jobType.Name() == input.jobType.value)
      && (input.currency.None? ==> r.value.salaryRange.currency == DEFAULT_CURRENCY)
      && (input.currency.Some? ==> r.value.salaryRange.currency == input.currency.value)
      && PostedOn(r.value) == now
  {
    var title := SetTrimmed(input.title);
    var description := SetTrimmed(input.description);
    var company := SetTrimmed(input.companyName);
    var requirements := SetTrimmed(input.requirements);
    var location := SetTrimmed(input.location);
    var errors := JobErrors(title, description, company, requirements, location, input.jobType);
    AcceptableJobIff(input);
    if errors != [] then Err(errors)
    else
      Ok(Job(title.value, description.value, company.value, postedBy, 0, [], true,
             requirements, location, SalaryRange(input.salaryMin, input.salaryMax, if input.currency.Some? then input.currency.value else DEFAULT_CURRENCY),
             if input.jobType.Some? then ParseJobType(input.jobType.value).value else DEFAULT_JOB_TYPE, now))
  }

  // -------------------------------------------------------- Application

  const NOTES_MAX := 500

  datatype Status = Applied | UnderReview | Shortlisted | Rejected | Selected {
    /** The enum string stored in the document. */
    function Name(): string {
      match this
      case Applied => "Applied"
      case UnderReview => "Under Review"
      case Shortlisted => "Shortlisted"
      case Rejected => "Rejected"
      case Selected => "Selected"
    }
  }

  datatype Application = Application(job: Id, applicant: Id, status: Status, appliedAt: Time, notes: Option<string>)

  /** The schema's rules on a stored Application: notes are trimmed and at most 500 long. */
  predicate ApplicationValid(a: Application) {
    a.notes.None? || (Text.IsTrimmed(a.notes.value) && Text.Utf16Length(a.notes.value) <= NOTES_MAX)
  }

  /** `new Application({job, applicant})`: status Applied, applied now, no notes. */
  function NewApplication(job: Id, applicant: Id, now: Time): (a: Application)
    ensures a.job == job && a.applicant == applicant
    ensures a.status == Applied && a.status.Name() == "Applied"
    ensures a.appliedAt == now
    ensures ApplicationValid(a)
  {
    Application(job, applicant, Applied, now, None)
  }

  /** Attaching notes to an application: trimmed by the setter, rejected above
      500 UTF-16 code units. */
  function WithNotes(a: Application, notes: string): (r: Result<Application, FieldError>)
    ensures r.Ok? <==> Text.Utf16Length(Text.Trim(notes)) <= NOTES_MAX
    ensures r.Ok? ==> ApplicationValid(r.value) && r.value == a.(notes := Some(Text.Trim(notes)))
  {
    var n := Text.Trim(notes);
    if Text.Utf16Length(n) <= NOTES_MAX then Ok(a.(notes := Some(n)))
    else Err(FieldError("notes", "Notes cannot exceed 500 characters"))
  }

  // ------------------------------------------------ Parser output, Profile

  /** A list-shaped parser field: absent (or falsy), an array, or a truthy
      non-array on which `.join`/`.map` would throw. */
  datatype Listing<+T> = Missing | Items(items: seq<T>) | Malformed

  datatype ExperienceEntry = ExperienceEntry(name: Option<string>, dates: Listing<string>)

  /** The fields of the parser's response that the merge reads; education entries
      are reduced to their `name`. */
  datatype ResumeData = ResumeData(
    name: Option<string>,
    email: Option<string>,
    phone: Option<string>,
    skills: Listing<string>,
    education: Listing<Option<string>>,
    experience: Listing<ExperienceEntry>)

  /** The `extractedData` blob: `{}` by default, else the parser's response verbatim. */
  datatype Extracted = EmptyObject | Parsed(data: ResumeData)

  datatype Profile = Profile(
    applicant: Id,
    resumeFileAddress: Option<string>,
    skills: Option<string>,
    education: Option<string>,
    experience: Option<string>,
    name: Option<string>,
    email: Option<string>,
    phone: Option<string>,
    extractedData: Extracted)

  /** The email setter: trimmed and lower-cased. */
  function SetEmail(v: Option<string>): (r: Option<string>)
    ensures r.Some? <==> v.Some?
    ensures r.Some? ==> Text.IsTrimmed(r.value) && Text.ToLower(r.value) == r.value
  {
    match v
    case None => None
    case Some(s) =>
      var t := Text.Trim(s);
      Text.ToLowerTrimmed(t);
      Some(Text.ToLower(t))
  }

  predicate TrimmedText(v: Option<string>) {
    v.None? || Text.IsTrimmed(v.value)
  }

  /** Every stored Profile went through the setters. */
  predicate ProfileNormal(p: Profile) {
    && TrimmedText(p.resumeFileAddress) && TrimmedText(p.skills) && TrimmedText(p.education)
    && TrimmedText(p.experience) && TrimmedText(p.name) && TrimmedText(p.phone)
    && (p.email.None? || (Text.IsTrimmed(p.email.value) && Text.ToLower(p.email.value) == p.email.value))
  }

  lemma SetTrimmedFixes(v: Option<string>)
    requires TrimmedText(v)
    ensures SetTrimmed(v) == v
  {
    if v.Some? { Text.TrimOfTrimmed(v.value); }
  }

  lemma SetEmailFixes(v: Option<string>)
    requires v.Some? ==> Text.IsTrimmed(v.value) && Text.ToLower(v.value) == v.value
    ensures SetEmail(v) == v
  {
    if v.Some? {
      var e := v.value;
      Text.TrimOfTrimmed(e);
      calc {
        SetEmail(v);
        Some(Text.ToLower(Text.Trim(e)));
        Some(Text.ToLower(e));
      }
    }
  }

  /** Re-assigning a field its own stored value changes nothing. */
  lemma SettersFixNormal(p: Profile)
    requires ProfileNormal(p)
    ensures SetTrimmed(p.name) == p.name && SetTrimmed(p.phone) == p.phone
    ensures SetEmail(p.email) == p.email
  {
    SetTrimmedFixes(p.name);
    SetTrimmedFixes(p.phone);
    SetEmailFixes(p.email);
  }

  /** `new Profile({applicant, name, email})`: the setters normalise the copied
      name and email, nothing else is set, and `extractedData` is `{}`. */
  function NewProfile(applicant: Id, name: string, email: string): (p: Profile)
    ensures p.applicant == applicant
    ensures p.name == Some(Text.Trim(name))
    ensures p.email == Some(Text.ToLower(Text.Trim(email)))
    ensures p.resumeFileAddress.None? && p.phone.None?
    ensures p.skills.None? && p.education.None? && p.experience.None?
    ensures p.extractedData == EmptyObject
    ensures ProfileNormal(p)
  {
    Profile(applicant, None, None, None, None, SetTrimmed(Some(name)), SetEmail(Some(email)), None, EmptyObject)
  }

  // --------------------------------------------------------------- User

  const ADMIN := "Admin"
  const APPLICANT := "Applicant"

  /** A stored user; `password` holds the hash, never the submitted secret. */
  datatype User = User(
    name: string,
    email: string,
    password: string,
    userType: string,
    profileHeadline: Option<string>,
    address: Option<string>,
    profile: Option<Id>,
    createdAt: Time)
}

=== FILE: pagination.dfy ===
/** The page arithmetic shared by the three listings (jobs for everyone, jobs of
    one admin, users): `skip`, `totalPages`, `hasNext`, `hasPrev`. */
module Pagination {

  /** A page number or page size as the model admits it: at least one. */
  type Positive = n: int | n >= 1 witness 1

  const DEFAULT_PAGE: Positive := 1
  const DEFAULT_LIMIT: Positive := 10

  datatype Page = Page(currentPage: int, totalPages: int, total: int, hasNext: bool, hasPrev: bool)

  /** `(page - 1) * limit`: how many matching documents precede the page. */
  function Skip(page: Positive, limit: Positive): nat
  {
    (page - 1) * limit
  }

  /** `Math.ceil(total / limit)`: the least number of pages of size `limit` that
      hold `total` documents. */
  function PageCount(total: nat, limit: Positive): (n: nat)
    ensures n * limit >= total
    ensures n == 0 || (n - 1) * limit < total
  {
    var n := (total + limit - 1) / limit;
    var rem := (total + limit - 1) % limit;
    assert total + limit - 1 == n * limit + rem;
    assert n >= 1 ==> (n - 1) * limit == n * limit - limit;
    n
  }

  /** The `pagination` object of a listing response. */
  function Paginate(page: Positive, limit: Positive, total: nat): (p: Page)
    ensures p.currentPage == page && p.total == total
    ensures p.totalPages * limit >= total && (p.totalPages == 0 || (p.totalPages - 1) * limit < total)
    ensures p.hasNext <==> page * limit < total
    ensures p.hasPrev <==> page > 1
  {
    Page(page, PageCount(total, limit), total, page * limit < total, page > 1)
  }

  lemma MulMonotone(a: int, b: int, c: int)
    requires a <= b && c >= 0
    ensures a * c <= b * c
  {
  }

  /** There is a next page exactly when the current one is not the last. */
  lemma HasNextIffNotLast(page: Positive, limit: Positive, total: nat)
    ensures Paginate(page, limit, total).hasNext <==> page < Paginate(page, limit, total).totalPages
  {
    var n := PageCount(total, limit);
    if page < n {
      MulMonotone(page, n - 1, limit);
    } else {
      MulMonotone(n, page, limit);
    }
  }

  /** A page past the last one starts at or beyond the end of the results, and
      every page up to the last starts inside them. */
  lemma SkipWithinResults(page: Positive, limit: Positive, total: nat)
    ensures Skip(page, limit) < total <==> page <= PageCount(total, limit)
  {
    var n := PageCount(total, limit);
    if page <= n {
      MulMonotone(page - 1, n - 1, limit);
    } else {
      MulMonotone(n, page - 1, limit);
    }
  }

  /** Consecutive pages tile the results: each starts where the previous ends. */
  lemma PagesTile(page: Positive, limit: Positive)
    ensures Skip(page + 1, limit) == Skip(page, limit) + limit
  {
  }
}

=== FILE: resume.dfy ===
/** The résumé upload handler: find or create the applicant's profile, record
    the stored file, merge whatever the parser returns, save, link the profile
    to the user, and on an unexpected failure delete the file and answer 500.
    The parser call is an oracle outcome; database faults and the success of
    the file deletion are parameters. */
module Resume {
  import opened Wrappers
  import opened Models
  import opened Store
  import opened Http
  import Guard
  import Filters
  import Upload
  import Text

  /** What `processResumeWithAPI` yields: the parser's data, nothing (a falsy
      response body), or a thrown error. */
  datatype ParserOutcome = Returned(data: ResumeData) | ReturnedNothing | Threw(message: string)

  /** The database calls of the handler that can throw, each with the message of
      its error if it does. */
  datatype Faults = Faults(find: Option<string>, save: Option<string>, link: Option<string>)

  const NO_FILE := "No file uploaded"
  const STORED := "Resume uploaded and processed successfully"

  /** `a || b` on optional text. */
  function Or(a: Option<string>, b: Option<string>): (r: Option<string>)
    ensures Filters.Truthy(a) ==> r == a
    ensures !Filters.Truthy(a) ==> r == b
  {
    if Filters.Truthy(a) then a else b
  }

  /** `skills ? skills.join(', ') : ''`; None when `.join` would throw. */
  function SkillsText(l: Listing<string>): (r: Option<string>)
    ensures r.None? <==> l.Malformed?
    ensures l.Missing? ==> r == Some("")
  {
    match l
    case Missing => Some("")
    case Items(xs) => Some(Text.Join(xs, ", "))
    case Malformed => None
  }

  /** `edu.name` as `join` renders it: an absent name becomes "". */
  function NameText(n: Option<string>): string {
    if n.Some? then n.value else ""
  }

  /** `education ? education.map(edu => edu.name).join(', ') : ''`. */
  function EducationText(l: Listing<Option<string>>): (r: Option<string>)
    ensures r.None? <==> l.Malformed?
    ensures l.Missing? ==> r == Some("")
  {
    match l
    case Missing => Some("")
    case Items(es) => Some(Text.Join(seq(|es|, i requires 0 <= i < |es| => NameText(es[i])), ", "))
    case Malformed => None
  }

  /** An absent name interpolates as "undefined". */
  function Interpolated(n: Option<string>): string {
    if n.Some? then n.value else "undefined"
  }

  /** One experience entry: `name (d1 - d2 - ...)`, or `name (N/A)` without dates. */
  function ExperienceLine(e: ExperienceEntry): (line: string)
    requires !e.dates.Malformed?
  {
    Interpolated(e.name) + " (" + (if e.dates.Items? then Text.Join(e.dates.items, " - ") else "N/A") + ")"
  }

  predicate LinesRenderable(es: seq<ExperienceEntry>) {
    forall i :: 0 <= i < |es| ==> !es[i].dates.Malformed?
  }

  /** `experience ? experience.map(...).join(', ') : ''`; None when an entry's
      dates are truthy but not a list, or the list itself is not one. */
  function ExperienceText(l: Listing<ExperienceEntry>): (r: Option<string>)
    ensures r.None? <==> l.Malformed? || (l.Items? && !LinesRenderable(l.items))
    ensures l.Missing? ==> r == Some("")
  {
    match l
    case Missing => Some("")
    case Malformed => None
    case Items(es) =>
      if LinesRenderable(es) then Some(Text.Join(seq(|es|, i requires 0 <= i < |es| => ExperienceLine(es[i])), ", "))
      else None
  }

  /** How an entry renders, in the two shapes the handler produces. */
  lemma ExperienceLineShapes(name: string, dates: seq<string>)
    ensures ExperienceLine(ExperienceEntry(Some(name), Missing)) == name + " (N/A)"
    ensures |dates| == 2 ==>
      ExperienceLine(ExperienceEntry(Some(name), Items(dates))) == name + " (" + dates[0] + " - " + dates[1] + ")"
    ensures ExperienceLine(ExperienceEntry(None, Missing)) == "undefined (N/A)"
  {
    if |dates| == 2 {
      assert Text.Join(dates[1..], " - ") == dates[1];
      var x := Text.Join(dates, " - ");
      assert x == dates[0] + " - " + dates[1];
      assert name + " (" + x + ")" == name + " (" + dates[0] + " - " + dates[1] + ")";
    }
  }

  /** The merge of a parser result into a profile, stage by stage as the handler
      assigns: name, email and phone first, then skills, education and
      experience from their rendered texts, then the raw data. A stage whose
      text could not be rendered (its `.join` or `.map` throws) ends the merge,
      leaving the earlier assignments in place; the error is swallowed. */
  function MergeStages(p: Profile, d: ResumeData, skills: Option<string>, education: Option<string>,
                       experience: Option<string>): (q: Profile)
    ensures q.applicant == p.applicant && q.resumeFileAddress == p.resumeFileAddress
    ensures q.name == SetTrimmed(Or(d.name, p.name))
    ensures q.email == SetEmail(Or(d.email, p.email))
    ensures q.phone == SetTrimmed(Or(d.phone, p.phone))
    ensures q.skills == (if skills.Some? then SetTrimmed(skills) else p.skills)
    ensures q.education == (if skills.Some? && education.Some? then SetTrimmed(education) else p.education)
    ensures skills.Some? && education.Some? && experience.Some? ==>
      q.experience == SetTrimmed(experience) && q.extractedData == Parsed(d)
    ensures skills.None? || education.None? || experience.None? ==>
      q.experience == p.experience && q.extractedData == p.extractedData
  {
    var p1 := p.(name := SetTrimmed(Or(d.name, p.name)), email := SetEmail(Or(d.email, p.email)),
                 phone := SetTrimmed(Or(d.phone, p.phone)));
    if skills.None? then p1
    else
      var p2 := p1.(skills := SetTrimmed(skills));
      if education.None? then p2
      else
        var p3 := p2.(education := SetTrimmed(education));
        if experience.None? then p3
        else p3.(experience := SetTrimmed(experience), extractedData := Parsed(d))
  }

  function MergeParsed(p: Profile, d: ResumeData): Profile {
    MergeStages(p, d, SkillsText(d.skills), EducationText(d.education), ExperienceText(d.experience))
  }

  /** The merge assigns through the setters, so a normalised profile stays normalised. */
  lemma MergeKeepsNormal(p: Profile, d: ResumeData, skills: Option<string>, education: Option<string>,
                         experience: Option<string>)
    requires ProfileNormal(p)
    ensures ProfileNormal(MergeStages(p, d, skills, education, experience))
  {
  }

  /** A parser value overwrites name, email or phone only when it is truthy: an
      empty or absent value leaves the stored one as it was. */
  lemma TruthyOverwrite(p: Profile, d: ResumeData)
    requires ProfileNormal(p)
    ensures Filters.Truthy(d.name) ==> MergeParsed(p, d).name == Some(Text.Trim(d.name.value))
    ensures !Filters.Truthy(d.name) ==> MergeParsed(p, d).name == p.name
    ensures !Filters.Truthy(d.email) ==> MergeParsed(p, d).email == p.email
    ensures !Filters.Truthy(d.phone) ==> MergeParsed(p, d).phone == p.phone
  {
    SettersFixNormal(p);
  }

  /** A result whose lists are all lists (or absent) is merged completely: the
      lists become their ", "-joined text and the raw data is kept verbatim. */
  lemma CompleteMerge(p: Profile, d: ResumeData)
    requires !d.skills.Malformed? && !d.education.Malformed? && !d.experience.Malformed?
    requires d.experience.Items? ==> LinesRenderable(d.experience.items)
    ensures var q := MergeParsed(p, d);
      && q.skills == SetTrimmed(SkillsText(d.skills))
      && q.education == SetTrimmed(EducationText(d.education))
      && q.experience == SetTrimmed(ExperienceText(d.experience))
      && q.extractedData == Parsed(d)
  {
  }

  /** A list the parser left out still overwrites: the field becomes "". */
  lemma MissingListClears(p: Profile, d: ResumeData)
    requires d.skills.Missing?
    ensures MergeParsed(p, d).skills == Some("")
  {
    Text.TrimOfTrimmed("");
  }

  /** A list that is truthy but not a list stops the merge there: name, email
      and phone are already merged, nothing after them is. */
  lemma MalformedSkillsStopMerge(p: Profile, d: ResumeData)
    requires d.skills.Malformed?
    ensures var q := MergeParsed(p, d);
      && q.skills == p.skills && q.education == p.education && q.experience == p.experience
      && q.extractedData == p.extractedData
  {
  }

  /** The parser's outcome applied to the staged profile: only a returned result
      changes it. */
  function ApplyParse(p: Profile, outcome: ParserOutcome): (q: Profile)
    ensures !outcome.Returned? ==> q == p
    ensures outcome.Returned? ==> q == MergeParsed(p, outcome.data)
  {
    if outcome.Returned? then MergeParsed(p, outcome.data) else p
  }

  /** The profile the handler starts from: the applicant's oldest one, or a new
      one holding the user's name and email; either way with the file recorded. */
  function Staged(s: Store, me: Guard.Identity, path: string): (p: Profile)
    ensures p.resumeFileAddress == Some(Text.Trim(path))
    ensures ProfileOf(s, me.id).Some? ==> p == s.profiles[ProfileOf(s, me.id).value].(resumeFileAddress := Some(Text.Trim(path)))
    ensures ProfileOf(s, me.id).None? ==> p == NewProfile(me.id, me.name, me.email).(resumeFileAddress := Some(Text.Trim(path)))
  {
    var existing := ProfileOf(s, me.id);
    var base := if existing.Some? then s.profiles[existing.value] else NewProfile(me.id, me.name, me.email);
    base.(resumeFileAddress := SetTrimmed(Some(path)))
  }

  /** `profile.save()`: an update of the found profile, or an insert of the new one. */
  function SaveProfile(s: Store, existing: Option<Id>, p: Profile): (r: (Store, Id))
    requires Wf(s)
    requires existing.Some? ==> existing.value in s.profiles
    ensures existing.Some? ==> r.1 == existing.value && r.0 == s.(profiles := s.profiles[r.1 := p])
    ensures existing.None? ==> r.1 == s.nextId && r.1 !in s.profiles && r.0 == InsertProfile(s, p).0
    ensures r.0.users == s.users && r.0.jobs == s.jobs && r.0.applications == s.applications && r.0.files == s.files
    ensures r.1 in r.0.profiles && r.0.profiles[r.1] == p
  {
    if existing.Some? then (s.(profiles := s.profiles[existing.value := p]), existing.value)
    else InsertProfile(s, p)
  }

  lemma SaveProfileWf(s: Store, existing: Option<Id>, p: Profile)
    requires Wf(s)
    requires existing.Some? ==> existing.value in s.profiles
    ensures Wf(SaveProfile(s, existing, p).0)
  {
    var (s', id) := SaveProfile(s, existing, p);
    forall k | k in s'.profiles ensures k < s'.nextId {
      assert k in s.profiles || k == id;
    }
  }

  /** `User.findByIdAndUpdate(userId, { profile })`: a missing user is no error. */
  function LinkUser(s: Store, uid: Id, pid: Id): (s': Store)
    ensures uid in s.users ==> s'.users == s.users[uid := s.users[uid].(profile := Some(pid))]
    ensures uid !in s.users ==> s' == s
    ensures s'.profiles == s.profiles && s'.jobs == s.jobs && s'.applications == s.applications
    ensures s'.files == s.files && s'.nextId == s.nextId
  {
    if uid in s.users then s.(users := s.users[uid := s.users[uid].(profile := Some(pid))]) else s
  }

  /** The catch block's `fs.unlinkSync`: the file is gone if the call succeeds. */
  function Cleanup(s: Store, path: string, unlinkOk: bool): (s': Store)
    ensures unlinkOk ==> s' == s.(files := s.files - {path})
    ensures !unlinkOk ==> s' == s
  {
    if unlinkOk then s.(files := s.files - {path}) else s
  }

  /** The handler from `profile.save()` on, given the merged profile and the
      profile it was found as (if any). */
  function Persist(s: Store, me: Guard.Identity, path: string, existing: Option<Id>, merged: Profile,
                   faults: Faults, unlinkOk: bool): (r: (Store, Response))
    requires Wf(s)
    requires existing.Some? ==> existing.value in s.profiles
    ensures r.1.status == 200 || (faults.save.Some? && r.1 == InternalError(faults.save.value))
      || (faults.link.Some? && r.1 == InternalError(faults.link.value))
    ensures r.1.status == 200 <==> faults.save.None? && (me.profile.None? ==> faults.link.None?)
    ensures r.1.status != 200 ==> r.0.files == (if unlinkOk then s.files - {path} else s.files)
    ensures r.1.status == 200 ==>
      && r.1.body.Success? && r.1.body.data.ResumeStored?
      && var pid := r.1.body.data.stored.id;
      && r.1.body == Success(Some(STORED), ResumeStored(ViewProfile(pid, merged)))
      && (existing.Some? ==> pid == existing.value) && (existing.None? ==> pid == s.nextId)
      && r.0.profiles == s.profiles[pid := merged]
      && r.0.files == s.files && r.0.jobs == s.jobs && r.0.applications == s.applications
      && (me.profile.Some? ==> r.0.users == s.users)
      && (me.profile.None? ==> r.0 == LinkUser(SaveProfile(s, existing, merged).0, me.id, pid))
    ensures faults.save.None? ==> r.0.profiles == SaveProfile(s, existing, merged).0.profiles
  {
    if faults.save.Some? then (Cleanup(s, path, unlinkOk), InternalError(faults.save.value))
    else
      var (s1, pid) := SaveProfile(s, existing, merged);
      if me.profile.None? && faults.link.Some? then (Cleanup(s1, path, unlinkOk), InternalError(faults.link.value))
      else
        var s2 := if me.profile.None? then LinkUser(s1, me.id, pid) else s1;
        (s2, Response(200, Success(Some(STORED), ResumeStored(ViewProfile(pid, merged)))))
  }

  /** The deletion's outcome is invisible in the response. */
  lemma PersistUnlinkInvisible(s: Store, me: Guard.Identity, path: string, existing: Option<Id>, merged: Profile, faults: Faults)
    requires Wf(s)
    requires existing.Some? ==> existing.value in s.profiles
    ensures Persist(s, me, path, existing, merged, faults, true).1 == Persist(s, me, path, existing, merged, faults, false).1
  {
  }

  lemma PersistKeepsWf(s: Store, me: Guard.Identity, path: string, existing: Option<Id>, merged: Profile,
                       faults: Faults, unlinkOk: bool)
    requires Wf(s)
    requires existing.Some? ==> existing.value in s.profiles
    ensures Wf(Persist(s, me, path, existing, merged, faults, unlinkOk).0)
  {
    SaveProfileWf(s, existing, merged);
    var s1 := SaveProfile(s, existing, merged).0;
    var r := Persist(s, me, path, existing, merged, faults, unlinkOk);
    forall k | k in r.0.users ensures k < r.0.nextId {
      assert k in s1.users;
    }
  }

  /** `uploadResume`, after the upload middleware stored `file` (if any). */
  function UploadResume(s: Store, me: Guard.Identity, file: Option<Upload.StoredFile>, parse: ParserOutcome,
                        faults: Faults, unlinkOk: bool): (r: (Store, Response))
    requires Wf(s)
    ensures file.None? ==> r == (s, Fail(400, NO_FILE))
    ensures file.Some? && faults.find.Some? ==>
      r == (Cleanup(s, file.value.path, unlinkOk), InternalError(faults.find.value))
    ensures file.Some? && faults.find.None? ==>
      r == Persist(s, me, file.value.path, ProfileOf(s, me.id), ApplyParse(Staged(s, me, file.value.path), parse), faults, unlinkOk)
  {
    if file.None? then (s, Fail(400, NO_FILE))
    else if faults.find.Some? then (Cleanup(s, file.value.path, unlinkOk), InternalError(faults.find.value))
    else Persist(s, me, file.value.path, ProfileOf(s, me.id), ApplyParse(Staged(s, me, file.value.path), parse), faults, unlinkOk)
  }

  /** Every failure after the file check answers 500 and attempts to delete the
      file; success leaves the files alone. */
  lemma FailuresClean(s: Store, me: Guard.Identity, file: Upload.StoredFile, parse: ParserOutcome,
                      faults: Faults, unlinkOk: bool)
    requires Wf(s)
    ensures var (s', resp) := UploadResume(s, me, Some(file), parse, faults, unlinkOk);
      && (resp.status == 200 || (resp.status == 500 && resp.body.Failure? && resp.body.message == "Internal server error"))
      && (resp.status == 500 ==> s'.files == (if unlinkOk then s.files - {file.path} else s.files))
      && (resp.status == 200 ==> s'.files == s.files)
  {
    if faults.find.None? {
      var merged := ApplyParse(Staged(s, me, file.path), parse);
      var _ := Persist(s, me, file.path, ProfileOf(s, me.id), merged, faults, unlinkOk);
    }
  }

  predicate NoFaults(f: Faults) {
    f.find.None? && f.save.None? && f.link.None?
  }

  /** Whether the file deletion succeeds never changes the response. */
  lemma UnlinkInvisible(s: Store, me: Guard.Identity, file: Option<Upload.StoredFile>, parse: ParserOutcome, faults: Faults)
    requires Wf(s)
    ensures UploadResume(s, me, file, parse, faults, true).1 == UploadResume(s, me, file, parse, faults, false).1
  {
    if file.Some? && faults.find.None? {
      var merged := ApplyParse(Staged(s, me, file.value.path), parse);
      PersistUnlinkInvisible(s, me, file.value.path, ProfileOf(s, me.id), merged, faults);
    }
  }

  /** Without database faults the upload succeeds whatever the parser did, and
      the saved profile records the file; a parser that fails or returns nothing
      leaves every parsed field as it was. */
  lemma ParserCannotFailUpload(s: Store, me: Guard.Identity, file: Upload.StoredFile, parse: ParserOutcome, unlinkOk: bool)
    requires Wf(s)
    ensures var (s', resp) := UploadResume(s, me, Some(file), parse, Faults(None, None, None), unlinkOk);
      && resp.status == 200 && resp.body.Success? && resp.body.data.ResumeStored?
      && resp.body.data.stored.id in s'.profiles
      && s'.profiles[resp.body.data.stored.id].resumeFileAddress == Some(Text.Trim(file.path))
      && (!parse.Returned? ==> s'.profiles[resp.body.data.stored.id] == Staged(s, me, file.path))
  {
    var staged := Staged(s, me, file.path);
    var merged := ApplyParse(staged, parse);
    assert merged.resumeFileAddress == staged.resumeFileAddress;
    var _ := Persist(s, me, file.path, ProfileOf(s, me.id), merged, Faults(None, None, None), unlinkOk);
  }

  /** An applicant without a profile gets a new one, stored under the next id,
      belonging to them and holding their name unless the parser supplied a
      truthy one. */
  lemma CreatesMissingProfile(s: Store, me: Guard.Identity, file: Upload.StoredFile, parse: ParserOutcome, unlinkOk: bool)
    requires Wf(s) && ProfileOf(s, me.id).None?
    ensures var (s', resp) := UploadResume(s, me, Some(file), parse, Faults(None, None, None), unlinkOk);
      && s.nextId !in s.profiles && s'.profiles == s.profiles[s.nextId := ApplyParse(Staged(s, me, file.path), parse)]
      && s'.profiles[s.nextId].applicant == me.id
      && (!parse.Returned? || !Filters.Truthy(parse.data.name) ==> s'.profiles[s.nextId].name == Some(Text.Trim(me.name)))
  {
    var staged := Staged(s, me, file.path);
    var merged := ApplyParse(staged, parse);
    var _ := Persist(s, me, file.path, None, merged, Faults(None, None, None), unlinkOk);
    assert merged.applicant == me.id;
    if !parse.Returned? || !Filters.Truthy(parse.data.name) {
      assert staged.name == Some(Text.Trim(me.name));
      if parse.Returned? {
        Text.TrimIdempotent(me.name);
      }
    }
  }

  /** The user is linked to the saved profile only when the request's user had
      no profile reference; otherwise the users are left alone. */
  lemma LinksOnlyUnlinked(s: Store, me: Guard.Identity, file: Upload.StoredFile, parse: ParserOutcome, unlinkOk: bool)
    requires Wf(s) && me.id in s.users
    ensures var (s', resp) := UploadResume(s, me, Some(file), parse, Faults(None, None, None), unlinkOk);
      && resp.body.Success? && resp.body.data.ResumeStored?
      && (me.profile.Some? ==> s'.users == s.users)
      && (me.profile.None? ==> me.id in s'.users && s'.users[me.id].profile == Some(resp.body.data.stored.id))
  {
    var merged := ApplyParse(Staged(s, me, file.path), parse);
    var _ := Persist(s, me, file.path, ProfileOf(s, me.id), merged, Faults(None, None, None), unlinkOk);
  }

  /** A failure after the profile was saved (the link) still leaves that profile
      saved: the store keeps it while the file it names is deleted. */
  lemma LinkFailureKeepsProfile(s: Store, me: Guard.Identity, file: Upload.StoredFile, parse: ParserOutcome, message: string)
    requires Wf(s) && me.profile.None? && ProfileOf(s, me.id).None?
    ensures var (s', resp) := UploadResume(s, me, Some(file), parse, Faults(None, None, Some(message)), true);
      && resp == InternalError(message)
      && s.nextId in s'.profiles && s'.profiles[s.nextId].resumeFileAddress == Some(Text.Trim(file.path))
      && file.path !in s'.files
  {
    var staged := Staged(s, me, file.path);
    var merged := ApplyParse(staged, parse);
    assert merged.resumeFileAddress == staged.resumeFileAddress;
    var _ := Persist(s, me, file.path, None, merged, Faults(None, None, Some(message)), true);
  }

  /** The handler keeps the store well formed. */
  lemma UploadKeepsWf(s: Store, me: Guard.Identity, file: Option<Upload.StoredFile>, parse: ParserOutcome,
                      faults: Faults, unlinkOk: bool)
    requires Wf(s)
    ensures Wf(UploadResume(s, me, file, parse, faults, unlinkOk).0)
  {
    if file.Some? && faults.find.None? {
      var merged := ApplyParse(Staged(s, me, file.value.path), parse);
      PersistKeepsWf(s, me, file.value.path, ProfileOf(s, me.id), merged, faults, unlinkOk);
    }
  }
}

=== FILE: routes.dfy ===
/** The guarded routes: each handler runs only after `authenticateToken` and
    the role check its router puts in front of it. The composition is what makes
    "only admins post jobs" and "only applicants apply" hold of the store. */
module Routes {
  import opened Wrappers
  import opened Models
  import opened Store
  import opened Http
  import Guard
  import Validation
  import Jobs
  import Admin
  import Filters
  import Pagination
  import Upload
  import Errors
  import Resume

  /** Which of the three role checks a route uses. */
  datatype Role = AdminOnly | ApplicantOnly | AnyUser

  function RoleCheck(role: Role, me: Guard.Identity): Option<Response> {
    match role
    case AdminOnly => Guard.RequireAdmin(me)
    case ApplicantOnly => Guard.RequireApplicant(me)
    case AnyUser => Guard.RequireUser(me)
  }

  predicate Permits(role: Role, userType: string) {
    match role
    case AdminOnly => userType == ADMIN
    case ApplicantOnly => userType == APPLICANT
    case AnyUser => userType == ADMIN || userType == APPLICANT
  }

  /** `authenticateToken` then the role check: the caller's identity, or the
      response that stops the request. */
  function Admit(s: Store, header: Option<string>, verify: string -> Guard.VerifyOutcome, role: Role): (r: Result<Guard.Identity, Response>)
    ensures Guard.Authenticate(s, header, verify).Err? ==> r == Guard.Authenticate(s, header, verify)
    ensures r.Ok? <==> Guard.Authenticate(s, header, verify).Ok? && Permits(role, Guard.Authenticate(s, header, verify).value.userType)
    ensures r.Ok? ==> r == Guard.Authenticate(s, header, verify) && r.value.id in s.users
                      && Permits(role, s.users[r.value.id].userType)
    ensures r.Err? && Guard.Authenticate(s, header, verify).Ok? ==> r.error.status == 403
  {
    match Guard.Authenticate(s, header, verify)
    case Err(resp) => Err(resp)
    case Ok(me) =>
      match RoleCheck(role, me)
      case Some(resp) => Err(resp)
      case None => Ok(me)
  }

  // ------------------------------------------------------ POST /admin/job

  /** `createJob` behind `validateJobCreation`, given what the validator made
      of the body: a refused body is answered with the validator's response and
      changes nothing. */
  function CreateIfValid(s: Store, me: Guard.Identity, checked: Result<JobInput, Response>, now: Time,
                         fault: Option<string>): (r: (Store, Response))
    requires Wf(s)
    ensures checked.Err? ==> r == (s, checked.error)
    ensures checked.Ok? ==> r == Jobs.CreateJob(s, me, checked.value, now, fault)
  {
    match checked
    case Err(resp) => (s, resp)
    case Ok(input) => Jobs.CreateJob(s, me, input, now, fault)
  }

  /** `POST /admin/job`: `authenticateToken, requireAdmin, validateJobCreation, createJob`. */
  function PostJob(s: Store, header: Option<string>, verify: string -> Guard.VerifyOutcome,
                   body: Validation.RawJob, now: Time, fault: Option<string>): (r: (Store, Response))
    requires Wf(s)
    ensures Admit(s, header, verify, AdminOnly).Err? ==> r == (s, Admit(s, header, verify, AdminOnly).error)
    ensures Admit(s, header, verify, AdminOnly).Ok? ==>
      r == CreateIfValid(s, Admit(s, header, verify, AdminOnly).value, Validation.CheckJob(body), now, fault)
  {
    match Admit(s, header, verify, AdminOnly)
    case Err(resp) => (s, resp)
    case Ok(me) => CreateIfValid(s, me, Validation.CheckJob(body), now, fault)
  }

  /** Every job was posted by a user who is an admin. */
  predicate JobsPostedByAdmins(s: Store) {
    forall k :: k in s.jobs ==> s.jobs[k].postedBy in s.users && s.users[s.jobs[k].postedBy].userType == ADMIN
  }

  /** A job created on behalf of an admin keeps every job owned by an admin. */
  lemma CreateKeepsOwnership(s: Store, me: Guard.Identity, input: JobInput, now: Time, fault: Option<string>)
    requires Wf(s) && JobsPostedByAdmins(s)
    requires me.id in s.users && s.users[me.id].userType == ADMIN
    ensures JobsPostedByAdmins(Jobs.CreateJob(s, me, input, now, fault).0)
  {
    var r := Jobs.CreateJob(s, me, input, now, fault);
    if r.1.status == 201 {
      var j := NewJob(input, me.id, now).value;
      assert j.postedBy == me.id;
      assert r.0.jobs == s.jobs[s.nextId := j] && r.0.users == s.users;
      forall k | k in r.0.jobs
        ensures r.0.jobs[k].postedBy in r.0.users && r.0.users[r.0.jobs[k].postedBy].userType == ADMIN
      {
        if k == s.nextId { assert r.0.jobs[k] == j; } else { assert r.0.jobs[k] == s.jobs[k]; }
      }
    } else {
      assert r.0 == s;
    }
  }

  /** Posting a job through its route keeps every job owned by an admin. */
  lemma PostJobKeepsOwnership(s: Store, header: Option<string>, verify: string -> Guard.VerifyOutcome,
                              body: Validation.RawJob, now: Time, fault: Option<string>)
    requires Wf(s) && JobsPostedByAdmins(s)
    ensures JobsPostedByAdmins(PostJob(s, header, verify, body, now, fault).0)
  {
    var a := Admit(s, header, verify, AdminOnly);
    if a.Ok? && Validation.CheckJob(body).Ok? {
      CreateKeepsOwnership(s, a.value, Validation.CheckJob(body).value, now, fault);
    }
  }

  /** Without a database fault, an admin's valid body is saved exactly when its
      sanitized texts also fit the schema's bounds in UTF-16 code units; a body
      the validator passed but the schema refuses ends in the catch-all 500. */
  lemma ValidBodyPosts(s: Store, header: Option<string>, verify: string -> Guard.VerifyOutcome,
                       body: Validation.RawJob, now: Time)
    requires Wf(s) && Admit(s, header, verify, AdminOnly).Ok? && Validation.CheckJob(body).Ok?
    ensures PostJob(s, header, verify, body, now, None).1.status == 201 <==>
      Validation.FitsSchema(Validation.CheckJob(body).value)
    ensures !Validation.FitsSchema(Validation.CheckJob(body).value) ==>
      PostJob(s, header, verify, body, now, None).1.status == 500
  {
    Validation.ValidatedJobSaves(body, Admit(s, header, verify, AdminOnly).value.id, now);
  }

  // --------------------------------------------------------- GET /apply

  /** `authenticateToken, requireApplicant, applyForJob`. */
  function Apply(s: Store, header: Option<string>, verify: string -> Guard.VerifyOutcome,
                 jobId: Option<string>, castId: string -> Option<Id>, now: Time, faults: Jobs.ApplyFaults): (r: (Store, Response))
    requires Wf(s)
    ensures Admit(s, header, verify, ApplicantOnly).Err? ==> r == (s, Admit(s, header, verify, ApplicantOnly).error)
    ensures Admit(s, header, verify, ApplicantOnly).Ok? ==>
      r == Jobs.ApplyForJob(s, Admit(s, header, verify, ApplicantOnly).value, jobId, castId, now, faults)
  {
    match Admit(s, header, verify, ApplicantOnly)
    case Err(resp) => (s, resp)
    case Ok(me) => Jobs.ApplyForJob(s, me, jobId, castId, now, faults)
  }

  /** Every application was made by a user who is an applicant. */
  predicate ApplicationsByApplicants(s: Store) {
    forall k :: k in s.applications ==>
      s.applications[k].applicant in s.users && s.users[s.applications[k].applicant].userType == APPLICANT
  }

  /** Applying through the route only ever adds applications of applicants: an
      admin's request is refused with 403 before the handler runs. */
  lemma ApplyKeepsApplicants(s: Store, header: Option<string>, verify: string -> Guard.VerifyOutcome,
                             jobId: Option<string>, castId: string -> Option<Id>, now: Time, faults: Jobs.ApplyFaults)
    requires Wf(s) && ApplicationsByApplicants(s)
    ensures ApplicationsByApplicants(Apply(s, header, verify, jobId, castId, now, faults).0)
  {
    var a := Admit(s, header, verify, ApplicantOnly);
    if a.Ok? {
      var me := a.value;
      var s' := Apply(s, header, verify, jobId, castId, now, faults).0;
      forall k | k in s'.applications
        ensures s'.applications[k].applicant in s'.users && s'.users[s'.applications[k].applicant].userType == APPLICANT
      {
        if k !in s.applications { assert s'.applications[k].applicant == me.id; }
      }
    }
  }

  /** An admin who calls the apply route gets 403 and changes nothing. */
  lemma AdminsCannotApply(s: Store, header: Option<string>, verify: string -> Guard.VerifyOutcome,
                          jobId: Option<string>, castId: string -> Option<Id>, now: Time, faults: Jobs.ApplyFaults)
    requires Wf(s) && Guard.Authenticate(s, header, verify).Ok?
    requires Guard.Authenticate(s, header, verify).value.userType == ADMIN
    ensures Apply(s, header, verify, jobId, castId, now, faults) ==
      (s, Fail(403, "Access denied. Applicant privileges required."))
  {
  }

  // --------------------------------------------------- the admin routes

  /** `GET /admin/applicant/:applicant_id` behind `authenticateToken, requireAdmin`. */
  function ApplicantDetails(s: Store, header: Option<string>, verify: string -> Guard.VerifyOutcome,
                            applicantId: string, castId: string -> Option<Id>): (r: Response)
    ensures Admit(s, header, verify, AdminOnly).Err? ==> r == Admit(s, header, verify, AdminOnly).error
    ensures Admit(s, header, verify, AdminOnly).Ok? ==> r == Admin.GetApplicantDetails(s, applicantId, castId)
  {
    match Admit(s, header, verify, AdminOnly)
    case Err(resp) => resp
    case Ok(_) => Admin.GetApplicantDetails(s, applicantId, castId)
  }

  /** Another user's data is shown only to an authenticated admin. */
  lemma DetailsOnlyForAdmins(s: Store, header: Option<string>, verify: string -> Guard.VerifyOutcome,
                             applicantId: string, castId: string -> Option<Id>)
    ensures ApplicantDetails(s, header, verify, applicantId, castId).status == 200 ==>
      && Guard.Authenticate(s, header, verify).Ok?
      && Guard.Authenticate(s, header, verify).value.userType == ADMIN
      && castId(applicantId).Some? && castId(applicantId).value in s.users
  {
  }

  /** `GET /jobs` of the admin router: the caller's own jobs. */
  function AdminJobs(s: Store, header: Option<string>, verify: string -> Guard.VerifyOutcome,
                     page: Pagination.Positive, limit: Pagination.Positive, status: Option<string>,
                     rx: Filters.Matcher): (r: Response)
    ensures Admit(s, header, verify, AdminOnly).Err? ==> r == Admit(s, header, verify, AdminOnly).error
    ensures Admit(s, header, verify, AdminOnly).Ok? ==>
      r == Admin.GetAdminJobs(s, Admit(s, header, verify, AdminOnly).value, page, limit, status, rx)
  {
    match Admit(s, header, verify, AdminOnly)
    case Err(resp) => resp
    case Ok(me) => Admin.GetAdminJobs(s, me, page, limit, status, rx)
  }

  /** The count an admin sees is that of the jobs posted under the id their
      token decodes to. */
  lemma AdminJobsAreTheirs(s: Store, header: Option<string>, verify: string -> Guard.VerifyOutcome,
                           page: Pagination.Positive, limit: Pagination.Positive, rx: Filters.Matcher)
    requires Admit(s, header, verify, AdminOnly).Ok?
    ensures var me := Admit(s, header, verify, AdminOnly).value;
      && verify(Guard.BearerToken(header).value) == Guard.Decoded(me.id)
      && AdminJobs(s, header, verify, page, limit, None, rx).body.data.pagination.total == |Admin.PostedBy(s, me.id)|
  {
    var me := Admit(s, header, verify, AdminOnly).value;
    Admin.AdminJobsSelected(s, me.id, None, rx);
    assert Jobs.JobsMatching(s, Filters.AdminJobsFilter(me.id, None), rx) == Admin.PostedBy(s, me.id);
  }

  // ------------------------------------------------ the other job routes

  /** `GET /admin/job/:job_id` behind `authenticateToken, requireAdmin`. */
  function JobDetails(s: Store, header: Option<string>, verify: string -> Guard.VerifyOutcome,
                      jobId: string, castId: string -> Option<Id>): (r: Response)
    ensures Admit(s, header, verify, AdminOnly).Err? ==> r == Admit(s, header, verify, AdminOnly).error
    ensures Admit(s, header, verify, AdminOnly).Ok? ==> r == Jobs.GetJobDetails(s, jobId, castId)
  {
    match Admit(s, header, verify, AdminOnly)
    case Err(resp) => resp
    case Ok(_) => Jobs.GetJobDetails(s, jobId, castId)
  }

  /** An applicant never sees who applied to a job. */
  lemma ApplicantsCannotSeeApplications(s: Store, header: Option<string>, verify: string -> Guard.VerifyOutcome,
                                        jobId: string, castId: string -> Option<Id>)
    requires Guard.Authenticate(s, header, verify).Ok?
    requires Guard.Authenticate(s, header, verify).value.userType == APPLICANT
    ensures JobDetails(s, header, verify, jobId, castId) == Fail(403, "Access denied. Admin privileges required.")
  {
  }

  /** `GET /` of the job router behind `authenticateToken, requireUser`. */
  function JobListing(s: Store, header: Option<string>, verify: string -> Guard.VerifyOutcome,
                      page: Pagination.Positive, limit: Pagination.Positive,
                      search: Option<string>, location: Option<string>, jobType: Option<string>,
                      rx: Filters.Matcher): (r: Response)
    ensures Admit(s, header, verify, AnyUser).Err? ==> r == Admit(s, header, verify, AnyUser).error
    ensures Admit(s, header, verify, AnyUser).Ok? ==> r == Jobs.GetAllJobs(s, page, limit, search, location, jobType, rx)
  {
    match Admit(s, header, verify, AnyUser)
    case Err(resp) => resp
    case Ok(_) => Jobs.GetAllJobs(s, page, limit, search, location, jobType, rx)
  }

  /** Every authenticated admin or applicant gets the listing. */
  lemma ListingForEveryRole(s: Store, header: Option<string>, verify: string -> Guard.VerifyOutcome,
                            page: Pagination.Positive, limit: Pagination.Positive,
                            search: Option<string>, location: Option<string>, jobType: Option<string>,
                            rx: Filters.Matcher)
    requires Guard.Authenticate(s, header, verify).Ok?
    requires Guard.Authenticate(s, header, verify).value.userType in {ADMIN, APPLICANT}
    ensures JobListing(s, header, verify, page, limit, search, location, jobType, rx).status == 200
  {
  }

  // ---------------------------------------------- POST /uploadResume

  /** `authenticateToken, requireApplicant, upload.single('resume'),
      handleUploadError, uploadResume`. A stored file is on disk when the
      handler starts; an upload error the middleware passes on reaches the
      global error handler. */
  function UploadRoute(s: Store, header: Option<string>, verify: string -> Guard.VerifyOutcome,
                       parts: seq<Upload.Incoming>, now: nat, draw: nat,
                       parse: Resume.ParserOutcome, faults: Resume.Faults, unlinkOk: bool,
                       stack: string, development: bool): (r: (Store, Response))
    requires Wf(s)
    ensures Admit(s, header, verify, ApplicantOnly).Err? ==> r == (s, Admit(s, header, verify, ApplicantOnly).error)
    ensures Admit(s, header, verify, ApplicantOnly).Ok? && Upload.Receive(parts, now, draw).Err? ==>
      var e := Upload.Receive(parts, now, draw).error;
      && r.0 == s
      && (Upload.HandleUploadError(e).Some? ==> r.1 == Upload.HandleUploadError(e).value)
      && (Upload.HandleUploadError(e).None? ==> r.1 == Errors.HandleError(Errors.FromUpload(e, stack), development))
    ensures Admit(s, header, verify, ApplicantOnly).Ok? && Upload.Receive(parts, now, draw).Ok? ==>
      var file := Upload.Receive(parts, now, draw).value;
      var s1 := if file.Some? then s.(files := s.files + {file.value.path}) else s;
      r == Resume.UploadResume(s1, Admit(s, header, verify, ApplicantOnly).value, file, parse, faults, unlinkOk)
  {
    match Admit(s, header, verify, ApplicantOnly)
    case Err(resp) => (s, resp)
    case Ok(me) =>
      match Upload.Receive(parts, now, draw)
      case Err(e) =>
        (match Upload.HandleUploadError(e)
         case Some(resp) => (s, resp)
         case None => (s, Errors.HandleError(Errors.FromUpload(e, stack), development)))
      case Ok(file) =>
        var s1 := if file.Some? then s.(files := s.files + {file.value.path}) else s;
        Resume.UploadResume(s1, me, file, parse, faults, unlinkOk)
  }

  /** The stored file outlives the request only when the upload answered 200, or
      when deleting it failed. */
  lemma NoOrphanFile(s: Store, header: Option<string>, verify: string -> Guard.VerifyOutcome,
                     p: Upload.Incoming, now: nat, draw: nat,
                     parse: Resume.ParserOutcome, faults: Resume.Faults, unlinkOk: bool,
                     stack: string, development: bool)
    requires Wf(s) && Admit(s, header, verify, ApplicantOnly).Ok?
    requires Upload.Receive([p], now, draw).Ok?
    requires Upload.Receive([p], now, draw).value.value.path !in s.files
    ensures var (s', resp) := UploadRoute(s, header, verify, [p], now, draw, parse, faults, unlinkOk, stack, development);
      var path := Upload.Receive([p], now, draw).value.value.path;
      && (resp.status == 200 ==> path in s'.files)
      && (resp.status != 200 && unlinkOk ==> path !in s'.files)
  {
    var file := Upload.Receive([p], now, draw).value.value;
    var s1 := s.(files := s.files + {file.path});
    Resume.FailuresClean(s1, Admit(s, header, verify, ApplicantOnly).value, file, parse, faults, unlinkOk);
  }
}

=== FILE: store.dfy ===
/** The document store the handlers read and write: one map per collection,
    the uploaded files on disk, and the id generator. */
module Store {
  import opened Wrappers
  import opened Models

  datatype Store = Store(
    users: map<Id, User>,
    jobs: map<Id, Job>,
    applications: map<Id, Application>,
    profiles: map<Id, Profile>,
    files: set<string>,
    nextId: Id)

  /** Ids are handed out in increasing order from one generator, and every
      application refers to a job that exists (jobs are never deleted). */
  predicate Wf(s: Store) {
    && (forall k :: k in s.users ==> k < s.nextId)
    && (forall k :: k in s.jobs ==> k < s.nextId)
    && (forall k :: k in s.applications ==> k < s.nextId)
    && (forall k :: k in s.profiles ==> k < s.nextId)
    && (forall a :: a in s.applications ==> s.applications[a].job in s.jobs)
  }

  /** The first key in [from, to) whose document satisfies `p`: a collection
      scan in insertion order, as an unsorted `findOne` performs it. */
  function FindFirst<T>(m: map<Id, T>, p: T -> bool, from: nat, to: nat): (r: Option<Id>)
    ensures r.Some? ==> from <= r.value < to && r.value in m && p(m[r.value])
    ensures r.Some? ==> forall k :: from <= k < r.value && k in m ==> !p(m[k])
    ensures r.None? ==> forall k :: from <= k < to && k in m ==> !p(m[k])
    decreases (to as int) - (from as int)
  {
    if from >= to then None
    else if from in m && p(m[from]) then Some(from)
    else FindFirst(m, p, from + 1, to)
  }

  /** `findOne` over a whole collection whose keys are all below `bound`. */
  function FindOne<T>(m: map<Id, T>, p: T -> bool, bound: nat): (r: Option<Id>)
    ensures r.Some? ==> r.value in m && p(m[r.value])
    ensures r.Some? ==> forall k :: k < r.value && k in m ==> !p(m[k])
    ensures r.None? && (forall k :: k in m ==> k < bound) ==> forall k :: k in m ==> !p(m[k])
  {
    FindFirst(m, p, 0, bound)
  }

  /** `User.findOne({ email })`. */
  function UserByEmail(s: Store, email: string): (r: Option<Id>)
    ensures r.Some? ==> r.value in s.users && s.users[r.value].email == email
    ensures Wf(s) && r.None? ==> forall k :: k in s.users ==> s.users[k].email != email
  {
    FindOne(s.users, (u: User) => u.email == email, s.nextId)
  }

  /** `Profile.findOne({ applicant })`: the oldest profile of the applicant. */
  function ProfileOf(s: Store, applicant: Id): (r: Option<Id>)
    ensures r.Some? ==> r.value in s.profiles && s.profiles[r.value].applicant == applicant
    ensures r.Some? ==> forall k :: k < r.value && k in s.profiles ==> s.profiles[k].applicant != applicant
    ensures Wf(s) && r.None? ==> forall k :: k in s.profiles ==> s.profiles[k].applicant != applicant
  {
    FindOne(s.profiles, (p: Profile) => p.applicant == applicant, s.nextId)
  }

  /** `Application.findOne({ job, applicant })`. */
  function ApplicationFor(s: Store, job: Id, applicant: Id): (r: Option<Id>)
    ensures r.Some? ==> r.value in s.applications
    ensures r.Some? ==> s.applications[r.value].job == job && s.applications[r.value].applicant == applicant
    ensures Wf(s) && r.None? ==> forall k :: k in s.applications ==>
      !(s.applications[k].job == job && s.applications[k].applicant == applicant)
  {
    FindOne(s.applications, (a: Application) => a.job == job && a.applicant == applicant, s.nextId)
  }

  /** The storage-level failure of an insert: a unique-index violation (E11000)
      naming the indexed keys. */
  datatype DbError = DuplicateKey(keys: seq<string>)

  /** Inserting an Application under the unique index on (job, applicant): the
      document gets the next id unless an application for the same pair exists. */
  function InsertApplication(s: Store, a: Application): (r: Result<(Store, Id), DbError>)
    requires Wf(s)
    ensures r.Err? <==> exists k :: k in s.applications && s.applications[k].job == a.job && s.applications[k].applicant == a.applicant
    ensures r.Ok? ==> var (s', id) := r.value;
      && id == s.nextId && id !in s.applications
      && s' == s.(applications := s.applications[id := a], nextId := s.nextId + 1)
  {
    if ApplicationFor(s, a.job, a.applicant).Some? then Err(DuplicateKey(["job", "applicant"]))
    else Ok((s.(applications := s.applications[s.nextId := a], nextId := s.nextId + 1), s.nextId))
  }

  /** Inserting a Profile: its applicant index is not unique, so nothing is checked. */
  function InsertProfile(s: Store, p: Profile): (r: (Store, Id))
    requires Wf(s)
    ensures r.1 == s.nextId && r.1 !in s.profiles
    ensures r.0 == s.(profiles := s.profiles[r.1 := p], nextId := s.nextId + 1)
  {
    (s.(profiles := s.profiles[s.nextId := p], nextId := s.nextId + 1), s.nextId)
  }

  /** The storage does not keep one profile per applicant: a second profile for an
      applicant who already has one is stored all the same. */
  lemma ProfilesNotUnique(s: Store, p: Profile)
    requires Wf(s)
    requires ProfileOf(s, p.applicant).Some?
    ensures var (s', id) := InsertProfile(s, p);
      && ProfileOf(s, p.applicant).value in s'.profiles && id in s'.profiles
      && ProfileOf(s, p.applicant).value != id
      && s'.profiles[id].applicant == s'.profiles[ProfileOf(s, p.applicant).value].applicant
  {
  }

  /** The unique index refuses a second application for the same pair. */
  lemma ApplicationsUnique(s: Store, a: Application, b: Application)
    requires Wf(s) && a.job in s.jobs
    requires InsertApplication(s, a).Ok?
    requires b.job == a.job && b.applicant == a.applicant
    ensures Wf(InsertApplication(s, a).value.0)
    ensures InsertApplication(InsertApplication(s, a).value.0, b).Err?
  {
    var (s', id) := InsertApplication(s, a).value;
    assert id in s'.applications && s'.applications[id] == a;
  }
}

=== FILE: text.dfy ===
/** The JavaScript string operations the handlers rely on: `trim`, ASCII
    `toLowerCase`, `Array.prototype.join`, `String.prototype.split` with a
    one-character separator, and Node's `path.extname`. */
module Text {

  /** The characters `String.prototype.trim` removes: the white space and line
      terminator code points of sections 12.2 and 12.3 of ECMA-262. */
  predicate IsSpace(c: char) {
    || c == ' ' || c == '\t' || c == '\n' || c == '\r' || c == '\U{B}' || c == '\U{C}'
    || c == '\U{A0}' || c == '\U{1680}' || ('\U{2000}' <= c <= '\U{200A}')
    || c == '\U{2028}' || c == '\U{2029}' || c == '\U{202F}' || c == '\U{205F}'
    || c == '\U{3000}' || c == '\U{FEFF}'
  }

  predicate AllSpace(s: string) {
    forall i :: 0 <= i < |s| ==> IsSpace(s[i])
  }

  /** Neither end of `s` is white space. */
  predicate IsTrimmed(s: string) {
    |s| == 0 || (!IsSpace(s[0]) && !IsSpace(s[|s| - 1]))
  }

  /** Drops the leading white space: what is cut is all white space, and what is
      kept starts with something else. */
  function TrimStart(s: string): (r: string)
    ensures |r| <= |s| && r == s[|s| - |r|..]
    ensures AllSpace(s[..|s| - |r|])
    ensures |r| == 0 || !IsSpace(r[0])
  {
    if |s| > 0 && IsSpace(s[0]) then TrimStart(s[1..]) else s
  }

  /** Drops the trailing white space. */
  function TrimEnd(s: string): (r: string)
    ensures |r| <= |s| && r == s[..|r|]
    ensures AllSpace(s[|r|..])
    ensures |r| == 0 || !IsSpace(r[|r| - 1])
  {
    if |s| > 0 && IsSpace(s[|s| - 1]) then TrimEnd(s[..|s| - 1]) else s
  }

  /** `String.prototype.trim`. */
  function Trim(s: string): (r: string)
    ensures IsTrimmed(r)
    ensures |r| <= |s|
  {
    var t := TrimStart(s);
    var r := TrimEnd(t);
    assert |r| > 0 ==> r[0] == t[0];
    r
  }

  lemma {:induction false} TrimStartSkips(a: string, rest: string)
    requires AllSpace(a)
    requires |rest| == 0 || !IsSpace(rest[0])
    ensures TrimStart(a + rest) == rest
    decreases |a|
  {
    if |a| == 0 {
      assert a + rest == rest;
    } else {
      assert (a + rest)[1..] == a[1..] + rest;
      TrimStartSkips(a[1..], rest);
    }
  }

  lemma {:induction false} TrimEndSkips(r: string, b: string)
    requires AllSpace(b)
    requires |r| == 0 || !IsSpace(r[|r| - 1])
    ensures TrimEnd(r + b) == r
    decreases |b|
  {
    if |b| == 0 {
      assert r + b == r;
    } else {
      var last := |b| - 1;
      assert (r + b)[..|r + b| - 1] == r + b[..last];
      TrimEndSkips(r, b[..last]);
    }
  }

  /** Trim is characterised by what it keeps: whenever `s` is some white space, a
      trimmed core and more white space, trimming gives back exactly that core. */
  lemma TrimUnique(a: string, core: string, b: string)
    requires AllSpace(a) && AllSpace(b) && IsTrimmed(core)
    ensures Trim(a + core + b) == core
  {
    if |core| == 0 {
      assert a + core + b == (a + b) + "";
      assert AllSpace(a + b);
      TrimStartSkips(a + b, "");
      assert TrimStart(a + core + b) == "";
      TrimEndSkips("", "");
    } else {
      assert a + core + b == a + (core + b);
      TrimStartSkips(a, core + b);
      TrimEndSkips(core, b);
    }
  }

  /** Trimming twice is trimming once. */
  lemma TrimIdempotent(s: string)
    ensures Trim(Trim(s)) == Trim(s)
  {
    var r := Trim(s);
    assert "" + r + "" == r;
    TrimUnique("", r, "");
  }

  /** A trimmed string is its own trim. */
  lemma TrimOfTrimmed(s: string)
    requires IsTrimmed(s)
    ensures Trim(s) == s
  {
    assert "" + s + "" == s;
    TrimUnique("", s, "");
  }

  /** `toLowerCase` on the ASCII letters; every other character is kept. */
  function LowerChar(c: char): char {
    if 'A' <= c <= 'Z' then (c as int + 32) as char else c
  }

  function ToLower(s: string): (r: string)
    ensures |r| == |s|
    ensures forall i :: 0 <= i < |s| ==> r[i] == LowerChar(s[i])
  {
    seq(|s|, i requires 0 <= i < |s| => LowerChar(s[i]))
  }

  lemma LowerKeepsSpace(c: char)
    ensures IsSpace(LowerChar(c)) == IsSpace(c)
    ensures LowerChar(LowerChar(c)) == LowerChar(c)
  {
  }

  /** Lower-casing keeps a trimmed string trimmed and is idempotent. */
  lemma ToLowerTrimmed(t: string)
    requires IsTrimmed(t)
    ensures IsTrimmed(ToLower(t))
    ensures ToLower(ToLower(t)) == ToLower(t)
  {
    if |t| > 0 {
      LowerKeepsSpace(t[0]);
      LowerKeepsSpace(t[|t| - 1]);
    }
    forall i | 0 <= i < |t|
      ensures ToLower(ToLower(t))[i] == ToLower(t)[i]
    {
      LowerKeepsSpace(t[i]);
    }
  }

  /** `Array.prototype.join`: the parts with `sep` between consecutive ones. */
  function Join(parts: seq<string>, sep: string): string
  {
    if |parts| == 0 then ""
    else if |parts| == 1 then parts[0]
    else parts[0] + sep + Join(parts[1..], sep)
  }

  /** `String.prototype.split` with the one-character separator `c`: the maximal
      runs of non-`c` characters, including empty ones. */
  function Split(s: string, c: char): (r: seq<string>)
    ensures |r| >= 1
    ensures forall i :: 0 <= i < |r| ==> c !in r[i]
  {
    if |s| == 0 then [""]
    else
      var rest := Split(s[1..], c);
      if s[0] == c then [""] + rest
      else [[s[0]] + rest[0]] + rest[1..]
  }

  /** Splitting loses nothing: joining the fields with the separator rebuilds the input. */
  lemma {:induction false} SplitThenJoin(s: string, c: char)
    ensures Join(Split(s, c), [c]) == s
    decreases |s|
  {
    if |s| > 0 {
      var rest := Split(s[1..], c);
      SplitThenJoin(s[1..], c);
      if s[0] == c {
        assert Split(s, c) == [""] + rest;
        assert ([""] + rest)[1..] == rest;
      } else {
        var parts := [[s[0]] + rest[0]] + rest[1..];
        assert Split(s, c) == parts;
        if |rest| == 1 {
          assert Join(rest, [c]) == rest[0];
        } else {
          assert parts[1..] == rest[1..];
          assert Join(rest, [c]) == rest[0] + [c] + Join(rest[1..], [c]);
        }
      }
    }
  }

  lemma {:induction false} SplitWithoutSeparator(w: string, c: char)
    requires c !in w
    ensures Split(w, c) == [w]
    decreases |w|
  {
    if |w| > 0 {
      SplitWithoutSeparator(w[1..], c);
      assert [w[0]] + w[1..] == w;
    }
  }

  lemma {:induction false} SplitAfterField(w: string, t: string, c: char)
    requires c !in w
    ensures Split(w + [c] + t, c) == [w] + Split(t, c)
    decreases |w|
  {
    var s := w + [c] + t;
    if |w| == 0 {
      assert s[1..] == t;
    } else {
      assert s[1..] == w[1..] + [c] + t;
      SplitAfterField(w[1..], t, c);
      assert [w[0]] + w[1..] == w;
    }
  }

  /** Joining separator-free fields and splitting again gives the fields back. */
  lemma {:induction false} JoinThenSplit(parts: seq<string>, c: char)
    requires |parts| >= 1
    requires forall i :: 0 <= i < |parts| ==> c !in parts[i]
    ensures Split(Join(parts, [c]), c) == parts
    decreases |parts|
  {
    if |parts| == 1 {
      SplitWithoutSeparator(parts[0], c);
    } else {
      JoinThenSplit(parts[1..], c);
      SplitAfterField(parts[0], Join(parts[1..], [c]), c);
      assert [parts[0]] + parts[1..] == parts;
    }
  }

  /** Index of the last `c` in `s`, or -1 when there is none. */
  function LastIndexOf(s: string, c: char): (r: int)
    ensures -1 <= r < |s|
    ensures r >= 0 ==> s[r] == c
    ensures forall i :: r < i < |s| ==> s[i] != c
  {
    if |s| == 0 then -1
    else if s[|s| - 1] == c then |s| - 1
    else LastIndexOf(s[..|s| - 1], c)
  }

  lemma {:induction false} LastIndexAfter(x: string, c: char, y: string)
    requires c !in y
    ensures LastIndexOf(x + [c] + y, c) == |x|
    decreases |y|
  {
    var s := x + [c] + y;
    if |y| > 0 {
      assert s[..|s| - 1] == x + [c] + y[..|y| - 1];
      assert s[|s| - 1] == y[|y| - 1];
      LastIndexAfter(x, c, y[..|y| - 1]);
    }
  }

  function StripTrailingSlashes(p: string): (q: string)
    ensures |q| <= |p| && q == p[..|q|]
    ensures |q| == 0 || q[|q| - 1] != '/'
  {
    if |p| > 0 && p[|p| - 1] == '/' then StripTrailingSlashes(p[..|p| - 1]) else p
  }

  /** The last path component, trailing separators ignored. */
  function Basename(path: string): (b: string)
    ensures '/' !in b
  {
    var q := StripTrailingSlashes(path);
    q[LastIndexOf(q, '/') + 1..]
  }

  /** Node's `path.extname` (POSIX): from the last '.' of the last component to its
      end, or "" when that component has no '.', starts with its only '.', or is "..". */
  function Extname(path: string): (r: string)
    ensures r == "" || (r[0] == '.' && '.' !in r[1..] && '/' !in r)
  {
    var b := Basename(path);
    var d := LastIndexOf(b, '.');
    if d <= 0 || b == ".." then "" else b[d..]
  }

  /** A name made of a stem and a '.'-led suffix has exactly that suffix as its
      extension, provided the stem is a non-empty single component. */
  lemma ExtnameOfStem(stem: string, suffix: string)
    requires |stem| > 0 && '/' !in stem
    requires |suffix| > 0 && suffix[0] == '.' && '.' !in suffix[1..] && '/' !in suffix
    requires stem + suffix != ".."
    ensures Extname(stem + suffix) == suffix
  {
    var p := stem + suffix;
    assert p[|p| - 1] == suffix[|suffix| - 1];
    assert StripTrailingSlashes(p) == p;
    assert '/' !in p;
    assert Basename(p) == p[0..] == p;
    assert p == stem + ['.'] + suffix[1..];
    LastIndexAfter(stem, '.', suffix[1..]);
    assert p[|stem|..] == suffix;
  }

  lemma ExtnameWithoutDot(name: string)
    requires '.' !in name
    ensures Extname(name) == ""
  {
    var q := StripTrailingSlashes(name);
    var b := Basename(name);
    assert b == q[LastIndexOf(q, '/') + 1..];
    assert forall i :: 0 <= i < |b| ==> b[i] in name;
  }

  // ---------------------------------------------------------------- lengths

  /** A character JavaScript stores as a surrogate pair: one beyond U+FFFF. */
  predicate IsAstral(c: char) {
    c as int > 0xFFFF
  }

  /** The variation selectors U+FE0E and U+FE0F. */
  predicate IsVariationSelector(c: char) {
    c == '\U{FE0E}' || c == '\U{FE0F}'
  }

  /** `length` of a JavaScript string, the measure Mongoose's `maxlength` uses:
      UTF-16 code units, two for an astral character. */
  function Utf16Length(s: string): (n: nat)
    ensures |s| <= n <= 2 * |s|
  {
    if s == [] then 0 else (if IsAstral(s[0]) then 2 else 1) + Utf16Length(s[1..])
  }

  /** The measure of validator.js `isLength`: `length` less one per surrogate
      pair and one per variation selector, that is the characters that are not
      variation selectors. */
  function ValidatorLength(s: string): (n: nat)
    ensures n <= |s|
  {
    if s == [] then 0 else (if IsVariationSelector(s[0]) then 0 else 1) + ValidatorLength(s[1..])
  }

  /** Code units and characters agree exactly on text without astral characters. */
  lemma {:induction false} Utf16LengthExact(s: string)
    ensures Utf16Length(s) == |s| <==> forall i :: 0 <= i < |s| ==> !IsAstral(s[i])
  {
    if s != [] {
      Utf16LengthExact(s[1..]);
      if forall i :: 0 <= i < |s| ==> !IsAstral(s[i]) {
        assert forall i :: 0 <= i < |s[1..]| ==> !IsAstral(s[1..][i]) by {
          forall i | 0 <= i < |s[1..]| ensures !IsAstral(s[1..][i]) { assert s[1..][i] == s[i + 1]; }
        }
      } else if !IsAstral(s[0]) {
        var i :| 0 <= i < |s| && IsAstral(s[i]);
        assert s[1..][i - 1] == s[i];
      }
    }
  }

  /** `isLength` counts every character exactly when there is no variation selector. */
  lemma {:induction false} ValidatorLengthExact(s: string)
    ensures ValidatorLength(s) == |s| <==> forall i :: 0 <= i < |s| ==> !IsVariationSelector(s[i])
  {
    if s != [] {
      ValidatorLengthExact(s[1..]);
      if forall i :: 0 <= i < |s| ==> !IsVariationSelector(s[i]) {
        assert forall i :: 0 <= i < |s[1..]| ==> !IsVariationSelector(s[1..][i]) by {
          forall i | 0 <= i < |s[1..]| ensures !IsVariationSelector(s[1..][i]) { assert s[1..][i] == s[i + 1]; }
        }
      } else if !IsVariationSelector(s[0]) {
        var i :| 0 <= i < |s| && IsVariationSelector(s[i]);
        assert s[1..][i - 1] == s[i];
      }
    }
  }

  /** Both measures add up over a concatenation. */
  lemma {:induction false} LengthsAppend(a: string, b: string)
    ensures Utf16Length(a + b) == Utf16Length(a) + Utf16Length(b)
    ensures ValidatorLength(a + b) == ValidatorLength(a) + ValidatorLength(b)
  {
    if a == [] {
      assert a + b == b;
    } else {
      assert (a + b)[1..] == a[1..] + b;
      LengthsAppend(a[1..], b);
    }
  }
}

/** Decimal numerals, as JavaScript renders a safe non-negative integer. */
module Numerals {

  predicate IsDigit(c: char) {
    '0' <= c <= '9'
  }

  predicate AllDigits(s: string) {
    forall i :: 0 <= i < |s| ==> IsDigit(s[i])
  }

  function DigitChar(d: nat): (c: char)
    requires d < 10
    ensures IsDigit(c)
  {
    ('0' as int + d) as char
  }

  function DigitValue(c: char): (d: nat)
    requires IsDigit(c)
    ensures d < 10 && DigitChar(d) == c
  {
    c as int - '0' as int
  }

  /** The shortest decimal numeral of `n`: digits only, no leading zero. */
  function Decimal(n: nat): (r: string)
    ensures |r| >= 1 && AllDigits(r)
    ensures n > 0 ==> r[0] != '0'
    ensures n == 0 ==> r == "0"
  {
    if n < 10 then [DigitChar(n)] else Decimal(n / 10) + [DigitChar(n % 10)]
  }

  function ParseDecimal(s: string): nat
    requires |s| >= 1 && AllDigits(s)
  {
    if |s| == 1 then DigitValue(s[0])
    else 10 * ParseDecimal(s[..|s| - 1]) + DigitValue(s[|s| - 1])
  }

  /** Rendering a number and reading it back gives the number. */
  lemma {:induction false} DecimalRoundTrip(n: nat)
    ensures ParseDecimal(Decimal(n)) == n
  {
    if n >= 10 {
      var r := Decimal(n);
      DecimalRoundTrip(n / 10);
      assert r[..|r| - 1] == Decimal(n / 10);
    }
  }

  /** The length of the longest all-digit prefix. */
  function DigitPrefix(s: string): (k: nat)
    ensures k <= |s| && AllDigits(s[..k])
    ensures k == |s| || !IsDigit(s[k])
  {
    if |s| > 0 && IsDigit(s[0]) then
      var k := 1 + DigitPrefix(s[1..]);
      assert s[..k] == [s[0]] + s[1..][..k - 1];
      k
    else 0
  }

  lemma {:induction false} DigitPrefixOf(d: string, t: string)
    requires AllDigits(d)
    requires |t| == 0 || !IsDigit(t[0])
    ensures DigitPrefix(d + t) == |d|
    decreases |d|
  {
    if |d| == 0 {
      assert d + t == t;
    } else {
      assert (d + t)[1..] == d[1..] + t;
      DigitPrefixOf(d[1..], t);
    }
  }
}

=== FILE: upload.dfy ===
/** The résumé upload middleware: the type filter, the stored file name, the
    limits, and the translation of upload errors into responses. The multipart
    parser itself is reduced to the order in which it applies these checks;
    `Date.now()` and `Math.round(Math.random() * 1E9)` are parameters. */
module Upload {
  import opened Wrappers
  import opened Http
  import Text
  import Numerals

  /** `fileSize: 5 * 1024 * 1024`. */
  const MAX_FILE_SIZE: nat := 5 * 1024 * 1024
  /** `files: 1`. */
  const MAX_FILES: nat := 1
  /** The form field `upload.single` reads. */
  const FIELD := "resume"
  const UPLOADS_DIR := "uploads/resumes"

  const ALLOWED_MIMES: seq<string> := [
    "application/pdf",
    "application/vnd.openxmlformats-officedocument.wordprocessingml.document",
    "application/msword"]

  const ALLOWED_EXTENSIONS: seq<string> := [".pdf", ".docx", ".doc"]

  /** The message of the error the filter raises, and the one the client sees. */
  const FILTER_MESSAGE := "Only PDF and DOCX files are allowed"
  const FILTER_REPLY := "Only PDF and DOCX files are allowed."
  const SIZE_REPLY := "File size too large. Maximum size is 5MB."
  const COUNT_REPLY := "Too many files. Only one file is allowed."

  /** An error reaching `handleUploadError`: a multer error with its code, or any
      other error with only a message. */
  datatype UploadError =
    | MulterError(code: string, message: string)
    | PlainError(message: string)

  /** `fileFilter`: the declared MIME type is in the list OR the lower-cased
      extension of the client's file name is; either alone is enough. */
  function FileFilter(mime: string, originalName: string): (r: Result<(), UploadError>)
    ensures r.Err? ==> r.error == PlainError(FILTER_MESSAGE)
  {
    if mime in ALLOWED_MIMES || Text.ToLower(Text.Extname(originalName)) in ALLOWED_EXTENSIONS then Ok(())
    else Err(PlainError(FILTER_MESSAGE))
  }

  /** A listed MIME type is accepted whatever the name says. */
  lemma MimeAloneSuffices(mime: string, originalName: string)
    requires mime in ALLOWED_MIMES
    ensures FileFilter(mime, originalName).Ok?
  {
  }

  /** A name ending in ".PDF" is accepted whatever the declared type: the
      extension is compared lower-cased. */
  lemma UpperCaseExtensionAccepted(mime: string, stem: string)
    requires |stem| > 0 && '/' !in stem
    ensures FileFilter(mime, stem + ".PDF").Ok?
  {
    Text.ExtnameOfStem(stem, ".PDF");
    var l := Text.ToLower(".PDF");
    assert l[0] == '.' && l[1] == 'p' && l[2] == 'd' && l[3] == 'f';
    assert l == ALLOWED_EXTENSIONS[0];
  }

  /** A name without any '.' has no extension, so it passes only on its MIME type. */
  lemma NoExtensionNeedsMime(mime: string, originalName: string)
    requires '.' !in originalName
    ensures FileFilter(mime, originalName).Ok? <==> mime in ALLOWED_MIMES
  {
    Text.ExtnameWithoutDot(originalName);
    assert Text.ToLower("") == "";
  }

  /** The name a stored résumé gets: `resume-<now>-<draw><extension>`, where the
      extension is the client's, case and all. */
  function StoredName(now: nat, draw: nat, originalName: string): (name: string)
    ensures |name| > 7 && name[..7] == "resume-"
  {
    "resume-" + Numerals.Decimal(now) + "-" + Numerals.Decimal(draw) + Text.Extname(originalName)
  }

  /** A leading decimal numeral and what follows it. */
  function SplitNumber(s: string): (r: Option<(nat, string)>)
    ensures r.Some? ==> |r.value.1| < |s|
  {
    var k := Numerals.DigitPrefix(s);
    if k == 0 then None else Some((Numerals.ParseDecimal(s[..k]), s[k..]))
  }

  lemma SplitNumberOf(d: string, t: string)
    requires |d| > 0 && Numerals.AllDigits(d)
    requires t == "" || !Numerals.IsDigit(t[0])
    ensures SplitNumber(d + t) == Some((Numerals.ParseDecimal(d), t))
  {
    Numerals.DigitPrefixOf(d, t);
    assert (d + t)[..|d|] == d;
    assert (d + t)[|d|..] == t;
  }

  /** Reading the parts back out of a stored name. */
  function ParseStoredName(name: string): (r: Option<(nat, nat, string)>)
    ensures r.Some? ==> |name| >= 7 && name[..7] == "resume-"
  {
    if |name| < 7 || name[..7] != "resume-" then None
    else match SplitNumber(name[7..])
      case None => None
      case Some((stamp, rest)) =>
        if |rest| == 0 || rest[0] != '-' then None
        else match SplitNumber(rest[1..])
          case None => None
          case Some((draw, ext)) => Some((stamp, draw, ext))
  }

  /** A name of the stored shape parses into its two numerals and its tail. */
  lemma ParseStoredParts(d1: string, d2: string, ext: string)
    requires |d1| > 0 && Numerals.AllDigits(d1) && |d2| > 0 && Numerals.AllDigits(d2)
    requires ext == "" || ext[0] == '.'
    ensures ParseStoredName("resume-" + (d1 + ("-" + (d2 + ext)))) ==
      Some((Numerals.ParseDecimal(d1), Numerals.ParseDecimal(d2), ext))
  {
    var rest := "-" + (d2 + ext);
    var name := "resume-" + (d1 + rest);
    assert name[..7] == "resume-";
    assert name[7..] == d1 + rest;
    SplitNumberOf(d1, rest);
    assert rest[1..] == d2 + ext;
    SplitNumberOf(d2, ext);
  }

  /** The stored name determines the timestamp, the random draw and the
      extension it was made from. */
  lemma StoredNameRoundTrip(now: nat, draw: nat, originalName: string)
    ensures ParseStoredName(StoredName(now, draw, originalName)) == Some((now, draw, Text.Extname(originalName)))
  {
    var d1 := Numerals.Decimal(now);
    var d2 := Numerals.Decimal(draw);
    var ext := Text.Extname(originalName);
    assert StoredName(now, draw, originalName) == "resume-" + (d1 + ("-" + (d2 + ext)));
    ParseStoredParts(d1, d2, ext);
    Numerals.DecimalRoundTrip(now);
    Numerals.DecimalRoundTrip(draw);
  }

  /** The stored file keeps the extension of the client's file, unchanged. */
  lemma StoredNameKeepsExtension(now: nat, draw: nat, originalName: string)
    ensures Text.Extname(StoredName(now, draw, originalName)) == Text.Extname(originalName)
  {
    var d1 := Numerals.Decimal(now);
    var d2 := Numerals.Decimal(draw);
    var ext := Text.Extname(originalName);
    var stem := "resume-" + d1 + "-" + d2;
    assert StoredName(now, draw, originalName) == stem + ext;
    assert forall i :: 0 <= i < |stem| ==> stem[i] != '/' && stem[i] != '.' by {
      forall i | 0 <= i < |stem| ensures stem[i] != '/' && stem[i] != '.' {
        if 7 <= i < 7 + |d1| {
          assert stem[i] == d1[i - 7];
        } else if 8 + |d1| <= i {
          assert stem[i] == d2[i - 8 - |d1|];
        }
      }
    }
    if ext == "" {
      assert stem + ext == stem;
      Text.ExtnameWithoutDot(stem);
    } else {
      assert stem + ext != "..";
      Text.ExtnameOfStem(stem, ext);
    }
  }

  /** One part of a multipart body carrying a file. */
  datatype Incoming = Incoming(field: string, mime: string, originalName: string, size: nat)

  /** `req.file` once the middleware has stored it. */
  datatype StoredFile = StoredFile(originalName: string, mime: string, path: string, size: nat)

  /** `upload.single('resume')`. The first part is checked as soon as its header
      is read: the field name, the type filter, then the size limit while it is
      written. The count limit is only hit when a second part's header arrives,
      and of several errors only the first is reported. No file at all is not an
      error: `req.file` is simply unset. */
  function Receive(parts: seq<Incoming>, now: nat, draw: nat): (r: Result<Option<StoredFile>, UploadError>)
    ensures r.Ok? && r.value.Some? ==>
      && |parts| == 1 && parts[0].field == FIELD
      && FileFilter(parts[0].mime, parts[0].originalName).Ok?
      && WithinSizeLimit(parts[0].size)
      && r.value.value.path == UPLOADS_DIR + "/" + StoredName(now, draw, parts[0].originalName)
    ensures r.Ok? && r.value.None? <==> parts == []
    ensures |parts| > 0 ==> (r.Err? <==> !Acceptable(parts[0]) || |parts| > MAX_FILES)
    ensures |parts| > 0 && parts[0].field != FIELD ==> r == Err(MulterError("LIMIT_UNEXPECTED_FILE", "Unexpected field"))
    ensures |parts| > 0 && parts[0].field == FIELD && FileFilter(parts[0].mime, parts[0].originalName).Err? ==>
      r == Err(FileFilter(parts[0].mime, parts[0].originalName).error)
    ensures |parts| > 0 && parts[0].field == FIELD && FileFilter(parts[0].mime, parts[0].originalName).Ok? ==>
      !WithinSizeLimit(parts[0].size) ==> r == Err(MulterError("LIMIT_FILE_SIZE", "File too large"))
    ensures |parts| > MAX_FILES && Acceptable(parts[0]) ==> r == Err(MulterError("LIMIT_FILE_COUNT", "Too many files"))
  {
    if |parts| == 0 then Ok(None)
    else
      var p := parts[0];
      if p.field != FIELD then Err(MulterError("LIMIT_UNEXPECTED_FILE", "Unexpected field"))
      else match FileFilter(p.mime, p.originalName)
        case Err(e) => Err(e)
        case Ok(_) =>
          if !WithinSizeLimit(p.size) then Err(MulterError("LIMIT_FILE_SIZE", "File too large"))
          else if |parts| > MAX_FILES then Err(MulterError("LIMIT_FILE_COUNT", "Too many files"))
          else Ok(Some(StoredFile(p.originalName, p.mime, UPLOADS_DIR + "/" + StoredName(now, draw, p.originalName), p.size)))
  }

  /** The size limit as busboy 1.x enforces it, which multer 1.4.5-lts and 2.x
      use: the 'limit' event fires as soon as the bytes written reach
      `fileSize`, so a file of exactly the limit is refused too. */
  predicate WithinSizeLimit(size: nat) {
    size < MAX_FILE_SIZE
  }

  /** A part the middleware would store if it came alone. */
  predicate Acceptable(p: Incoming) {
    p.field == FIELD && FileFilter(p.mime, p.originalName).Ok? && WithinSizeLimit(p.size)
  }

  /** `handleUploadError`: the two limit codes and the filter's message get their
      own 400 replies; anything else goes on to the next error handler. */
  function HandleUploadError(e: UploadError): (r: Option<Response>)
    ensures r.Some? ==> r.value.status == 400 && r.value.body.Failure? && r.value.body.detail == Plain
    ensures r.None? <==>
      && !(e.MulterError? && (e.code == "LIMIT_FILE_SIZE" || e.code == "LIMIT_FILE_COUNT"))
      && e.message != FILTER_MESSAGE
  {
    if e.MulterError? && e.code == "LIMIT_FILE_SIZE" then Some(Fail(400, SIZE_REPLY))
    else if e.MulterError? && e.code == "LIMIT_FILE_COUNT" then Some(Fail(400, COUNT_REPLY))
    else if e.message == FILTER_MESSAGE then Some(Fail(400, FILTER_REPLY))
    else None
  }

  /** What the client sees for each way `Receive` can refuse a single part. */
  lemma ReceiveRefusals(p: Incoming, now: nat, draw: nat)
    ensures p.field == FIELD && FileFilter(p.mime, p.originalName).Err? ==>
      HandleUploadError(Receive([p], now, draw).error) == Some(Fail(400, FILTER_REPLY))
    ensures p.field == FIELD && FileFilter(p.mime, p.originalName).Ok? && p.size >= MAX_FILE_SIZE ==>
      HandleUploadError(Receive([p], now, draw).error) == Some(Fail(400, SIZE_REPLY))
    ensures p.field != FIELD ==>
      Receive([p], now, draw).Err? && HandleUploadError(Receive([p], now, draw).error).None?
  {
  }

  /** A second file is refused with the count message once the first one has
      passed its own checks. */
  lemma TwoFilesRefused(a: Incoming, b: Incoming, now: nat, draw: nat)
    requires Acceptable(a)
    ensures HandleUploadError(Receive([a, b], now, draw).error) == Some(Fail(400, COUNT_REPLY))
  {
  }

  /** A first part that fails its own checks decides the reply, whatever
      follows it: a wrong type gets the filter reply even with a second file. */
  lemma FirstPartDecides(a: Incoming, rest: seq<Incoming>, now: nat, draw: nat)
    requires !Acceptable(a)
    ensures Receive([a] + rest, now, draw) == Receive([a], now, draw)
    ensures a.field == FIELD && FileFilter(a.mime, a.originalName).Err? ==>
      HandleUploadError(Receive([a] + rest, now, draw).error) == Some(Fail(400, FILTER_REPLY))
  {
    assert ([a] + rest)[0] == a;
    ReceiveRefusals(a, now, draw);
  }

  /** A file one byte short of the limit is stored; a file of exactly the limit
      is refused with the size reply. */
  lemma SizeLimitReached(p: Incoming, now: nat, draw: nat)
    requires p.field == FIELD && FileFilter(p.mime, p.originalName).Ok?
    ensures p.size == MAX_FILE_SIZE - 1 ==> Receive([p], now, draw).Ok? && Receive([p], now, draw).value.Some?
    ensures p.size == MAX_FILE_SIZE ==> HandleUploadError(Receive([p], now, draw).error) == Some(Fail(400, SIZE_REPLY))
  {
  }
}

=== FILE: validation.dfy ===
/** The request-body rules that run before signup, login and job creation, and
    the middleware that turns their errors into a response. A chain's `trim()`
    sanitizer rewrites the field before the chain's rules read it; every rule of
    every chain runs (no chain stops at its first failure); an absent field reads
    as the empty string; `optional()` skips a chain only when the field is
    absent. `isEmail` and `normalizeEmail` are oracles. */
module Validation {
  import opened Wrappers
  import opened Models
  import opened Http
  import Accounts
  import Text
  import Numerals

  /** The text a rule sees for a field: an absent value reads as "". */
  function AsText(v: Option<string>): string {
    if v.Some? then v.value else ""
  }

  const FIELD_KIND := "field"
  const BODY := "body"

  /** One rule on the body field `path`, which holds `value` once sanitized:
      its error when the check fails, nothing otherwise. The error echoes the
      value back, whatever it is. */
  function Rule(ok: bool, path: string, value: Option<string>, msg: string): (e: seq<ValidationError>)
    ensures e == [] <==> ok
    ensures forall x :: x in e ==> x.path == path && x.value == value && x.msg == msg && x.location == BODY
  {
    if ok then [] else [ValidationError(FIELD_KIND, value, msg, path, BODY)]
  }

  /** A chain behind `optional()`: skipped entirely when the field is absent. */
  function Optional(v: Option<string>, rules: seq<ValidationError>): (e: seq<ValidationError>)
    ensures v.None? ==> e == []
    ensures v.Some? ==> e == rules
  {
    if v.None? then [] else rules
  }

  /** `handleValidationErrors`: 400 with the whole list, or on to the handler. */
  function HandleValidationErrors(errors: seq<ValidationError>): (r: Option<Response>)
    ensures r.None? <==> errors == []
    ensures r.Some? ==> r.value == Response(400, Failure("Validation failed", Errors(errors)))
  {
    if errors == [] then None else Some(Response(400, Failure("Validation failed", Errors(errors))))
  }

  /** `.notEmpty().isLength({ max })` on an already trimmed field: both rules run.
      `notEmpty` looks at the raw length, `isLength` at the validator's measure. */
  function RequiredChain(path: string, v: Option<string>, max: nat, required: string, tooLong: string): (e: seq<ValidationError>)
    ensures e == [] <==> v.Some? && 0 < |v.value| && Text.ValidatorLength(v.value) <= max
  {
    Rule(|AsText(v)| > 0, path, v, required) + Rule(Text.ValidatorLength(AsText(v)) <= max, path, v, tooLong)
  }

  /** `.optional()` then `.isLength({ max })` on an already trimmed field. */
  function OptionalMaxChain(path: string, v: Option<string>, max: nat, tooLong: string): (e: seq<ValidationError>)
    ensures e == [] <==> v.None? || Text.ValidatorLength(v.value) <= max
  {
    Optional(v, Rule(Text.ValidatorLength(AsText(v)) <= max, path, v, tooLong))
  }

  /** `.isEmail()` on the trimmed email, given the oracle's verdict on it. */
  function EmailChain(email: Option<string>, accepted: bool): (e: seq<ValidationError>)
    ensures e == [] <==> accepted
  {
    Rule(accepted, "email", email, "Please provide a valid email")
  }

  // ------------------------------------------------------------------ signup

  const NAME_MAX := 100
  const PASSWORD_MIN := 6
  const HEADLINE_MAX := 200
  const ADDRESS_MAX := 500

  /** A signup body as it arrives; absent fields are None. */
  datatype RawSignup = RawSignup(
    name: Option<string>, email: Option<string>, password: Option<string>,
    userType: Option<string>, profileHeadline: Option<string>, address: Option<string>)

  predicate IsRole(s: string) {
    s == ADMIN || s == APPLICANT
  }

  /** The body once the `trim()` sanitizers of `validateSignup` ran: name, email,
      headline and address are trimmed; password and userType are not. */
  function TrimSignup(b: RawSignup): RawSignup {
    b.(name := SetTrimmed(b.name), email := SetTrimmed(b.email),
       profileHeadline := SetTrimmed(b.profileHeadline), address := SetTrimmed(b.address))
  }

  /** The name, email and password chains on a sanitized body, in order. */
  function CredentialErrors(t: RawSignup, emailAccepted: bool): (e: seq<ValidationError>)
    ensures e == [] <==>
      && t.name.Some? && 0 < |t.name.value| && Text.ValidatorLength(t.name.value) <= NAME_MAX
      && emailAccepted
      && t.password.Some? && Text.ValidatorLength(t.password.value) >= PASSWORD_MIN
  {
    RequiredChain("name", t.name, NAME_MAX, "Name is required", "Name cannot exceed 100 characters")
    + EmailChain(t.email, emailAccepted)
    + Rule(Text.ValidatorLength(AsText(t.password)) >= PASSWORD_MIN, "password", t.password, "Password must be at least 6 characters long")
  }

  /** The userType, profileHeadline and address chains on a sanitized body. */
  function ProfileFieldErrors(t: RawSignup): (e: seq<ValidationError>)
    ensures e == [] <==>
      && (t.userType.None? || IsRole(t.userType.value))
      && (t.profileHeadline.None? || Text.ValidatorLength(t.profileHeadline.value) <= HEADLINE_MAX)
      && (t.address.None? || Text.ValidatorLength(t.address.value) <= ADDRESS_MAX)
  {
    Optional(t.userType, Rule(IsRole(AsText(t.userType)), "userType", t.userType, "User type must be either Admin or Applicant"))
    + OptionalMaxChain("profileHeadline", t.profileHeadline, HEADLINE_MAX, "Profile headline cannot exceed 200 characters")
    + OptionalMaxChain("address", t.address, ADDRESS_MAX, "Address cannot exceed 500 characters")
  }

  /** The errors of `validateSignup`, in the order its chains run. */
  function SignupErrors(b: RawSignup, isEmail: string -> bool): seq<ValidationError> {
    var t := TrimSignup(b);
    CredentialErrors(t, isEmail(AsText(t.email))) + ProfileFieldErrors(t)
  }

  /** What `validateSignup` admits, stated on the body as it arrives. */
  predicate ValidSignup(b: RawSignup, isEmail: string -> bool) {
    && b.name.Some? && 0 < |Text.Trim(b.name.value)| && Text.ValidatorLength(Text.Trim(b.name.value)) <= NAME_MAX
    && isEmail(Text.Trim(AsText(b.email)))
    && b.password.Some? && Text.ValidatorLength(b.password.value) >= PASSWORD_MIN
    && (b.userType.None? || IsRole(b.userType.value))
    && (b.profileHeadline.None? || Text.ValidatorLength(Text.Trim(b.profileHeadline.value)) <= HEADLINE_MAX)
    && (b.address.None? || Text.ValidatorLength(Text.Trim(b.address.value)) <= ADDRESS_MAX)
  }

  lemma SignupErrorsNone(b: RawSignup, isEmail: string -> bool)
    ensures SignupErrors(b, isEmail) == [] <==> ValidSignup(b, isEmail)
  {
    var t := TrimSignup(b);
    var c := CredentialErrors(t, isEmail(AsText(t.email)));
    var f := ProfileFieldErrors(t);
    assert SignupErrors(b, isEmail) == c + f;
    assert c + f == [] <==> c == [] && f == [] by {
      if c + f == [] { assert |c + f| == |c| + |f|; }
    }
    assert AsText(t.email) == Text.Trim(AsText(b.email));
  }

  /** A name that is blank once trimmed is reported as missing, first of all. */
  lemma BlankNameReported(b: RawSignup, isEmail: string -> bool)
    requires |Text.Trim(AsText(b.name))| == 0
    ensures SignupErrors(b, isEmail)[0] == ValidationError(FIELD_KIND, SetTrimmed(b.name), "Name is required", "name", BODY)
  {
    var t := TrimSignup(b);
    assert |AsText(t.name)| == 0;
  }

  /** A password that is too short is sent back in the 400 reply, unchanged;
      so two refused bodies that differ only in such a password get different
      replies. */
  lemma ShortPasswordEchoed(b: RawSignup, isEmail: string -> bool, normalize: string -> string)
    requires b.password.Some? && Text.ValidatorLength(b.password.value) < PASSWORD_MIN
    ensures var r := CheckSignup(b, isEmail, normalize);
      && r.Err? && r.error.status == 400 && r.error.body.Failure? && r.error.body.detail.Errors?
      && ValidationError(FIELD_KIND, b.password, "Password must be at least 6 characters long", "password", BODY)
           in r.error.body.detail.errors
  {
    var t := TrimSignup(b);
    var c := CredentialErrors(t, isEmail(AsText(t.email)));
    var pw := Rule(Text.ValidatorLength(AsText(t.password)) >= PASSWORD_MIN, "password", t.password,
                   "Password must be at least 6 characters long");
    assert pw == [ValidationError(FIELD_KIND, b.password, "Password must be at least 6 characters long", "password", BODY)];
    assert c == RequiredChain("name", t.name, NAME_MAX, "Name is required", "Name cannot exceed 100 characters")
                + EmailChain(t.email, isEmail(AsText(t.email))) + pw;
    assert pw[0] in c;
    assert SignupErrors(b, isEmail) == c + ProfileFieldErrors(t);
    assert pw[0] in SignupErrors(b, isEmail);
  }

  /** `validateSignup` followed by the handler's reading of the body: the
      trimmed name, the trimmed and normalised email, the untouched password and
      role, the trimmed headline and address. */
  function CheckSignup(b: RawSignup, isEmail: string -> bool, normalize: string -> string): (r: Result<Accounts.SignupBody, Response>)
    ensures r.Ok? <==> ValidSignup(b, isEmail)
    ensures r.Err? ==> Some(r.error) == HandleValidationErrors(SignupErrors(b, isEmail))
    ensures r.Ok? ==>
      && b.name.Some? && b.password.Some?
      && r.value == Accounts.SignupBody(Text.Trim(b.name.value), normalize(Text.Trim(AsText(b.email))), b.password.value,
                                        b.userType, SetTrimmed(b.profileHeadline), SetTrimmed(b.address))
  {
    SignupErrorsNone(b, isEmail);
    match HandleValidationErrors(SignupErrors(b, isEmail))
    case Some(resp) => Err(resp)
    case None =>
      Ok(Accounts.SignupBody(Text.Trim(b.name.value), normalize(Text.Trim(AsText(b.email))), b.password.value,
                             b.userType, SetTrimmed(b.profileHeadline), SetTrimmed(b.address)))
  }

  /** After validation the new account's role is the one asked for, or applicant
      when none was; it is never anything else. */
  lemma ValidatedRole(userType: Option<string>)
    requires userType.None? || IsRole(userType.value)
    ensures var role := Accounts.RoleOf(userType);
      IsRole(role) && (userType.Some? ==> role == userType.value)
  {
    if userType.Some? {
      assert |userType.value| > 0 by { assert |ADMIN| > 0 && |APPLICANT| > 0; }
    }
  }

  // ------------------------------------------------------------------- login

  /** The errors of `validateLogin`; the password is not trimmed, so a blank one passes. */
  function LoginErrors(email: Option<string>, password: Option<string>, isEmail: string -> bool): (e: seq<ValidationError>)
    ensures e == [] <==> isEmail(Text.Trim(AsText(email))) && password.Some? && password.value != ""
    ensures password == Some(" ") && isEmail(Text.Trim(AsText(email))) ==> e == []
  {
    EmailChain(SetTrimmed(email), isEmail(Text.Trim(AsText(email))))
    + Rule(AsText(password) != "", "password", password, "Password is required")
  }

  /** `validateLogin` followed by the handler's reading of the body. */
  function CheckLogin(email: Option<string>, password: Option<string>, isEmail: string -> bool, normalize: string -> string): (r: Result<(string, string), Response>)
    ensures r.Ok? <==> LoginErrors(email, password, isEmail) == []
    ensures r.Err? ==> Some(r.error) == HandleValidationErrors(LoginErrors(email, password, isEmail))
    ensures r.Ok? ==> password.Some? && r.value == (normalize(Text.Trim(AsText(email))), password.value)
  {
    match HandleValidationErrors(LoginErrors(email, password, isEmail))
    case Some(resp) => Err(resp)
    case None => Ok((normalize(Text.Trim(AsText(email))), password.value))
  }

  // ------------------------------------------------------------ job creation

  /** The text after an optional leading sign. */
  function Unsigned(s: string): (t: string)
    ensures t == s || (|s| > 0 && (s[0] == '+' || s[0] == '-') && t == s[1..])
  {
    if |s| > 0 && (s[0] == '+' || s[0] == '-') then s[1..] else s
  }

  /** `[0-9]+` or `[0-9]*[.][0-9]+`. */
  predicate UnsignedNumeric(t: string) {
    var k := Numerals.DigitPrefix(t);
    || (k == |t| && k > 0)
    || (k + 1 < |t| && t[k] == '.' && Numerals.AllDigits(t[k + 1..]))
  }

  /** `isNumeric`: an optional sign, then digits with at most one decimal point
      that is followed by at least one digit. */
  predicate IsNumeric(s: string) {
    UnsignedNumeric(Unsigned(s))
  }

  predicate IsSign(sign: string) {
    |sign| <= 1 && (|sign| == 1 ==> sign[0] == '+' || sign[0] == '-')
  }

  lemma UnsignedOf(sign: string, t: string)
    requires IsSign(sign)
    requires |t| > 0 && t[0] != '+' && t[0] != '-'
    ensures Unsigned(sign + t) == t
  {
    if |sign| == 1 {
      assert (sign + t)[1..] == t;
    } else {
      assert sign + t == t;
    }
  }

  /** A sign (or none) followed by digits is accepted. */
  lemma IntegerAccepted(sign: string, b: string)
    requires IsSign(sign) && Numerals.AllDigits(b) && |b| > 0
    ensures IsNumeric(sign + b)
  {
    UnsignedOf(sign, b);
    Numerals.DigitPrefixOf(b, "");
    assert b + "" == b;
  }

  /** A sign (or none), digits (or none), a point and at least one digit is accepted. */
  lemma FractionAccepted(sign: string, a: string, b: string)
    requires IsSign(sign) && Numerals.AllDigits(a) && Numerals.AllDigits(b) && |b| > 0
    ensures IsNumeric(sign + (a + "." + b))
  {
    var t := a + "." + b;
    assert t[0] == if |a| > 0 then a[0] else '.';
    UnsignedOf(sign, t);
    Numerals.DigitPrefixOf(a, "." + b);
    assert a + ("." + b) == t;
    assert t[|a|] == '.';
    assert t[|a| + 1..] == b;
  }

  /** An accepted string ends in a digit and is made of digits, points and a
      leading sign only; so "", ".", "1." and "1e5" are refused. */
  lemma NumericShape(s: string)
    requires IsNumeric(s)
    ensures |s| > 0 && Numerals.IsDigit(s[|s| - 1])
    ensures forall i :: 0 < i < |s| ==> Numerals.IsDigit(s[i]) || s[i] == '.'
  {
    var t := Unsigned(s);
    var k := Numerals.DigitPrefix(t);
    assert s == t || s == [s[0]] + t;
    if k == |t| && k > 0 {
      assert t[..k] == t;
    } else {
      assert t == t[..k] + [t[k]] + t[k + 1..];
    }
  }

  /** A job body as it arrives; absent fields are None. */
  type RawJob = JobInput

  /** The body once the `trim()` sanitizers of `validateJobCreation` ran: every
      text field but `jobType` and the salary bounds is trimmed. */
  function TrimJob(b: RawJob): RawJob {
    b.(title := SetTrimmed(b.title), description := SetTrimmed(b.description),
       companyName := SetTrimmed(b.companyName), requirements := SetTrimmed(b.requirements),
       location := SetTrimmed(b.location))
  }

  /** The title, description and companyName chains on a sanitized body. */
  function RequiredJobErrors(t: RawJob): (e: seq<ValidationError>)
    ensures e == [] <==>
      && t.title.Some? && 0 < |t.title.value| && Text.ValidatorLength(t.title.value) <= TITLE_MAX
      && t.description.Some? && 0 < |t.description.value| && Text.ValidatorLength(t.description.value) <= DESCRIPTION_MAX
      && t.companyName.Some? && 0 < |t.companyName.value| && Text.ValidatorLength(t.companyName.value) <= COMPANY_MAX
  {
    RequiredChain("title", t.title, TITLE_MAX, "Job title is required", "Job title cannot exceed 200 characters")
    + RequiredChain("description", t.description, DESCRIPTION_MAX, "Job description is required", "Job description cannot exceed 2000 characters")
    + RequiredChain("companyName", t.companyName, COMPANY_MAX, "Company name is required", "Company name cannot exceed 100 characters")
  }

  /** The requirements, location, jobType and salary chains on a sanitized body. */
  function OptionalJobErrors(t: RawJob): (e: seq<ValidationError>)
    ensures e == [] <==>
      && (t.requirements.None? || Text.ValidatorLength(t.requirements.value) <= REQUIREMENTS_MAX)
      && (t.location.None? || Text.ValidatorLength(t.location.value) <= LOCATION_MAX)
      && (t.jobType.None? || ParseJobType(t.jobType.value).Some?)
      && (t.salaryMin.None? || IsNumeric(t.salaryMin.value))
      && (t.salaryMax.None? || IsNumeric(t.salaryMax.value))
  {
    OptionalMaxChain("requirements", t.requirements, REQUIREMENTS_MAX, "Requirements cannot exceed 1000 characters")
    + OptionalMaxChain("location", t.location, LOCATION_MAX, "Location cannot exceed 100 characters")
    + Optional(t.jobType, Rule(ParseJobType(AsText(t.jobType)).Some?, "jobType", t.jobType, "Invalid job type"))
    + Optional(t.salaryMin, Rule(IsNumeric(AsText(t.salaryMin)), "salaryRange.min", t.salaryMin, "Minimum salary must be a number"))
    + Optional(t.salaryMax, Rule(IsNumeric(AsText(t.salaryMax)), "salaryRange.max", t.salaryMax, "Maximum salary must be a number"))
  }

  /** The errors of `validateJobCreation`, in the order its chains run. */
  function JobCreationErrors(b: RawJob): seq<ValidationError> {
    var t := TrimJob(b);
    RequiredJobErrors(t) + OptionalJobErrors(t)
  }

  /** What `validateJobCreation` admits, stated on the body as it arrives: the
      Job schema's bounds, but measured as `isLength` measures, and numeric
      salary bounds on top. */
  predicate ValidJobBody(b: RawJob) {
    && b.title.Some? && 0 < |Text.Trim(b.title.value)| && Text.ValidatorLength(Text.Trim(b.title.value)) <= TITLE_MAX
    && b.description.Some? && 0 < |Text.Trim(b.description.value)|
    && Text.ValidatorLength(Text.Trim(b.description.value)) <= DESCRIPTION_MAX
    && b.companyName.Some? && 0 < |Text.Trim(b.companyName.value)|
    && Text.ValidatorLength(Text.Trim(b.companyName.value)) <= COMPANY_MAX
    && (b.requirements.None? || Text.ValidatorLength(Text.Trim(b.requirements.value)) <= REQUIREMENTS_MAX)
    && (b.location.None? || Text.ValidatorLength(Text.Trim(b.location.value)) <= LOCATION_MAX)
    && (b.jobType.None? || ParseJobType(b.jobType.value).Some?)
    && (b.salaryMin.None? || IsNumeric(b.salaryMin.value))
    && (b.salaryMax.None? || IsNumeric(b.salaryMax.value))
  }

  lemma JobCreationErrorsNone(b: RawJob)
    ensures JobCreationErrors(b) == [] <==> ValidJobBody(b)
  {
  }

  /** `validateJobCreation` followed by the handler's reading of the body. */
  function CheckJob(b: RawJob): (r: Result<JobInput, Response>)
    ensures r.Ok? <==> ValidJobBody(b)
    ensures r.Err? ==> Some(r.error) == HandleValidationErrors(JobCreationErrors(b))
    ensures r.Ok? ==> r.value == TrimJob(b)
  {
    JobCreationErrorsNone(b);
    match HandleValidationErrors(JobCreationErrors(b))
    case Some(resp) => Err(resp)
    case None => Ok(TrimJob(b))
  }

  /** The schema's bounds on the sanitized texts of a body, in UTF-16 code units. */
  predicate FitsSchema(t: RawJob) {
    && (t.title.Some? ==> Text.Utf16Length(t.title.value) <= TITLE_MAX)
    && (t.description.Some? ==> Text.Utf16Length(t.description.value) <= DESCRIPTION_MAX)
    && (t.companyName.Some? ==> Text.Utf16Length(t.companyName.value) <= COMPANY_MAX)
    && (t.requirements.Some? ==> Text.Utf16Length(t.requirements.value) <= REQUIREMENTS_MAX)
    && (t.location.Some? ==> Text.Utf16Length(t.location.value) <= LOCATION_MAX)
  }

  /** A body the validator passes is saved by the Job schema exactly when its
      trimmed texts also fit the schema's bounds in UTF-16 code units, which
      `isLength` does not measure; the setters leave the sanitized text as it
      is. */
  lemma ValidatedJobSaves(b: RawJob, postedBy: Id, now: Time)
    requires CheckJob(b).Ok?
    ensures NewJob(CheckJob(b).value, postedBy, now).Ok? <==> FitsSchema(CheckJob(b).value)
    ensures NewJob(CheckJob(b).value, postedBy, now).Ok? ==>
      var j := NewJob(CheckJob(b).value, postedBy, now).value;
      j.title == Text.Trim(b.title.value) && j.requirements == SetTrimmed(b.requirements)
  {
    assert CheckJob(b).value == TrimJob(b);
    TrimmedJobSaves(b, postedBy, now);
  }

  lemma TrimmedJobSaves(b: RawJob, postedBy: Id, now: Time)
    requires b.title.Some? && 0 < |Text.Trim(b.title.value)|
    requires b.description.Some? && 0 < |Text.Trim(b.description.value)|
    requires b.companyName.Some? && 0 < |Text.Trim(b.companyName.value)|
    requires b.jobType.None? || ParseJobType(b.jobType.value).Some?
    ensures NewJob(TrimJob(b), postedBy, now).Ok? <==> FitsSchema(TrimJob(b))
    ensures NewJob(TrimJob(b), postedBy, now).Ok? ==>
      var j := NewJob(TrimJob(b), postedBy, now).value;
      j.title == Text.Trim(b.title.value) && j.requirements == SetTrimmed(b.requirements)
  {
    SanitizedAcceptable(b);
    SanitizedFits(b.title, TITLE_MAX);
    SanitizedFits(b.requirements, REQUIREMENTS_MAX);
  }

  /** On a validated body the schema's own trimming changes nothing, so only its
      UTF-16 bounds remain to be met. */
  lemma SanitizedAcceptable(b: RawJob)
    requires b.title.Some? && 0 < |Text.Trim(b.title.value)|
    requires b.description.Some? && 0 < |Text.Trim(b.description.value)|
    requires b.companyName.Some? && 0 < |Text.Trim(b.companyName.value)|
    requires b.jobType.None? || ParseJobType(b.jobType.value).Some?
    ensures AcceptableJob(TrimJob(b)) <==> FitsSchema(TrimJob(b))
  {
    var t := TrimJob(b);
    SanitizedFits(b.title, TITLE_MAX);
    SanitizedFits(b.description, DESCRIPTION_MAX);
    SanitizedFits(b.companyName, COMPANY_MAX);
    SanitizedFits(b.requirements, REQUIREMENTS_MAX);
    SanitizedFits(b.location, LOCATION_MAX);
  }

  /** Trimming a sanitized field again keeps it, so a bound on its trim is a
      bound on the field itself. */
  lemma SanitizedFits(v: Option<string>, max: nat)
    ensures var w := SetTrimmed(v);
      && (w.Some? ==> Text.Trim(w.value) == w.value)
      && ((w.None? || Text.Utf16Length(Text.Trim(w.value)) <= max) <==> (w.Some? ==> Text.Utf16Length(w.value) <= max))
  {
    if v.Some? { Text.TrimIdempotent(v.value); }
  }

  /** Text without astral characters and variation selectors measures the same
      both ways. */
  predicate Plain(v: Option<string>) {
    v.Some? ==> forall i :: 0 <= i < |v.value| ==> !Text.IsAstral(v.value[i]) && !Text.IsVariationSelector(v.value[i])
  }

  lemma PlainMeasuresAgree(v: Option<string>)
    requires Plain(v)
    ensures v.Some? ==> Text.Utf16Length(v.value) == Text.ValidatorLength(v.value) == |v.value|
  {
    if v.Some? {
      Text.Utf16LengthExact(v.value);
      Text.ValidatorLengthExact(v.value);
    }
  }

  /** For plain text the two measures agree, so a validated body is saved. */
  lemma PlainValidatedJobSaves(b: RawJob, postedBy: Id, now: Time)
    requires CheckJob(b).Ok?
    requires var t := CheckJob(b).value;
      Plain(t.title) && Plain(t.description) && Plain(t.companyName) && Plain(t.requirements) && Plain(t.location)
    ensures NewJob(CheckJob(b).value, postedBy, now).Ok?
  {
    var t := CheckJob(b).value;
    PlainMeasuresAgree(t.title);
    PlainMeasuresAgree(t.description);
    PlainMeasuresAgree(t.companyName);
    PlainMeasuresAgree(t.requirements);
    PlainMeasuresAgree(t.location);
    assert FitsSchema(t);
    ValidatedJobSaves(b, postedBy, now);
  }

  /** 200 letters and a variation selector: `isLength` counts 200, `length` 201. */
  function SelectorTitle(): (t: string)
    ensures Text.ValidatorLength(t) == TITLE_MAX && Text.Utf16Length(t) == TITLE_MAX + 1
    ensures Text.IsTrimmed(t)
  {
    var a := seq(TITLE_MAX, _ => 'a');
    var t := a + ['\U{FE0F}'];
    assert Plain(Some(a));
    PlainMeasuresAgree(Some(a));
    Text.LengthsAppend(a, ['\U{FE0F}']);
    assert Text.ValidatorLength(['\U{FE0F}']) == 0;
    t
  }

  /** A title the validator passes and the schema refuses: the body gets past
      `validateJobCreation`, and `createJob` then fails on `maxlength`. */
  lemma SelectorTitlePassesValidation(postedBy: Id, now: Time)
    ensures var b := JobInput(Some(SelectorTitle()), Some("d"), Some("c"), None, None, None, None, None, None);
      && CheckJob(b).Ok?
      && NewJob(CheckJob(b).value, postedBy, now).Err?
  {
    var t := SelectorTitle();
    Text.TrimOfTrimmed(t);
    assert Text.IsTrimmed("d") && Text.IsTrimmed("c");
    Text.TrimOfTrimmed("d");
    Text.TrimOfTrimmed("c");
    var b := JobInput(Some(t), Some("d"), Some("c"), None, None, None, None, None, None);
    assert TrimJob(b) == b;
    assert ValidJobBody(b);
    TrimmedJobSaves(b, postedBy, now);
    assert !FitsSchema(TrimJob(b));
  }
}

=== FILE: wrappers.dfy ===
/** Option and Result, the two failure-carrying shapes the handlers return. */
module Wrappers {

  /** A value that may be absent: JavaScript's `undefined` for an optional field. */
  datatype Option<+T> = None | Some(value: T)

  /** A computation that either produced a value or stopped with an error value. */
  datatype Result<+T, +E> = Ok(value: T) | Err(error: E)
}
